=== FILE: README.md ===
# Feedback-System core in Dafny

A model of the core of a customer-feedback dashboard, with proofs about it. The core has two halves.

**The server:**
- a lexicon-based sentiment scorer;
- the rules of the HTTP routes that list, create and analyse feedback and compute the dashboard statistics;
- the in-memory store (`MemStorage`), holding users, feedback, email templates, feedback forms and brand settings under auto-incremented ids;
- the record shapes and insert shapes of the shared schema;
- the sample data the store is seeded with.

**The client:**
- the sentiment label, emoji and star-rating helpers;
- `truncateText`, the sentiment colour/icon helpers, `calculatePercentChange` and the text that `downloadAsCSV` builds;
- the hex-colour input;
- the public feedback form: its validation, the comma-separated tags transform, and the body it posts;
- the template editor: its validation, default values, and the preview with the feedback button;
- the template list: its find, duplicate, edit and delete actions.

Modules and files:

| module | file | models |
|---|---|---|
| `Wrappers` | wrappers.dfy | `Option` and `Result` |
| `Arith` | arith.dfy | `Math.round` of a ratio (half up), clamping |
| `Text` | text.dfy | JavaScript string helpers: `split`, `join`, `trim`, `toLowerCase`, `indexOf`, `replace`, `String(n)` and `parseInt` |
| `Schema` | schema.dfy | the schema's records, insert shapes, enums and column defaults |
| `Table` | table.dfy | a JavaScript `Map<number, T>` as an insertion-ordered list of entries |
| `Sorting` | sorting.dfy | `filter`, and `Array.prototype.sort` by descending key (a stable sort) |
| `Scorer` | scorer.dfy | the server's `analyzeSentiment` |
| `Storage` | storage.dfy | `MemStorage` |
| `SampleData` | sample_data.dfy | `initializeSampleData` |
| `Routes` | routes.dfy | the feedback, analysis and statistics routes |
| `ClientSentiment` | client_sentiment.dfy | client/src/lib/sentiment.ts |
| `Utils` | utils.dfy | client/src/lib/utils.ts, except the CSV builder |
| `Csv` | csv.dfy | `downloadAsCSV`'s text |
| `ColorPicker` | color_picker.dfy | client/src/components/color-picker.tsx |
| `SubmitFeedback` | submit_feedback.dfy | client/src/pages/submit-feedback.tsx |
| `TemplateForm` | template_form.dfy | client/src/components/templates/template-form.tsx |
| `TemplateList` | template_list.dfy | client/src/components/templates/template-list.tsx |

Scorer environment:
- The word tokenizer, the Porter stemmer and the AFINN lexicon come from the `natural` library.
- They are a parameter of the scorer: `Scorer.Analyzer` holds a tokenize function, a stem function and the lexicon as a map.
- Every property of the scorer holds for any such analyzer.

Store invariant:
- Each table's keys increase strictly.
- Each key lies below the table's next id.
- Each record's `id` equals its key.
- Every operation keeps the invariant for request bodies without an `id` key, and ids are never reused. A body `id` passed to an update is not modelled (see "## Left out").

Number model:
- Numbers are unbounded integers where the source uses integral values.
- Averages and percentages are exact rationals.
- `Math.round(n / d)` is written as round-half-up integer arithmetic.
- Lemmas prove that this rounding gives the nearest integer to the real quotient.

## Model

| member | source | states |
|---|---|---|
| Scorer.TallyOf | server/routes.ts:26-34 | the count of lexicon hits never exceeds the word count, and it is zero exactly when no word has a truthy weight |
| Scorer.Truthy | server/routes.ts:30 | the loop's `if (afinn[word])`: the word is in the lexicon with a non-zero weight |
| Scorer.Step | server/routes.ts:29-34 | one loop step either leaves the tally alone, exactly when the word is not truthy, or adds one hit and moves the sum |
| Scorer.TallyAppend | server/routes.ts:29-34 | the running score and count over two word lists concatenated are the sums of the two separate tallies |
| Scorer.TallySnoc | server/routes.ts:29-34 | one more word extends the tally by exactly one loop step |
| Scorer.IgnoredWordAddsNothing | server/routes.ts:30 | a word whose weight is missing or 0 can be removed anywhere without changing the tally |
| Scorer.TallyPermutation | server/routes.ts:29-34 | word lists that are permutations of each other have the same tally |
| Scorer.MatchLast | server/routes.ts:29-34 | in a permutation the last word of one list occurs in the other, and the remainders are again permutations |
| Scorer.TallyMoveToEnd | server/routes.ts:29-34 | moving any word to the end of the list leaves the tally unchanged |
| Scorer.TallyBounded | server/routes.ts:38-40 | with AFINN-range weights (-5..5) the score lies between -5 and 5 times the count |
| Scorer.RoundedIsNearest | server/routes.ts:40-41 | the unclamped score `round((sum/count + 5) * 10)` is within one half of the exact value |
| Scorer.Rounded | server/routes.ts:42 | `Math.round((rawScore + 5) * 10)` on the exact quotient; no contract of its own, its meaning (within one half of the exact value) is stated by Scorer.RoundedIsNearest |
| Scorer.Exact | server/routes.ts:40-41 | the real value `(sum / count + 5) * 10` that the score rounds |
| Scorer.NormalizedScore | server/routes.ts:37-44 | the score is in 0..100, is 50 with no hits or a zero sum, and is otherwise the rounded exact value, or the clamp bound the exact value falls beyond |
| Scorer.Classify | server/routes.ts:46-54 | positive iff score >= 65, negative iff score <= 35, neutral iff strictly between |
| Scorer.Stems | server/routes.ts:17-23 | one stem per token, each the stem of the token in the same position |
| Scorer.Analyze | server/routes.ts:15-57 | the score is in 0..100, the sentiment is the score's class, and a text without lexicon hits is neutral with score 50 |
| Scorer.AnalyzeSentiment | server/routes.ts:15-57 | the loop-based method computes exactly the functional analysis |
| Scorer.OrderIndependent | server/routes.ts:29-44 | texts whose stems are permutations of each other get the same sentiment and score |
| Scorer.StrongerWordNeverLowers | server/routes.ts:29-44 | replacing a scored word by one of no lower weight never lowers the score |
| Scorer.SwapTally | server/routes.ts:29-34 | that replacement keeps the hit count and does not lower the sum |
| Scorer.NormalizedMonotone | server/routes.ts:37-44 | with the same hit count, a larger sum never gives a smaller score |
| Scorer.BoundedWeightsNeedNoClamp | server/routes.ts:41-42 | with weights in -5..5 the clamp never changes the rounded score |
| Routes.ListFeedback | server/routes.ts:63-72 | a query naming a valid sentiment lists the store by that sentiment; any other or missing query lists all feedback |
| Routes.ListFeedbackSelects | server/routes.ts:63-72 | the listing is newest first and holds exactly the stored feedback with the requested sentiment, or all of it |
| Routes.SelectsSentiment | server/routes.ts:65-68 | the query is present, non-empty and one of the sentiment labels |
| Routes.SelectsExactlyTheLabels | server/routes.ts:65-68 | exactly the queries "positive", "neutral" and "negative" select; an empty, unknown or missing one does not |
| Routes.AutoFill | server/routes.ts:105-110 | when the sentiment or score is missing or falsy, both come from analysing the message; the other fields are kept |
| Routes.NeedsAnalysis | server/routes.ts:106 | `!sentiment` or `!sentimentScore`: an empty sentiment, or a missing or zero score |
| Routes.FilledBodyNeedsAnalysis | server/routes.ts:105-110 | after the fill a body still fails the falsy test exactly when it needed the analysis and the analysis scored 0 |
| Routes.AutoFillIdempotent | server/routes.ts:105-110 | auto-filling an already filled body changes nothing |
| Routes.PostFeedback | server/routes.ts:98-117 | a typed body (see "## Left out") is rejected with "Invalid feedback data" iff it lacks the customer, sentiment or message; otherwise the stored record gets the next id and exactly the auto-filled fields (the client's sentiment and score when both are truthy, the analysis of the message otherwise, as Routes.AutoFill states), and the body's date when it is truthy (not 0) or else the current time |
| Routes.TruthyDate | server/storage.ts:248 | the date `createFeedback` takes from the body: a missing date or 0 becomes absent (and so the current time), any other date is passed on unchanged |
| Routes.AnalyzeRequest | server/routes.ts:336-348 | a missing, non-string or empty text is an error with the required-text message; any other text gets the scorer's analysis |
| Routes.Percent | server/routes.ts:379-383 | the percentage is in 0..100 and is the nearest integer to 100·count/total |
| Routes.CountLabel | server/routes.ts:373-375 | a label count never exceeds the number of records |
| Routes.SentimentDistribution | server/routes.ts:373-383 | each share is in 0..100, and no feedback gives all zeros (the total falls back to 1) |
| Routes.CountsPartition | server/routes.ts:373-375 | when every record carries one of the three labels, the three counts add up to the number of records |
| Routes.DistributionSumsNear100 | server/routes.ts:373-383 | the three rounded percentages add up to between 99 and 101 |
| Routes.ThreeRoundedSum | server/routes.ts:379-383 | three half-up roundings of parts of a whole 100 add up to between 99 and 101 |
| Routes.UnanimousDistribution | server/routes.ts:373-383 | all-positive feedback gives the distribution 100/0/0 |
| Routes.PercentOfAll | server/routes.ts:380 | a count equal to the total is 100 percent |
| Routes.PercentOfNone | server/routes.ts:380 | a zero count is 0 percent |
| Routes.FilterKeepsAll | server/routes.ts:373 | a filter that every record passes keeps the list as it is |
| Routes.FilterDropsAll | server/routes.ts:374-375 | a filter no record passes gives the empty list |
| Routes.DashboardStats | server/routes.ts:351-398 | active campaigns are the templates with status "active", the response rate is the constant 24, and the distribution is over all stored feedback |
| Routes.IsActive | server/routes.ts:365 | the `t.status === "active"` test; no contract of its own, Routes.DashboardStats states that the active-campaign count is the number of stored templates it accepts |
| Routes.CountIgnoresOrder | server/routes.ts:351-375 | counting a label over the sorted listing gives the same result as over the stored order |
| Storage.InsertFreshKeepsValid | server/storage.ts:243-252 | the next id is not yet a key, and inserting a record under it (then advancing the counter) keeps the table valid |
| Storage.ReplaceKeepsValid | server/storage.ts:254-261 | overwriting an existing key with a record of that id keeps the table valid |
| Storage.DeleteKeepsValid | server/storage.ts:263-265 | deleting any key keeps the table valid |
| Storage.Blank | server/storage.ts:62-74 | the fresh store is valid, empty, and every id counter starts at 1 |
| Storage.FindUser | server/storage.ts:213-217 | the user found has the name and is the first in insertion order; nothing is found iff no user has the name |
| Storage.GetUserByUsername | server/storage.ts:213-217 | the user found is stored and has the name; nothing is found iff no stored user has it |
| Storage.CreateUser | server/storage.ts:219-224 | the user gets the next id, is stored under it, and the counter advances; validity is kept |
| Storage.GetAllFeedback | server/storage.ts:227-231 | the listing is a permutation of the stored feedback, sorted newest first |
| Storage.GetFeedbackBySentiment | server/storage.ts:237-241 | the listing is sorted newest first |
| Storage.BySentimentIsFilteredListing | server/storage.ts:237-241 | the by-sentiment listing is the full listing filtered, and holds exactly the stored feedback with that sentiment |
| Storage.CreateFeedback | server/storage.ts:243-252 | the record gets the next id, the inserted fields, and the given date or else the current time; it is stored, nothing else changes, validity is kept |
| Storage.PatchFeedback | server/storage.ts:254-261 | each field of the typed patch is the patch's value when present, else the old one; the id and date are kept (a body `id` or `date` key is not modelled) |
| Storage.PatchFeedbackIdempotent | server/storage.ts:254-261 | applying a patch twice equals applying it once, and the empty patch changes nothing |
| Storage.UpdateFeedback | server/storage.ts:254-261 | an unknown id returns nothing and leaves the store alone; a known one is patched in place and no other record changes |
| Storage.DeleteFeedback | server/storage.ts:263-265 | reports true iff the id was stored; afterwards it is absent, other records and the counter are untouched, and validity is kept |
| Storage.ListingsHoldStoredRecords | server/storage.ts:268-270 | a template or form is listed iff it is stored under some id |
| Storage.GetAllTemplates | server/storage.ts:268-270 | one template per entry, in insertion order, which for a valid store is increasing id order, each listed under its own id |
| Storage.GetAllForms | server/storage.ts:305-307 | one form per entry, in increasing id order for a valid store, each listed under its own id |
| Storage.CreateTemplate | server/storage.ts:276-285 | the template gets the next id, the inserted fields and the current time as last edit; it is stored and nothing else changes |
| Storage.PatchTemplate | server/storage.ts:287-298 | each field of the typed patch is the patch's value when present, else the old one; the id is kept (a body `id` key is not modelled) and the last edit becomes now |
| Storage.UpdateTemplate | server/storage.ts:287-298 | an unknown id returns nothing and leaves the store alone; a known one is patched in place and nothing else changes |
| Storage.DeleteTemplate | server/storage.ts:300-302 | reports true iff the id was stored; afterwards it is absent and every other template is untouched |
| Storage.CreateForm | server/storage.ts:313-318 | the form gets the next id and the inserted fields, is stored, and nothing else changes |
| Storage.PatchForm | server/storage.ts:320-327 | each field of the typed patch is the patch's value when present, else the old one; the id is kept (a body `id` key is not modelled) |
| Storage.UpdateForm | server/storage.ts:320-327 | an unknown id returns nothing and leaves the store alone; a known one is patched in place |
| Storage.DeleteForm | server/storage.ts:329-331 | reports true iff the id was stored; afterwards it is absent, the others are untouched, and validity is kept |
| Storage.UpdateBrandSettings | server/storage.ts:338-345 | the settings are replaced whole under the fixed brand-settings id, and nothing else changes |
| Storage.Step | server/storage.ts:243-265 | one feedback operation keeps the store valid, and every id it issues is the next counter value in turn |
| Storage.Run | server/storage.ts:243-265 | a run of feedback operations keeps validity and issues consecutive ids, none of them already stored |
| Storage.DeletedIdNeverReissued | server/storage.ts:243-265 | after a record is deleted, no later create gives its id to another record |
| SampleData.SeedsAt | server/storage.ts:79-125 | the i-th seeded feedback entry has id next+i and the i-th sample's fields and date |
| SampleData.AddFeedback | server/storage.ts:79-125 | seeding feedback keeps the store valid, advances the counter by the number of items, and touches only the feedback |
| SampleData.CreateAppends | server/storage.ts:243-252 | creating one seeded record appends its entry at the end of the table |
| SampleData.AddFeedbackAppends | server/storage.ts:79-125 | seeding appends the entries, in order, after the existing ones |
| SampleData.AppendsStep | server/storage.ts:79-125 | the appended entries of one item and of the rest together are the seeded entries of all items |
| SampleData.AddTemplates | server/storage.ts:127-151 | seeding templates keeps validity, advances the template counter by the number of items, and touches only the templates |
| SampleData.Seed | server/storage.ts:62-206 | the seeded store is valid, and its counters equal one more than the number of seeded records |
| SampleData.SampleBrandSettings | server/storage.ts:153-165 | the seeded settings carry the given id, and their primary colour is the schema's default "#3B82F6" |
| SampleData.Initialize | server/storage.ts:62-76 | the constructed store is valid, holds no users, has the sample settings under id 1, and its counters stand after the five feedback records, the templates and one form |
| SampleData.AddedFeedbackListedInOrder | server/storage.ts:79-125 | samples given newest first are stored and listed in exactly that order |
| SampleData.SeedsSorted | server/storage.ts:79-125 | seeded entries whose dates do not increase are sorted newest first |
| SampleData.SampleFeedbackShape | server/storage.ts:79-125 | there are five sample feedback records and their dates do not increase |
| Schema.ParseSentiment | shared/schema.ts:161 | accepts exactly "positive", "neutral" and "negative", and the value it yields names the input |
| Schema.SentimentRoundTrip | shared/schema.ts:161 | parsing a sentiment's name gives it back, and distinct sentiments have distinct names |
| Schema.ParseQuestionType | shared/schema.ts:165 | accepts exactly the four question types, and the value it yields names the input |
| Schema.ParseQuestion | shared/schema.ts:163-169 | a typed question (see "## Left out") is accepted iff its id, text and a known type are present; `required` defaults to false and the options are carried over |
| Schema.ParseButtonStyle | shared/schema.ts:174 | accepts exactly "rounded", "square" and "outline" |
| Schema.ParseAppearance | shared/schema.ts:171-176 | a typed appearance (see "## Left out") is accepted iff the brand colour is present and any button style is known; the other fields are carried over |
| Schema.UserWithId | server/storage.ts:219-224 | the stored user is the insert fields plus the id |
| Schema.FeedbackWith | server/storage.ts:243-252 | the stored feedback is the insert fields plus the id and the date |
| Schema.ParseInsertFeedback | shared/schema.ts:36-43 | a typed body (see "## Left out") is accepted iff the customer, the sentiment and the message are present; the optional fields are carried over |
| Schema.TemplateWith | server/storage.ts:276-285 | the stored template is the insert fields plus the id and the last edit |
| Schema.FormWith | server/storage.ts:313-318 | the stored form is the insert fields plus the id |
| Schema.BrandSettingsWith | server/storage.ts:338-345 | the stored settings are the insert fields plus the id |
| Schema.WithColumnDefaults | shared/schema.ts:86-90 | the table's column defaults: a missing primary colour, secondary colour, font or button style takes the default, present values are kept; the in-memory store never applies them (`Storage.UpdateBrandSettings` stores the settings as given) |
| Schema.ColumnDefaultsIdempotent | shared/schema.ts:86-90 | applying the column defaults twice equals applying them once; like the defaults themselves, this concerns the table declaration only, not the in-memory store |
| Table.Keys | server/storage.ts:50-53 | the keys of the map, in insertion order |
| Table.Values | server/storage.ts:227-231 | the values of the map, in insertion order |
| Table.Get | server/storage.ts:233-235 | a key yields a value iff it is in the map, and the value is stored under it |
| Table.Set | server/storage.ts:250 | the key maps to the new value and every other key is unchanged; an existing key keeps its place, a new one is appended at the end |
| Table.Delete | server/storage.ts:264 | the key maps to nothing, every other key is unchanged, and no entry is added |
| Table.DeleteKeepsOrder | server/storage.ts:264 | deleting keeps the keys strictly increasing |
| Table.DeleteKeepsBound | server/storage.ts:264 | deleting keeps all keys below the next id |
| Table.SetKeepsOrder | server/storage.ts:243-261 | setting an existing key, or one above all keys, keeps the keys strictly increasing |
| Table.GetAt | server/storage.ts:233-235 | with increasing keys, looking up the i-th entry's key finds the i-th value |
| Table.ValuesAreStored | server/storage.ts:227-231 | with increasing keys, a value is listed iff some key maps to it |
| Sorting.Filter | server/storage.ts:237-241 | the kept elements all pass the test and form a sub-multiset of the input |
| Sorting.FilterMembers | server/storage.ts:237-241 | an element is kept iff it is in the input and passes the test |
| Sorting.Insert | server/storage.ts:228-230 | inserting adds exactly one element |
| Sorting.InsertSorted | server/storage.ts:228-230 | inserting into a descending list keeps it descending |
| Sorting.SortDesc | server/storage.ts:228-230 | the result is a permutation of the input, sorted by descending key |
| Sorting.SortFilterCommute | server/storage.ts:237-241 | sorting then filtering equals filtering then sorting |
| Sorting.SortStable | server/storage.ts:228-230 | elements with equal keys keep their relative order |
| Sorting.SortConstantKey | server/storage.ts:228-230 | a list whose keys are all equal is left as it is |
| Sorting.SortSortedIsIdentity | server/storage.ts:228-230 | an already sorted list is left as it is |
| Sorting.SortIdempotent | server/storage.ts:228-230 | sorting twice equals sorting once |
| Sorting.FilterInsert | server/storage.ts:237-241 | filtering after inserting into a sorted list equals inserting into the filtered list, when the element passes |
| ClientSentiment.SentimentLabel | client/src/lib/sentiment.ts:20-26 | the five labels partition the scores at 75, 60, 40 and 25 |
| ClientSentiment.Rank | client/src/lib/sentiment.ts:20-26 | a label's rank is its position in the label ladder |
| ClientSentiment.LabelMonotone | client/src/lib/sentiment.ts:20-26 | a higher score never gets a lower label |
| ClientSentiment.SentimentEmoji | client/src/lib/sentiment.ts:28-39 | each of the three sentiments has its own emoji, and every other string gets the thinking face |
| ClientSentiment.EmojiDistinguishes | client/src/lib/sentiment.ts:28-39 | different sentiments get different emoji |
| ClientSentiment.ScoreToRating | client/src/lib/sentiment.ts:41-44 | the rating is the nearest integer to score/20, halves rounded up |
| ClientSentiment.RatingToScore | client/src/lib/sentiment.ts:46-49 | the score is a multiple of 20 whose fifth-of-100 is the rating |
| ClientSentiment.RatingRoundTrip | client/src/lib/sentiment.ts:41-49 | converting a rating to a score and back gives the rating |
| ClientSentiment.RatingRange | client/src/lib/sentiment.ts:41-49 | scores 0..100 give ratings 0..5, and ratings 1..5 give scores 20..100 |
| ClientSentiment.LowScoresRateZero | client/src/lib/sentiment.ts:41-44 | scores below 10 get the rating 0, outside the promised 1..5 |
| ClientSentiment.ScoreToStars | client/src/lib/sentiment.ts:41-44 | the corrected conversion gives 1..5 for every score in 0..100 and agrees with the original from 10 up |
| ClientSentiment.StarsRoundTrip | client/src/lib/sentiment.ts:41-49 | the corrected conversion inverts the rating-to-score conversion on 1..5 |
| Utils.SliceEnd | client/src/lib/utils.ts:18 | the end index `slice` uses: clipped to the length, and counted from the end when negative |
| Utils.TruncateText | client/src/lib/utils.ts:16-19 | text within the limit is kept; longer text is cut to the limit and gets "..." |
| Utils.TruncateIsPrefix | client/src/lib/utils.ts:16-19 | the result is the text, or a prefix of it followed by "..." |
| Utils.TruncateIdempotent | client/src/lib/utils.ts:16-19 | truncating twice with the same limit equals truncating once |
| Utils.SentimentColor | client/src/lib/utils.ts:21-32 | green, red and amber for the three sentiments in any case, gray otherwise |
| Utils.SentimentIcon | client/src/lib/utils.ts:34-45 | happy, unhappy and normal icons for the three sentiments in any case, a question icon otherwise |
| Utils.StylingIgnoresCase | client/src/lib/utils.ts:21-45 | strings equal up to case get the same colour and icon |
| Utils.UpperCaseLabel | client/src/lib/utils.ts:21-45 | illustration of `Utils.StylingIgnoresCase`: "POSITIVE" is styled as positive |
| Utils.PercentChange | client/src/lib/utils.ts:47-50 | from 0 the change is 100 for growth and 0 otherwise; else it is the nearest integer to the exact relative change |
| Utils.NearestRatio | client/src/lib/utils.ts:49 | rounding a ratio with any non-zero divisor gives the nearest integer |
| Utils.PercentChangeExamples | client/src/lib/utils.ts:47-50 | no change is 0 percent, and doubling is 100 percent |
| Utils.NoChange | client/src/lib/utils.ts:47-50 | an unchanged non-zero value is a 0 percent change |
| Utils.Doubled | client/src/lib/utils.ts:47-50 | doubling a positive value is a 100 percent change |
| Utils.PercentChangeSign | client/src/lib/utils.ts:47-50 | from a positive value, growth is never negative and decline never positive |
| Csv.ReadEscaped | client/src/lib/utils.ts:70-71 | an escaped string followed by a closing quote reads back as the string, stopping after the quote |
| Csv.ReadEscapedStep | client/src/lib/utils.ts:70-71 | one reader step over the first escaped character preserves the read-back |
| Csv.QuotedRoundTrip | client/src/lib/utils.ts:68-71 | a quoted cell followed by a comma, a line break or the end reads back as its string |
| Csv.Escape | client/src/lib/utils.ts:69-71 | `replace(/"/g, '""')`: text without quotes passes unchanged, and Csv.QuotedRoundTrip proves that a quoted, escaped string reads back as itself |
| Csv.StringCellRoundTrip | client/src/lib/utils.ts:68-71 | string and object cells are recovered by the reader |
| Csv.ArrayQuoteBreaksField | client/src/lib/utils.ts:66-67 | the array item `a"b` is written as `"a"b"`, which reads back as `a` followed by stray text |
| Csv.EncodeCell | client/src/lib/utils.ts:64-74 | the cell as written: empty exactly for `null` and `undefined`; strings, objects and arrays are wrapped in double quotes |
| Csv.EncodeCellEscaped | client/src/lib/utils.ts:64-74 | the corrected encoding agrees with the written one on every cell but arrays |
| Csv.EscapingKeepsQuoteFreeArrays | client/src/lib/utils.ts:66-67 | for arrays whose items hold no quote, the corrected encoding equals the written one |
| Csv.EscapedArrayRoundTrip | client/src/lib/utils.ts:66-67 | with escaping, an array cell reads back as its items joined with ';' |
| Csv.Keys | client/src/lib/utils.ts:55 | the headers are the first record's keys, in order |
| Csv.Lookup | client/src/lib/utils.ts:64 | a missing key is `undefined`, and the first field with the key is its value |
| Csv.Cells | client/src/lib/utils.ts:62-76 | one encoded cell per header, each the encoding of that header's value |
| Csv.Rows | client/src/lib/utils.ts:62-77 | one row per record, in order |
| Csv.ToCsv | client/src/lib/utils.ts:52-79 | no records give no file; otherwise there is a text |
| Csv.EncodeOneLine | client/src/lib/utils.ts:64-74 | a cell without line breaks in its text is encoded without line breaks |
| Csv.IntToStringOneLine | client/src/lib/utils.ts:73 | a number's text holds no line break |
| Csv.RowOneLine | client/src/lib/utils.ts:62-77 | a record whose cells have no line breaks is written as one line |
| Csv.Row | client/src/lib/utils.ts:75 | `values.join(',')` over one record's cells; no contract of its own, Csv.RowOneLine and Csv.CsvLines state that it is one line of the file |
| Csv.LookupOneLine | client/src/lib/utils.ts:64 | a value looked up in such a record has no line break |
| Csv.CsvLines | client/src/lib/utils.ts:52-79 | when no key or cell holds a line break, the file's lines are the header line and then one row per record, in order |
| Csv.MissingKeyIsEmpty | client/src/lib/utils.ts:64-73 | a header the record lacks gives an empty cell |
| ColorPicker.GroupsAreDigits | client/src/components/color-picker.tsx:35 | n groups of three hex digits are exactly 3n hex digits |
| ColorPicker.MatchesHexColor | client/src/components/color-picker.tsx:35 | the pattern `^#([0-9A-F]{3}){1,2}$` with the `i` flag; a match has length 4 or 7 and starts with '#' |
| ColorPicker.HexColorShape | client/src/components/color-picker.tsx:35 | the pattern accepts exactly '#' followed by three or six hex digits, in either case |
| ColorPicker.IsHexColor | client/src/components/color-picker.tsx:35 | the scanning check answers true iff the string matches the pattern |
| ColorPicker.RejectedLengths | client/src/components/color-picker.tsx:35 | illustration of `ColorPicker.HexColorShape`: four, five and eight digits are rejected; "#abc" and "#3B82F6" are accepted |
| ColorPicker.TextEdit | client/src/components/color-picker.tsx:30-38 | the text box always shows the edit, and the parent gets it iff it is a hex colour |
| ColorPicker.PickerChange | client/src/components/color-picker.tsx:24-28 | a picker change is shown and handed on unchecked |
| ColorPicker.ValueProp | client/src/components/color-picker.tsx:20-22 | a new value from the parent replaces the text and is not handed back |
| ColorPicker.Handle | client/src/components/color-picker.tsx:20-38 | the event dispatch: what the parent hears of is what the text box shows, only the native picker hands on a non-hex value, and a new value is never echoed |
| ColorPicker.Run | client/src/components/color-picker.tsx:20-38 | after a run of events the text box shows the last event's text, and at most one value per event reaches the parent |
| ColorPicker.ParentOnlySeesHexColors | client/src/components/color-picker.tsx:24-38 | when every picker event carries a hex colour, every value the parent receives is a hex colour |
| SubmitFeedback.TrimAll | client/src/pages/submit-feedback.tsx:19 | each piece is trimmed, and no result has a blank at either end |
| SubmitFeedback.ParseTags | client/src/pages/submit-feedback.tsx:19 | no or empty text gives no tags; otherwise there is one more tag than commas, each the trimmed piece, in order |
| SubmitFeedback.TagsHaveNoCommas | client/src/pages/submit-feedback.tsx:19 | no tag holds a comma |
| SubmitFeedback.TrimInside | client/src/pages/submit-feedback.tsx:19 | trimming brings in no character that was not there |
| SubmitFeedback.TagsRoundTrip | client/src/pages/submit-feedback.tsx:19 | comma-free, already-trimmed tags, joined with commas and parsed, come back unchanged |
| SubmitFeedback.TrimAllTrimmed | client/src/pages/submit-feedback.tsx:19 | trimming already trimmed tags changes nothing |
| SubmitFeedback.JoinNonEmpty | client/src/pages/submit-feedback.tsx:19 | a tag list other than one empty tag joins to non-empty text |
| SubmitFeedback.EmptyPiecesKept | client/src/pages/submit-feedback.tsx:19 | "a,,b" gives three tags with an empty one in the middle, and " " gives one empty tag |
| SubmitFeedback.SplitSample | client/src/pages/submit-feedback.tsx:19 | illustration of `Text.JoinSplit`: "a,,b" splits into "a", "" and "b" |
| SubmitFeedback.SpaceTrimsToEmpty | client/src/pages/submit-feedback.tsx:19 | illustration of `Text.Trim`: a lone blank trims to the empty string |
| SubmitFeedback.Validate | client/src/pages/submit-feedback.tsx:16-20 | accepted iff the customer has at least 1 and the message at least 5 UTF-16 units; each failing field reports its message |
| SubmitFeedback.FeedbackData | client/src/pages/submit-feedback.tsx:44-49 | the body is the form values plus the analysis's sentiment and score, with the business fixed to 1 |
| SubmitFeedback.SubmittedBodyAccepted | client/src/pages/submit-feedback.tsx:44-49 | the server accepts the body, and with a non-zero score stores it without re-analysing |
| TemplateForm.Validate | client/src/components/templates/template-form.tsx:27-32 | accepted iff the name, subject and content reach 2, 5 and 10 UTF-16 units and the status is "active" or "draft"; each failing field reports its issue |
| TemplateForm.IsStatus | client/src/components/templates/template-form.tsx:31 | `z.enum(["active", "draft"])`; no contract of its own, TemplateForm.Validate states that the status issue is reported exactly when the status is neither value |
| TemplateForm.Message | client/src/components/templates/template-form.tsx:28-31 | the name, subject and content have their own message; the status has none of its own |
| TemplateForm.MessagesDistinct | client/src/components/templates/template-form.tsx:28-30 | no two issues show the same message |
| TemplateForm.OrElse | client/src/components/templates/template-form.tsx:52-57 | a present non-empty value is kept; a missing or empty one gives the fallback |
| TemplateForm.Defaults | client/src/components/templates/template-form.tsx:50-59 | a new template starts with an empty name and subject, the default text naming the business, and "draft"; an edited one keeps its fields, with an empty content or status falling back |
| TemplateForm.DefaultContentHasButton | client/src/components/templates/template-form.tsx:55-56 | the default text holds the button placeholder right after the invitation |
| TemplateForm.DefaultContent | client/src/components/templates/template-form.tsx:56 | the default template text naming the business twice; no contract of its own, TemplateForm.DefaultContentHasButton states where its button placeholder sits |
| TemplateForm.BusinessName | client/src/components/templates/template-form.tsx:56 | the business name, or "[Your Business]" when the settings carry a falsy one: never empty, and a non-empty stored name is used as it is |
| TemplateForm.OccursBetween | client/src/components/templates/template-form.tsx:55-56 | a text placed between two others occurs right after the first |
| TemplateForm.NewTemplateNeedsNameAndSubject | client/src/components/templates/template-form.tsx:27-59 | a new template's defaults fail on exactly the name and the subject |
| TemplateForm.OnlyNameAndSubjectMissing | client/src/components/templates/template-form.tsx:27-32 | with a short name and subject but valid content and status, exactly those two issues are reported, in field order |
| TemplateForm.ButtonColor | client/src/components/templates/template-form.tsx:70 | the brand's primary colour when set and non-empty, else the default blue |
| TemplateForm.ButtonLiteral | client/src/components/templates/template-form.tsx:67-73 | the button markup holds no `$` unless the colour brings one |
| TemplateForm.ButtonHtml | client/src/components/templates/template-form.tsx:67-74 | the button markup in the brand colour; no contract of its own, TemplateForm.ButtonLiteral states that it brings no `$` into the replacement |
| TemplateForm.OpeningLiteral | client/src/components/templates/template-form.tsx:67-70 | the markup's opening pieces hold no `$` |
| TemplateForm.ClassLiteral | client/src/components/templates/template-form.tsx:69 | the markup's class pieces hold no `$` |
| TemplateForm.ClosingLiteral | client/src/components/templates/template-form.tsx:71-73 | the markup's closing pieces hold no `$` |
| TemplateForm.Preview | client/src/components/templates/template-form.tsx:65-75 | content without the placeholder is kept; otherwise, for a colour free of `$`, the first placeholder is replaced by the button markup and everything else is kept |
| TemplateForm.PreviewWithoutPlaceholder | client/src/components/templates/template-form.tsx:65-75 | content without the placeholder is previewed unchanged |
| TemplateForm.PreviewReplacesFirst | client/src/components/templates/template-form.tsx:65-75 | only the first placeholder becomes the button; the text before and after, later placeholders included, is kept |
| TemplateForm.HexColorIsLiteral | client/src/components/color-picker.tsx:35 | a colour the colour input accepts holds no `$` |
| TemplateForm.PreviewHtml | client/src/components/templates/template-form.tsx:180 | the markup has no line breaks, and a preview without any is kept unchanged |
| TemplateForm.PreviewHtmlLines | client/src/components/templates/template-form.tsx:180 | the markup is the preview's lines joined by `<br />`, five characters longer per line break |
| TemplateList.FindIn | client/src/components/templates/template-list.tsx:93 | the template found is in the list and has the id; nothing is found iff no template has it |
| TemplateList.Find | client/src/components/templates/template-list.tsx:92-119 | nothing is found while the list is not loaded; otherwise as FindIn |
| TemplateList.FindFirst | client/src/components/templates/template-list.tsx:93 | the first template with the id is the one found |
| TemplateList.Duplicate | client/src/components/templates/template-list.tsx:99-111 | the copy has the name plus " (Copy)", the status "draft", and the original's subject, content and business |
| TemplateList.DuplicateForgetsIdentity | client/src/components/templates/template-list.tsx:99-111 | the copy does not depend on the original's id, status or edit time |
| TemplateList.DuplicateStored | client/src/components/templates/template-list.tsx:99-111 | once stored, the copy has a fresh id different from the original's and the request time, and the original is kept |
| TemplateList.HandleEdit | client/src/components/templates/template-list.tsx:92-97 | the template with the id is selected when there is one; otherwise the state is unchanged |
| TemplateList.HandleDuplicate | client/src/components/templates/template-list.tsx:99-111 | a create request with the copy is sent iff a template has the id |
| TemplateList.HandleDelete | client/src/components/templates/template-list.tsx:113-119 | the template with the id is selected and the dialog opened when there is one; otherwise nothing changes |
| TemplateList.ConfirmDelete | client/src/components/templates/template-list.tsx:121-125 | a delete of the selected id is sent iff something is selected |
| TemplateList.UnknownIdDoesNothing | client/src/components/templates/template-list.tsx:92-119 | an id the list lacks sends nothing and changes no state |
| TemplateList.DeleteFlow | client/src/components/templates/template-list.tsx:113-125 | choosing delete on a stored template and confirming sends exactly its id; the store removes it and keeps every other template |
| Text.Split | client/src/pages/submit-feedback.tsx:19 | one more piece than separators, and no piece holds the separator |
| Text.SplitJoin | client/src/pages/submit-feedback.tsx:19 | joining the pieces of a split with the separator gives the text back |
| Text.Join | client/src/lib/utils.ts:75 | `Array.prototype.join`, also used at utils.ts:57 and 67; no contract of its own, Text.SplitJoin and Text.JoinSplit state that it inverts `split` |
| Text.JoinSplit | client/src/pages/submit-feedback.tsx:19 | splitting a join of separator-free pieces gives the pieces back |
| Text.Trim | client/src/pages/submit-feedback.tsx:19 | the result is an infix of the input with only blanks removed around it, and it has no blank at either end |
| Text.IsJsWhitespace | client/src/pages/submit-feedback.tsx:19 | the characters `trim` removes: ECMAScript white space and line terminators; space, tab, CR and LF are among them, and digits, letters and the comma are not |
| Text.TrimNoop | client/src/pages/submit-feedback.tsx:19 | trimming a text without blanks at its ends changes nothing |
| Text.ToLower | client/src/lib/utils.ts:22 | same length, each character lowered, and no capital letter remains |
| Text.ToLowerIdempotent | client/src/lib/utils.ts:22 | lowering twice equals lowering once |
| Text.JsLength | client/src/pages/submit-feedback.tsx:17-18 | the UTF-16 length is between the code-point length and twice it, and equal for text in the basic plane |
| Text.IndexOf | client/src/components/templates/template-form.tsx:66-73 | the first occurrence of the pattern is found, and nothing is found iff it occurs nowhere |
| Text.ReplaceFirst | client/src/components/templates/template-form.tsx:66-73 | only the first occurrence is replaced, with `$` patterns expanded; without one the text is unchanged |
| Text.ExpandReplacement | client/src/components/templates/template-form.tsx:65-75 | the replacement patterns of `String.prototype.replace`: `$$`, `$&`, `` $` `` and `$'`, any other `$` kept literally; a replacement without `$` is inserted as written |
| Text.ExpandLiteral | client/src/components/templates/template-form.tsx:66-73 | a replacement without `$` is inserted literally |
| Text.ReplaceAllChar | client/src/components/templates/template-form.tsx:180 | the replaced character no longer occurs (when the replacement lacks it), and text without it is unchanged |
| Text.ReplaceAllCharIsSplitJoin | client/src/components/templates/template-form.tsx:180 | replacing every occurrence equals splitting at it and joining with the replacement |
| Text.ReplaceAllCharLength | client/src/lib/utils.ts:71 | the length grows by the replacement's extra length once per occurrence |
| Text.IntToString | client/src/lib/utils.ts:73 | a non-empty text that starts with '-' iff the number is negative |
| Text.IntToStringRoundTrip | client/src/lib/utils.ts:73 | parsing a number's text gives the number back |
| Arith.RoundHalfUp | server/routes.ts:41 | the result is within one half of n/d, halves rounded up |
| Arith.RoundHalfUpNearest | server/routes.ts:41 | the same bound stated on the real quotient |
| Arith.RoundHalfUpMonotone | server/routes.ts:41 | rounding is monotone in the numerator |
| Arith.Clamp | server/routes.ts:42 | the result lies within the bounds, equals the input inside them, and the nearer bound outside them |

## Left out

Not modelled, one item per line:
- The `natural` library: the word tokenizer, the Porter stemmer and the AFINN lexicon are parameters (`Scorer.Analyzer`). Lexicon keys a plain object inherits from its prototype are not modelled.
- Floating point: scores, percentages and averages are exact integers or rationals. The client's scores are integers.
- Clocks:
  - the current time is a parameter (`now`);
  - the seeded templates share one time;
  - the stats route's 30-day `recentResponses` window, and its `avgSentiment` with `toFixed(1)`, are not modelled, because they depend on the clock and on float formatting.
- HTTP plumbing is not modelled: Express, status codes, `parseInt` of path ids and error handlers. The remaining routes (server/routes.ts:80-96, 119-334) call the store, and only the `Storage` operations they call are modelled.
- Route validation: three of those routes check the body against their insert schema first and answer 400 when it is refused. They are POST /api/templates ("Invalid template data", server/routes.ts:183-195), POST /api/forms ("Invalid form data", server/routes.ts:261-273) and PUT /api/brand-settings ("Invalid settings data", server/routes.ts:321-333). This validation is not modelled. Once it passes, these routes hand `req.body` itself to the store, not the parsed value.
- Extra keys in a request body, which the store keeps, are not modelled.
- Routes.PostFeedback, Schema.ParseInsertFeedback, Schema.ParseQuestion, Schema.ParseAppearance: bodies are typed, so a field can only be present with the right type or absent. A present field of the wrong JSON type, which the schema also rejects, is not modelled. Examples are `"message": 42`, `"tags": "a,b"`, `"sentimentScore": "80"` and `"customer": null`; each gets 400 "Invalid feedback data" at server/routes.ts:100-103. The "iff" in these members' contracts is over typed bodies only.
- Storage.PatchFeedback, Storage.PatchTemplate and Storage.PatchForm: the PUT routes pass the raw body to `{ ...existing, ...update }`, so a body `id` key (and, for feedback, a `date` key) overrides the stored value. For example, `PUT /api/feedback/3` with `{"id": 7}` stores a record with id 7 under key 3. The typed patches carry no such key, so the store invariant is proved only for bodies without one.
- Routes.PostFeedback: a body date is a number of milliseconds. A string date such as `""` or an ISO text, which the route also passes on as it is, is not modelled.
- The schema library is not modelled beyond what the schemas accept. The template status field's default error message is not modelled.
- The client's network calls are not modelled: the `analyzeSentiment` wrapper with its fallback (client/src/lib/sentiment.ts:8-18), react-query, toasts, dialogs and mutation success handlers.
- The rendering is not modelled, apart from the preview text. This covers the template editor's cancel button and tabs (client/src/components/templates/template-form.tsx:196-203).
- Dates: `formatDate` (client/src/lib/utils.ts:8-14) is not modelled, because it is locale-dependent formatting.
- Downloads: the DOM download in `downloadAsCSV` (client/src/lib/utils.ts:80-90) is not modelled.
- Csv.EncodeCell: numbers are integers, and objects other than arrays are given by their `JSON.stringify` text. An array cell holds only strings. A mixed array such as `[1, null, {}]`, which the source joins to `1;;[object Object]`, is not modelled.
- Utils.TruncateText: slices code points, not UTF-16 units.
- Text.ToLower: lowers ASCII letters only.
- TemplateList.Duplicate: the `lastEdited` key the client adds is dropped, because the store replaces it.
- Storage.GetFeedbackBySentiment: its contract states only the order; which records it holds is stated by `Storage.BySentimentIsFilteredListing`.
- Storage.GetUser, Storage.GetFeedback, Storage.GetTemplate, Storage.GetForm and Storage.GetBrandSettings: these are plain lookups with no contract of their own. They are the `Table.Get` and field reads the other contracts are stated in.
- SampleData.Seed: the literal sample records are constants. Beyond their count and date order (`SampleData.SampleFeedbackShape`), no lemma lists their contents.

## Findings

| source | as written | input that shows it | evidently intended | confidence | as-written member | corrected member |
|---|---|---|---|---|---|---|
| client/src/lib/sentiment.ts:41-44 | `Math.round(score / 20)` is documented as a 1-5 rating but gives 0 for scores below 10 | score 5 (the scorer can produce scores 0..9) gives the rating 0 | every score in 0..100 gives a rating in 1..5 | not executed | ClientSentiment.LowScoresRateZero | ClientSentiment.ScoreToStars |
| client/src/lib/utils.ts:66-67 | array cells are joined with ';' and quoted without doubling inner quotes | the tag `a"b` is written as `"a"b"`, which a CSV reader takes as `a` followed by stray text | array cells escaped like string and object cells, so they read back intact | not executed | Csv.ArrayQuoteBreaksField | Csv.EncodeCellEscaped |

=== FILE: arith.dfy ===
/** Exact-arithmetic readings of the JavaScript number operations the
    source uses on ratios: `Math.round`, `Math.max` / `Math.min` clamping. */
module Arith {

  /** `Math.round(n / d)` for a positive denominator: the integer nearest to
      n/d, halves rounded towards +infinity (JavaScript rounds -2.5 to -2).
      The ensures pins the result down uniquely: it is the one integer r with
      r - 1/2 <= n/d < r + 1/2. */
  function RoundHalfUp(n: int, d: int): (r: int)
    requires d > 0
    ensures (2 * r - 1) * d <= 2 * n < (2 * r + 1) * d
  {
    var q := (2 * n + d) / (2 * d);
    var m := (2 * n + d) % (2 * d);
    assert 2 * n + d == 2 * d * q + m && 0 <= m < 2 * d;
    q
  }

  /** `Math.round(n / d)` for any non-zero denominator. */
  function RoundRatio(n: int, d: int): (r: int)
    requires d != 0
    ensures d > 0 ==> (2 * r - 1) * d <= 2 * n < (2 * r + 1) * d
    ensures d < 0 ==> (2 * r - 1) * -d <= -2 * n < (2 * r + 1) * -d
  {
    if d > 0 then RoundHalfUp(n, d) else RoundHalfUp(-n, -d)
  }

  /** Only one integer satisfies the defining inequality of `RoundHalfUp`. */
  lemma RoundHalfUpUnique(n: int, d: int, r: int)
    requires d > 0
    requires (2 * r - 1) * d <= 2 * n < (2 * r + 1) * d
    ensures r == RoundHalfUp(n, d)
  {
    var q := RoundHalfUp(n, d);
    MulLtCancel(2 * r - 1, 2 * q + 1, d);
    MulLtCancel(2 * q - 1, 2 * r + 1, d);
  }

  /** Cancelling a positive factor from a strict inequality. */
  lemma MulLtCancel(a: int, b: int, d: int)
    requires d > 0 && a * d < b * d
    ensures a < b
  {
    if a >= b {
      MulLeMono(b, a, d);
    }
  }

  lemma MulLeMono(a: int, b: int, d: int)
    requires d > 0 && a <= b
    ensures a * d <= b * d
  {
    assert b * d - a * d == (b - a) * d;
  }

  /** Rounding an exact integer quotient gives that integer back. */
  lemma RoundHalfUpExact(k: int, d: int)
    requires d > 0
    ensures RoundHalfUp(k * d, d) == k
  {
    assert (2 * k - 1) * d <= 2 * (k * d) < (2 * k + 1) * d;
    RoundHalfUpUnique(k * d, d, k);
  }

  /** Rounding is monotone in the numerator. */
  lemma RoundHalfUpMonotone(n1: int, n2: int, d: int)
    requires d > 0 && n1 <= n2
    ensures RoundHalfUp(n1, d) <= RoundHalfUp(n2, d)
  {
    var r1 := RoundHalfUp(n1, d);
    var r2 := RoundHalfUp(n2, d);
    MulLtCancel(2 * r1 - 1, 2 * r2 + 1, d);
  }

  /** The integer result of `RoundHalfUp` lies within one half of the
      exact quotient n/d. */
  lemma RoundHalfUpNearest(n: int, d: int)
    requires d > 0
    ensures var r := RoundHalfUp(n, d);
      r as real - 0.5 <= n as real / d as real < r as real + 0.5
  {
    var r := RoundHalfUp(n, d);
    IntBoundsToQuotient(2 * r - 1, 2 * n, 2 * r + 1, d);
    HalveQuotient(n as real, d as real);
  }

  /** The integer bounds `a * d <= m < b * d` read as bounds on the exact
      quotient `m / d`. */
  lemma IntBoundsToQuotient(a: int, m: int, b: int, d: int)
    requires d > 0 && a * d <= m < b * d
    ensures a as real <= m as real / d as real < b as real
  {
    CastMul(a, d);
    CastMul(b, d);
    DivBounds(a as real, m as real, b as real, d as real);
  }

  lemma CastMul(x: int, y: int)
    ensures (x * y) as real == x as real * y as real
  {
  }

  /** Dividing `a * d <= m < b * d` by a positive `d`. */
  lemma DivBounds(a: real, m: real, b: real, d: real)
    requires d > 0.0 && a * d <= m < b * d
    ensures a <= m / d < b
  {
    var q := m / d;
    assert q * d == m;
    RealCancel(a, q, d, false);
    RealCancel(q, b, d, true);
  }

  lemma HalveQuotient(n: real, d: real)
    requires d > 0.0
    ensures (2.0 * n) / d == 2.0 * (n / d)
  {
  }

  lemma RealCancel(a: real, b: real, d: real, strict: bool)
    requires d > 0.0
    requires strict ==> a * d < b * d
    requires !strict ==> a * d <= b * d
    ensures strict ==> a < b
    ensures !strict ==> a <= b
  {
    assert (b - a) * d == b * d - a * d;
    if strict {
      assert (b - a) * d > 0.0;
    } else {
      assert (b - a) * d >= 0.0;
    }
  }

  /** `Math.max(lo, Math.min(hi, x))`. */
  function Clamp(lo: int, hi: int, x: int): (r: int)
    requires lo <= hi
    ensures lo <= r <= hi
    ensures lo <= x <= hi ==> r == x
    ensures x < lo ==> r == lo
    ensures x > hi ==> r == hi
  {
    if x < lo then lo else if x > hi then hi else x
  }
}

=== FILE: client_sentiment.dfy ===
/** The client's presentation of a sentiment score
    (client/src/lib/sentiment.ts): the five-step label, the emoji for the
    three sentiments, and the conversion between a 0-100 score and a star
    rating. */
module ClientSentiment {
  import opened Arith

  const VeryPositive := "Very Positive"
  const PositiveLabel := "Positive"
  const NeutralLabel := "Neutral"
  const NegativeLabel := "Negative"
  const VeryNegative := "Very Negative"

  /** The five labels from lowest to highest. */
  const Labels: seq<string> := [VeryNegative, NegativeLabel, NeutralLabel, PositiveLabel, VeryPositive]

  /** `getSentimentLabel`: the thresholds 75, 60, 40 and 25 are all
      inclusive lower bounds. */
  function SentimentLabel(score: int): (l: string)
    ensures l == VeryPositive <==> score >= 75
    ensures l == PositiveLabel <==> 60 <= score < 75
    ensures l == NeutralLabel <==> 40 <= score < 60
    ensures l == NegativeLabel <==> 25 <= score < 40
    ensures l == VeryNegative <==> score < 25
  {
    if score >= 75 then VeryPositive
    else if score >= 60 then PositiveLabel
    else if score >= 40 then NeutralLabel
    else if score >= 25 then NegativeLabel
    else VeryNegative
  }

  /** The position of a label in `Labels`. */
  function Rank(l: string): (k: int)
    ensures l in Labels ==> 0 <= k < |Labels| && Labels[k] == l
  {
    if l == VeryNegative then 0
    else if l == NegativeLabel then 1
    else if l == NeutralLabel then 2
    else if l == PositiveLabel then 3
    else if l == VeryPositive then 4
    else -1
  }

  /** A higher score never gets a lower label. */
  lemma LabelMonotone(a: int, b: int)
    requires a <= b
    ensures SentimentLabel(a) in Labels && SentimentLabel(b) in Labels
    ensures Rank(SentimentLabel(a)) <= Rank(SentimentLabel(b))
  {
  }

  const Happy := "\U{1F603}"
  const Unhappy := "\U{1F61E}"
  const Indifferent := "\U{1F610}"
  const Thinking := "\U{1F914}"

  /** `getSentimentEmoji`: one face per sentiment, a thinking face for any
      other text. The match is exact, so letter case matters. */
  function SentimentEmoji(sentiment: string): (e: string)
    ensures e == Happy <==> sentiment == "positive"
    ensures e == Unhappy <==> sentiment == "negative"
    ensures e == Indifferent <==> sentiment == "neutral"
    ensures e == Thinking <==> sentiment !in {"positive", "negative", "neutral"}
  {
    if sentiment == "positive" then Happy
    else if sentiment == "negative" then Unhappy
    else if sentiment == "neutral" then Indifferent
    else Thinking
  }

  /** The emoji tell the three sentiments apart: different sentiments get
      different faces. */
  lemma EmojiDistinguishes(s1: string, s2: string)
    requires s1 in {"positive", "negative", "neutral"} && s1 != s2
    ensures SentimentEmoji(s1) != SentimentEmoji(s2)
  {
  }

  /** `scoreToRating`: `score / 20` rounded half up, that is, the integer
      nearest to `score / 20`, a half going up. */
  function ScoreToRating(score: int): (r: int)
    ensures 10 * (2 * r - 1) <= score < 10 * (2 * r + 1)
  {
    RoundHalfUp(score, 20)
  }

  /** `ratingToScore`: twenty points per star. */
  function RatingToScore(rating: int): (score: int)
    ensures score / 20 == rating && score % 20 == 0
  {
    rating * 20
  }

  /** Converting a rating to a score and back gives the rating again, for
      every integer rating. */
  lemma RatingRoundTrip(rating: int)
    ensures ScoreToRating(RatingToScore(rating)) == rating
  {
    RoundHalfUpExact(rating, 20);
  }

  /** Scores 0 to 100 give ratings 0 to 5, and ratings 1 to 5 give scores
      20 to 100. */
  lemma RatingRange(score: int, rating: int)
    ensures 0 <= score <= 100 ==> 0 <= ScoreToRating(score) <= 5
    ensures 1 <= rating <= 5 ==> 20 <= RatingToScore(rating) <= 100
  {
  }

  /** Scores below 10 give the rating 0, outside the 1-5 range that
      `scoreToRating` is written for. */
  lemma LowScoresRateZero(score: int)
    requires 0 <= score < 10
    ensures ScoreToRating(score) == 0
  {
  }

  /** A conversion that keeps to the 1-5 range: the rounded rating, raised
      to 1 for scores below 10. */
  function ScoreToStars(score: int): (r: int)
    ensures 0 <= score <= 100 ==> 1 <= r <= 5
    ensures 10 <= score ==> r == ScoreToRating(score)
  {
    var rounded := ScoreToRating(score);
    if rounded < 1 then 1 else rounded
  }

  /** The corrected conversion still inverts `ratingToScore` on the 1-5
      range, and no score from 0 to 100 leaves that range. */
  lemma StarsRoundTrip(rating: int)
    requires 1 <= rating <= 5
    ensures ScoreToStars(RatingToScore(rating)) == rating
  {
    RatingRoundTrip(rating);
  }
}

=== FILE: color_picker.dfy ===
/** The colour input (client/src/components/color-picker.tsx): a text box
    whose edits reach the parent only when they are a hex colour, next to a
    native colour picker whose changes always reach it. */
module ColorPicker {
  import opened Wrappers

  predicate IsHexDigit(c: char)
  {
    ('0' <= c <= '9') || ('a' <= c <= 'f') || ('A' <= c <= 'F')
  }

  /** `t` is exactly `n` repetitions of the group `[0-9A-F]{3}`, letters
      in either case. */
  predicate Groups(t: string, n: nat)
    decreases n
  {
    if n == 0 then t == []
    else |t| >= 3 && IsHexDigit(t[0]) && IsHexDigit(t[1]) && IsHexDigit(t[2]) && Groups(t[3..], n - 1)
  }

  /** The pattern `^#([0-9A-F]{3}){1,2}$` with the `i` flag: a '#' and
      then one or two groups of three hex digits. */
  predicate MatchesHexColor(s: string): (b: bool)
    ensures b ==> (|s| == 4 || |s| == 7) && s[0] == '#'
  {
    |s| >= 1 && s[0] == '#' && (Groups(s[1..], 1) || Groups(s[1..], 2))
  }

  /** `n` groups are `3 * n` hex digits. */
  lemma {:induction false} GroupsAreDigits(t: string, n: nat)
    ensures Groups(t, n) <==> |t| == 3 * n && forall i :: 0 <= i < |t| ==> IsHexDigit(t[i])
    decreases n
  {
    if n > 0 {
      GroupsAreDigits(if |t| >= 3 then t[3..] else [], n - 1);
      if |t| >= 3 {
        var u := t[3..];
        assert forall i :: 3 <= i < |t| ==> t[i] == u[i - 3];
        assert forall i :: 0 <= i < |u| ==> u[i] == t[i + 3];
      }
    }
  }

  /** The pattern in plain words: '#' followed by exactly three or exactly
      six hex digits. */
  lemma HexColorShape(s: string)
    ensures MatchesHexColor(s) <==>
      (|s| == 4 || |s| == 7) && s[0] == '#' && forall i :: 1 <= i < |s| ==> IsHexDigit(s[i])
  {
    if |s| >= 1 {
      var t := s[1..];
      GroupsAreDigits(t, 1);
      GroupsAreDigits(t, 2);
      assert forall i :: 1 <= i < |s| ==> s[i] == t[i - 1];
      assert forall i :: 0 <= i < |t| ==> t[i] == s[i + 1];
    }
  }

  /** The check written as a scan: the length first, then the '#', then
      every remaining character. */
  method IsHexColor(s: string) returns (ok: bool)
    ensures ok <==> MatchesHexColor(s)
  {
    HexColorShape(s);
    if !(|s| == 4 || |s| == 7) || s[0] != '#' {
      return false;
    }
    ok := true;
    var i := 1;
    while i < |s|
      invariant 1 <= i <= |s|
      invariant ok <==> forall k :: 1 <= k < i ==> IsHexDigit(s[k])
    {
      if !IsHexDigit(s[i]) {
        ok := false;
      }
      i := i + 1;
    }
  }

  /** The lengths the pattern refuses: "#1234", "#12345" and "#12345678"
      are all rejected although every character after '#' is a digit. */
  lemma RejectedLengths()
    ensures !MatchesHexColor("#1234")
    ensures !MatchesHexColor("#12345")
    ensures !MatchesHexColor("#12345678")
    ensures MatchesHexColor("#abc") && MatchesHexColor("#3B82F6")
  {
    HexColorShape("#1234");
    HexColorShape("#12345");
    HexColorShape("#12345678");
    HexColorShape("#abc");
    HexColorShape("#3B82F6");
  }

  // ---------------------------------------------------------------------
  // the component's state

  /** What a user action does: the text box's new content and the value,
      if any, handed to `onChange`. */
  datatype Effect = Effect(inputValue: string, emitted: Option<string>)

  /** `handleTextInputChange`: the text box always shows the edit; the
      parent hears of it only when it is a hex colour. */
  function TextEdit(newColor: string): (e: Effect)
    ensures e.inputValue == newColor
    ensures e.emitted.Some? <==> MatchesHexColor(newColor)
    ensures e.emitted.Some? ==> e.emitted.value == newColor
  {
    Effect(newColor, if MatchesHexColor(newColor) then Some(newColor) else None)
  }

  /** `handleColorPickerChange`: shown and handed on without a check. */
  function PickerChange(newColor: string): (e: Effect)
    ensures e.inputValue == newColor && e.emitted == Some(newColor)
  {
    Effect(newColor, Some(newColor))
  }

  /** The effect on `[value]`: a new value from the parent replaces the text
      box's content and is not handed back. */
  function ValueProp(value: string): (e: Effect)
    ensures e.inputValue == value && e.emitted.None?
  {
    Effect(value, None)
  }

  datatype Event = TextInput(text: string) | PickerInput(color: string) | NewValue(value: string)

  /** Whatever the parent hears of is also what the text box shows, and
      only the native picker can hand on something that is not a hex
      colour. */
  function Handle(ev: Event): (e: Effect)
    ensures e.emitted.Some? ==> e.emitted.value == e.inputValue
    ensures e.emitted.Some? && !ev.PickerInput? ==> MatchesHexColor(e.inputValue)
    ensures ev.NewValue? ==> e.emitted.None?
  {
    match ev
    case TextInput(t) => TextEdit(t)
    case PickerInput(c) => PickerChange(c)
    case NewValue(v) => ValueProp(v)
  }

  /** The text box's content after a run of events starting from `init`,
      and every value handed to the parent, in order. */
  function Run(init: string, events: seq<Event>): (r: (string, seq<string>))
    ensures |r.1| <= |events|
    ensures events != [] ==> r.0 == Handle(events[|events| - 1]).inputValue
    ensures events == [] ==> r == (init, [])
    decreases |events|
  {
    if events == [] then (init, [])
    else
      var prev := Run(init, events[..|events| - 1]);
      var e := Handle(events[|events| - 1]);
      (e.inputValue, prev.1 + (if e.emitted.Some? then [e.emitted.value] else []))
  }

  /** Only the native picker can hand the parent something that is not a
      hex colour: when every picker event carries a hex colour, so does
      every value the parent receives. */
  lemma {:induction false} ParentOnlySeesHexColors(init: string, events: seq<Event>)
    requires forall i :: 0 <= i < |events| && events[i].PickerInput? ==> MatchesHexColor(events[i].color)
    ensures forall j :: 0 <= j < |Run(init, events).1| ==> MatchesHexColor(Run(init, events).1[j])
    decreases |events|
  {
    if events != [] {
      var front := events[..|events| - 1];
      assert forall i :: 0 <= i < |front| ==> front[i] == events[i];
      ParentOnlySeesHexColors(init, front);
      var prev := Run(init, front).1;
      var e := Handle(events[|events| - 1]);
      var extra := if e.emitted.Some? then [e.emitted.value] else [];
      assert Run(init, events).1 == prev + extra;
      assert forall j :: 0 <= j < |extra| ==> MatchesHexColor(extra[j]);
    }
  }
}

=== FILE: csv.dfy ===
/** The text `downloadAsCSV` builds (client/src/lib/utils.ts): a header
    line with the keys of the first record, then one line per record, each
    cell encoded by its JavaScript type. Only the string is modelled; the
    download itself is not. */
module Csv {
  import opened Wrappers
  import opened Text

  /** A record field as JavaScript sees it. Objects other than arrays are
      represented by their `JSON.stringify` text; numbers are integers. */
  datatype Cell =
    | Str(s: string)
    | Num(n: int)
    | Bool(b: bool)
    | Arr(items: seq<string>)
    | Obj(json: string)
    | Null
    | Undefined

  /** A record: its keys in `Object.keys` order with their values. */
  type Record = seq<(string, Cell)>

  /** `s.replace(/"/g, '""')`: text without quotes passes unchanged. */
  function Escape(s: string): (r: string)
    ensures '"' !in s ==> r == s
  {
    ReplaceAllChar(s, '"', "\"\"")
  }

  /** A string between double quotes, inner quotes doubled. */
  function Quoted(s: string): string
  {
    "\"" + Escape(s) + "\""
  }

  /** One cell as written: arrays are joined with ';' and quoted without
      escaping, objects and strings are quoted with their quotes doubled,
      and every other value is what `Array.prototype.join` makes of it
      (`null` and `undefined` become the empty string). */
  function EncodeCell(c: Cell): (r: string)
    ensures r == "" <==> c.Null? || c.Undefined?
    ensures c.Str? || c.Obj? || c.Arr? ==> |r| >= 2 && r[0] == '"' && r[|r| - 1] == '"'
  {
    match c
    case Arr(items) => "\"" + Join(items, ";") + "\""
    case Obj(json) => Quoted(json)
    case Str(s) => Quoted(s)
    case Num(n) => IntToString(n)
    case Bool(b) => if b then "true" else "false"
    case Null => ""
    case Undefined => ""
  }

  // ---------------------------------------------------------------------
  // reading a quoted field back

  /** Reads the inside of a quoted field up to its closing quote: a doubled
      quote stands for one quote, a single quote ends the field. Returns the
      value and the text after the closing quote. */
  function ReadQuotedBody(t: string): Option<(string, string)>
    decreases |t|
  {
    if t == [] then None
    else if t[0] == '"' then
      if |t| >= 2 && t[1] == '"' then
        match ReadQuotedBody(t[2..])
        case Some((v, rest)) => Some(("\"" + v, rest))
        case None => None
      else Some(("", t[1..]))
    else
      match ReadQuotedBody(t[1..])
      case Some((v, rest)) => Some(([t[0]] + v, rest))
      case None => None
  }

  /** Reads one quoted field from the front of `t`. */
  function ReadField(t: string): Option<(string, string)>
  {
    if t != [] && t[0] == '"' then ReadQuotedBody(t[1..]) else None
  }

  /** The text after a field may start with anything but a quote: a comma,
      a line break, or nothing. */
  predicate Follows(rest: string)
  {
    rest == [] || rest[0] != '"'
  }

  /** An escaped string followed by the closing quote reads back as the
      string, and the reader stops right after that quote. */
  lemma {:induction false} ReadEscaped(s: string, rest: string)
    requires Follows(rest)
    ensures ReadQuotedBody(Escape(s) + "\"" + rest) == Some((s, rest))
    decreases |s|
  {
    if s == [] {
      var t := Escape(s) + "\"" + rest;
      assert t == "\"" + rest;
      assert t[1..] == rest;
    } else {
      ReadEscaped(s[1..], rest);
      ReadEscapedStep(s, rest);
    }
  }

  /** One step of the reader over the first character of an escaped
      string, given that the rest reads back. */
  lemma ReadEscapedStep(s: string, rest: string)
    requires s != []
    requires ReadQuotedBody(Escape(s[1..]) + "\"" + rest) == Some((s[1..], rest))
    ensures ReadQuotedBody(Escape(s) + "\"" + rest) == Some((s, rest))
  {
    var t := Escape(s) + "\"" + rest;
    var t' := Escape(s[1..]) + "\"" + rest;
    assert s == [s[0]] + s[1..];
    if s[0] == '"' {
      assert Escape(s) == "\"\"" + Escape(s[1..]);
      assert t == "\"\"" + t';
      assert t[2..] == t';
    } else {
      assert Escape(s) == [s[0]] + Escape(s[1..]);
      assert t == [s[0]] + t';
      assert t[1..] == t';
    }
  }

  /** Quoting loses nothing: a quoted string cell, followed by a comma, a
      line break or the end, reads back as the string. */
  lemma QuotedRoundTrip(s: string, rest: string)
    requires Follows(rest)
    ensures ReadField(Quoted(s) + rest) == Some((s, rest))
  {
    var t := Quoted(s) + rest;
    assert t[0] == '"';
    assert t[1..] == Escape(s) + "\"" + rest;
    ReadEscaped(s, rest);
  }

  /** A string or object cell is recovered by the reader. */
  lemma StringCellRoundTrip(c: Cell, rest: string)
    requires (c.Str? || c.Obj?) && Follows(rest)
    ensures ReadField(EncodeCell(c) + rest) == Some((if c.Str? then c.s else c.json, rest))
  {
    if c.Str? {
      QuotedRoundTrip(c.s, rest);
    } else {
      QuotedRoundTrip(c.json, rest);
    }
  }

  /** An array cell whose items hold a quote is not recovered: the tag
      `a"b` is written as `"a"b"`, which reads as the value `a` followed by
      stray text. */
  lemma ArrayQuoteBreaksField()
    ensures EncodeCell(Arr(["a\"b"])) == "\"a\"b\""
    ensures ReadField(EncodeCell(Arr(["a\"b"])) + ",") == Some(("a", "b\","))
  {
    var inner := "\"b\",";
    assert inner[0] == '"' && inner[1] == 'b' && inner[1..] == "b\",";
    assert ReadQuotedBody(inner) == Some(("", "b\","));
    var body := "a\"b\",";
    assert body[0] == 'a' && body[1..] == inner;
    assert ['a'] + "" == "a";
    assert ReadQuotedBody(body) == Some(("a", "b\","));
    var t := "\"a\"b\",";
    assert Join(["a\"b"], ";") == "a\"b";
    assert EncodeCell(Arr(["a\"b"])) + "," == t;
    assert t[0] == '"' && t[1..] == body;
  }

  /** The cell encoding with the array branch escaped like the others. */
  function EncodeCellEscaped(c: Cell): (r: string)
    ensures !c.Arr? ==> r == EncodeCell(c)
  {
    match c
    case Arr(items) => Quoted(Join(items, ";"))
    case _ => EncodeCell(c)
  }

  /** The correction changes nothing for arrays whose items hold no quote:
      for them the written encoding was already right. */
  lemma EscapingKeepsQuoteFreeArrays(items: seq<string>)
    requires forall i :: 0 <= i < |items| ==> '"' !in items[i]
    ensures EncodeCellEscaped(Arr(items)) == EncodeCell(Arr(items))
  {
    NotInJoin(items, ";", '"');
  }

  /** With the escaped encoding every array cell reads back as its items
      joined with ';', whatever the items hold. */
  lemma EscapedArrayRoundTrip(items: seq<string>, rest: string)
    requires Follows(rest)
    ensures ReadField(EncodeCellEscaped(Arr(items)) + rest) == Some((Join(items, ";"), rest))
  {
    QuotedRoundTrip(Join(items, ";"), rest);
  }

  // ---------------------------------------------------------------------
  // the rows

  /** `Object.keys(data[0])`. */
  function Keys(r: Record): (ks: seq<string>)
    ensures |ks| == |r| && forall i :: 0 <= i < |r| ==> ks[i] == r[i].0
  {
    seq(|r|, i requires 0 <= i < |r| => r[i].0)
  }

  /** `item[header]`: the value of the first field with that key, or
      `undefined`. */
  function Lookup(r: Record, key: string): (c: Cell)
    ensures (forall i :: 0 <= i < |r| ==> r[i].0 != key) ==> c == Undefined
    ensures r != [] && r[0].0 == key ==> c == r[0].1
  {
    if r == [] then Undefined
    else if r[0].0 == key then r[0].1
    else Lookup(r[1..], key)
  }

  /** The cells of one record under the given headers. */
  function Cells(headers: seq<string>, item: Record): (cs: seq<string>)
    ensures |cs| == |headers|
    ensures forall j :: 0 <= j < |headers| ==> cs[j] == EncodeCell(Lookup(item, headers[j]))
  {
    seq(|headers|, j requires 0 <= j < |headers| => EncodeCell(Lookup(item, headers[j])))
  }

  /** `values.join(',')` for one record. */
  function Row(headers: seq<string>, item: Record): string
  {
    Join(Cells(headers, item), ",")
  }

  function Rows(headers: seq<string>, data: seq<Record>): (rs: seq<string>)
    ensures |rs| == |data|
    ensures forall i :: 0 <= i < |data| ==> rs[i] == Row(headers, data[i])
  {
    seq(|data|, i requires 0 <= i < |data| => Row(headers, data[i]))
  }

  /** The whole text; no records give no file at all. */
  function ToCsv(data: seq<Record>): (r: Option<string>)
    ensures r.None? <==> data == []
  {
    if data == [] then None
    else
      var headers := Keys(data[0]);
      Some(Join([Join(headers, ",")] + Rows(headers, data), "\n"))
  }

  // ---------------------------------------------------------------------
  // the line structure

  /** A cell whose text holds no line break. */
  predicate OneLine(c: Cell)
  {
    match c
    case Str(s) => '\n' !in s
    case Obj(json) => '\n' !in json
    case Arr(items) => forall i :: 0 <= i < |items| ==> '\n' !in items[i]
    case _ => true
  }

  /** Only the text of a cell can bring a line break into its encoding. */
  lemma EncodeOneLine(c: Cell)
    requires OneLine(c)
    ensures '\n' !in EncodeCell(c)
  {
    match c
    case Str(s) =>
      ReplaceAllCharAbsent(s, '"', "\"\"", '\n');
    case Obj(json) =>
      ReplaceAllCharAbsent(json, '"', "\"\"", '\n');
    case Arr(items) =>
      NotInJoin(items, ";", '\n');
    case Num(n) =>
      IntToStringOneLine(n);
    case _ =>
  }

  lemma IntToStringOneLine(n: int)
    ensures '\n' !in IntToString(n)
  {
    var digits := NatToString(if n < 0 then -n else n);
    assert '\n' !in digits by {
      forall i | 0 <= i < |digits|
        ensures digits[i] != '\n'
      {
        assert '0' <= digits[i] <= '9';
      }
    }
    if n < 0 {
      assert IntToString(n) == "-" + digits;
    } else {
      assert IntToString(n) == digits;
    }
  }

  /** A record none of whose cells spans lines is written on one line. */
  lemma RowOneLine(headers: seq<string>, item: Record)
    requires forall j :: 0 <= j < |item| ==> OneLine(item[j].1)
    ensures '\n' !in Row(headers, item)
  {
    var cs := Cells(headers, item);
    forall j | 0 <= j < |cs|
      ensures '\n' !in cs[j]
    {
      LookupOneLine(item, headers[j]);
      EncodeOneLine(Lookup(item, headers[j]));
    }
    NotInJoin(cs, ",", '\n');
  }

  lemma {:induction false} LookupOneLine(r: Record, key: string)
    requires forall j :: 0 <= j < |r| ==> OneLine(r[j].1)
    ensures OneLine(Lookup(r, key))
  {
    if r != [] && r[0].0 != key {
      LookupOneLine(r[1..], key);
    }
  }

  /** When no key and no cell holds a line break, the file has one line
      per record after the header line: splitting at the line breaks gives
      the header line and then each record's row, in order. */
  lemma CsvLines(data: seq<Record>)
    requires data != []
    requires forall i, j :: 0 <= i < |data| && 0 <= j < |data[i]| ==> OneLine(data[i][j].1)
    requires forall j :: 0 <= j < |data[0]| ==> '\n' !in data[0][j].0
    ensures var headers := Keys(data[0]);
      Split(ToCsv(data).value, '\n') == [Join(headers, ",")] + Rows(headers, data)
  {
    var headers := Keys(data[0]);
    var lines := [Join(headers, ",")] + Rows(headers, data);
    NotInJoin(headers, ",", '\n');
    forall i | 0 <= i < |lines|
      ensures '\n' !in lines[i]
    {
      if i > 0 {
        RowOneLine(headers, data[i - 1]);
      }
    }
    JoinSplit(lines, '\n');
  }

  /** A key missing from a later record leaves its cell empty; a key only
      later records have is not written. */
  lemma MissingKeyIsEmpty(headers: seq<string>, item: Record, j: int)
    requires 0 <= j < |headers|
    requires forall i :: 0 <= i < |item| ==> item[i].0 != headers[j]
    ensures Cells(headers, item)[j] == ""
  {
  }
}

=== FILE: routes.dfy ===
/** The request rules of the HTTP layer (server/routes.ts) that are more
    than plumbing: which listing `GET /api/feedback` serves, how
    `POST /api/feedback` fills in a missing sentiment, the text check of
    `POST /api/analyze-sentiment`, and the arithmetic of `/api/stats`. */
module Routes {
  import opened Wrappers
  import opened Arith
  import opened Schema
  import opened Table
  import opened Storage
  import opened Scorer
  import Sorting

  // ---------------------------------------------------------------------
  // GET /api/feedback

  /** `sentiment && sentimentSchema.safeParse(sentiment).success`: the
      query names one of the three labels. */
  predicate SelectsSentiment(query: Option<string>)
  {
    query.Some? && query.value != "" && ParseSentiment(query.value).Some?
  }

  /** Exactly the three label names select: the empty string, any other
      word and a missing parameter do not. */
  lemma SelectsExactlyTheLabels(query: Option<string>)
    ensures SelectsSentiment(query) <==> query in {Some("positive"), Some("neutral"), Some("negative")}
  {
    if query.Some? && ParseSentiment(query.value).Some? {
      assert query.value == "positive" || query.value == "neutral" || query.value == "negative";
    }
  }

  /** The listing served for the `sentiment` query parameter: the filtered
      listing for one of the three labels, the full listing for anything
      else, a missing or empty parameter included. */
  function ListFeedback(s: Store, query: Option<string>): (r: seq<Feedback>)
    ensures query in {Some("positive"), Some("neutral"), Some("negative")} ==>
      r == GetFeedbackBySentiment(s, query.value)
    ensures query !in {Some("positive"), Some("neutral"), Some("negative")} ==>
      r == GetAllFeedback(s)
  {
    if SelectsSentiment(query) then GetFeedbackBySentiment(s, query.value)
    else GetAllFeedback(s)
  }

  /** Whatever the query, the listing is newest first and is the full
      listing with at most the other labels left out: it holds exactly the
      stored feedback that match the query, when the query selects a
      label, and all of them otherwise. */
  lemma ListFeedbackSelects(s: Store, query: Option<string>, f: Feedback)
    ensures Sorting.SortedDesc(ListFeedback(s, query), FeedbackDate)
    ensures f in ListFeedback(s, query) <==>
      f in Values(s.feedback) && (SelectsSentiment(query) ==> f.sentiment == query.value)
  {
    if SelectsSentiment(query) {
      BySentimentIsFilteredListing(s, query.value, f);
    } else {
      assert f in GetAllFeedback(s) <==> f in Values(s.feedback) by {
        assert f in multiset(GetAllFeedback(s)) <==> f in multiset(Values(s.feedback));
      }
    }
  }

  // ---------------------------------------------------------------------
  // POST /api/feedback

  /** `!req.body.sentiment || !req.body.sentimentScore`: an empty
      sentiment, or a score that is missing, null or zero. */
  predicate NeedsAnalysis(ins: InsertFeedback)
  {
    ins.sentiment == "" || ins.sentimentScore.None? || ins.sentimentScore == Some(0)
  }

  /** The body after the auto-fill: when the sentiment or the score is
      falsy, both are overwritten with the analysis of the message; a body
      carrying both is left alone. Every other field is kept, and the
      result always carries a non-empty sentiment and a score. */
  function AutoFill(a: Analyzer, ins: InsertFeedback): (r: InsertFeedback)
    ensures r.customer == ins.customer && r.message == ins.message
    ensures r.tags == ins.tags && r.businessId == ins.businessId
    ensures NeedsAnalysis(ins) ==>
      r.sentiment == SentimentName(Analyze(a, ins.message).sentiment) &&
      r.sentimentScore == Some(Analyze(a, ins.message).score)
    ensures !NeedsAnalysis(ins) ==> r == ins
    ensures r.sentiment != "" && r.sentimentScore.Some?
  {
    if NeedsAnalysis(ins) then
      var analysis := Analyze(a, ins.message);
      ins.(sentiment := SentimentName(analysis.sentiment), sentimentScore := Some(analysis.score))
    else ins
  }

  /** Filling in twice is filling in once: a second pass either leaves
      the body alone or computes the same analysis of the same message. */
  lemma AutoFillIdempotent(a: Analyzer, ins: InsertFeedback)
    ensures AutoFill(a, AutoFill(a, ins)) == AutoFill(a, ins)
  {
  }

  /** A filled-in body still looks unanalysed only when the analysis
      itself scored 0: the falsy test then sees a zero score again. */
  lemma FilledBodyNeedsAnalysis(a: Analyzer, ins: InsertFeedback)
    ensures NeedsAnalysis(AutoFill(a, ins)) <==> NeedsAnalysis(ins) && Analyze(a, ins.message).score == 0
  {
  }

  /** The date `createFeedback` receives from the raw body, which it uses
      only when truthy: a missing date and the date 0 both leave the
      choice to the store, which then takes the current time. */
  function TruthyDate(d: Option<Timestamp>): (r: Option<Timestamp>)
    ensures r.None? <==> d.None? || d == Some(0)
    ensures r.Some? ==> r == d
  {
    if d == Some(0) then None else d
  }

  /** `POST /api/feedback`: a body without customer, sentiment or message
      is refused and the store is not touched; otherwise the auto-filled
      body is created, with the body's `date` if it carries a truthy one
      and the current time otherwise. */
  function PostFeedback(s: Store, a: Analyzer, body: FeedbackBody, now: Timestamp): (r: Result<Outcome<Feedback>, string>)
    ensures r.Err? <==> body.customer.None? || body.sentiment.None? || body.message.None?
    ensures r.Err? ==> r.error == "Invalid feedback data"
    ensures r.Ok? ==>
      var f := r.value.value;
      f.id == s.feedbackNextId && f.customer == body.customer.value && f.message == body.message.value &&
      f.tags == body.tags && f.businessId == body.businessId &&
      f.date == (if body.date.Some? && body.date.value != 0 then body.date.value else now) && f.sentiment != "" && f.sentimentScore.Some? &&
      GetFeedback(r.value.store, f.id) == Some(f) &&
      OnlyFeedbackChanges(s, r.value.store) &&
      (Valid(s) ==> Valid(r.value.store) && f.id !in Keys(s.feedback))
    ensures r.Ok? ==> FeedbackFields(r.value.value) == AutoFill(a, ParseInsertFeedback(body).value)
  {
    match ParseInsertFeedback(body)
    case None => Err("Invalid feedback data")
    case Some(ins) => Ok(CreateFeedback(s, AutoFill(a, ins), TruthyDate(body.date), now))
  }

  // ---------------------------------------------------------------------
  // POST /api/analyze-sentiment

  /** The `text` key of a request body as JSON delivers it. */
  datatype TextField = Absent | NotText | Text(text: string)

  const TextRequired := "Text is required for sentiment analysis"

  /** `POST /api/analyze-sentiment`: anything but a non-empty string is
      refused; a non-empty string is analysed. */
  function AnalyzeRequest(a: Analyzer, field: TextField): (r: Result<Analysis, string>)
    ensures r.Err? <==> field.Absent? || field.NotText? || field == Text("")
    ensures r.Err? ==> r.error == TextRequired
    ensures r.Ok? ==> r.value == Analyze(a, field.text) && 0 <= r.value.score <= 100
  {
    match field
    case Text(text) =>
      if text == "" then Err(TextRequired) else Ok(Analyze(a, text))
    case _ => Err(TextRequired)
  }

  // ---------------------------------------------------------------------
  // GET /api/stats

  /** `Math.round((count / total) * 100)`: the percentage, rounded to the
      nearest integer with halves going up. */
  function Percent(count: nat, total: nat): (p: int)
    requires 0 < total && count <= total
    ensures 0 <= p <= 100
    ensures p as real - 0.5 <= (100 * count) as real / total as real < p as real + 0.5
  {
    RoundHalfUpNearest(100 * count, total);
    RoundHalfUpMonotone(0, 100 * count, total);
    RoundHalfUpMonotone(100 * count, 100 * total, total);
    RoundHalfUpExact(0, total);
    RoundHalfUpExact(100, total);
    RoundHalfUp(100 * count, total)
  }

  /** The number of feedback whose sentiment text is `name`. */
  function CountLabel(all: seq<Feedback>, name: string): (n: nat)
    ensures n <= |all|
  {
    |Sorting.Filter(all, HasSentiment(name))|
  }

  datatype Distribution = Distribution(positive: int, neutral: int, negative: int)

  /** The share of each label in percent, each rounded separately;
      `total` falls back to 1 for an empty list, so that no feedback gives
      0 / 0 / 0. */
  function SentimentDistribution(all: seq<Feedback>): (d: Distribution)
    ensures 0 <= d.positive <= 100 && 0 <= d.neutral <= 100 && 0 <= d.negative <= 100
    ensures all == [] ==> d == Distribution(0, 0, 0)
  {
    var total := if |all| == 0 then 1 else |all|;
    Distribution(Percent(CountLabel(all, "positive"), total),
                 Percent(CountLabel(all, "neutral"), total),
                 Percent(CountLabel(all, "negative"), total))
  }

  /** Every element carries one of the three labels. */
  ghost predicate Labelled(all: seq<Feedback>)
  {
    forall i :: 0 <= i < |all| ==> all[i].sentiment in {"positive", "neutral", "negative"}
  }

  /** Each labelled feedback is counted under exactly one label. */
  lemma {:induction false} CountsPartition(all: seq<Feedback>)
    requires Labelled(all)
    ensures CountLabel(all, "positive") + CountLabel(all, "neutral") + CountLabel(all, "negative") == |all|
  {
    if all != [] {
      var h, t := all[0], all[1..];
      assert all == [h] + t;
      assert Labelled(t) by {
        forall i | 0 <= i < |t|
          ensures t[i].sentiment in {"positive", "neutral", "negative"}
        {
          assert t[i] == all[i + 1];
        }
      }
      CountsPartition(t);
      Sorting.FilterCons(h, t, HasSentiment("positive"));
      Sorting.FilterCons(h, t, HasSentiment("neutral"));
      Sorting.FilterCons(h, t, HasSentiment("negative"));
      assert h.sentiment in {"positive", "neutral", "negative"};
    }
  }

  /** Three percentages rounded separately add up to 100 give or take 1
      whenever every feedback carries one of the three labels. */
  lemma DistributionSumsNear100(all: seq<Feedback>)
    requires all != [] && Labelled(all)
    ensures var d := SentimentDistribution(all);
      99 <= d.positive + d.neutral + d.negative <= 101
  {
    CountsPartition(all);
    var n := |all|;
    ThreeRoundedSum(100 * CountLabel(all, "positive"), 100 * CountLabel(all, "neutral"),
                    100 * CountLabel(all, "negative"), n);
  }

  lemma ThreeRoundedSum(n1: int, n2: int, n3: int, d: int)
    requires d > 0 && n1 + n2 + n3 == 100 * d
    ensures 99 <= RoundHalfUp(n1, d) + RoundHalfUp(n2, d) + RoundHalfUp(n3, d) <= 101
  {
    var r1, r2, r3 := RoundHalfUp(n1, d), RoundHalfUp(n2, d), RoundHalfUp(n3, d);
    var p := r1 + r2 + r3;
    assert (2 * r1 - 1) * d + (2 * r2 - 1) * d + (2 * r3 - 1) * d == (2 * p - 3) * d;
    assert (2 * r1 + 1) * d + (2 * r2 + 1) * d + (2 * r3 + 1) * d == (2 * p + 3) * d;
    assert 200 * d < (2 * p + 3) * d;
    MulLtCancel(200, 2 * p + 3, d);
    assert (2 * p - 3) * d < 201 * d;
    MulLtCancel(2 * p - 3, 201, d);
  }

  /** When every feedback has the same label that label gets 100 percent
      and the others none. */
  lemma UnanimousDistribution(all: seq<Feedback>)
    requires all != []
    requires forall i :: 0 <= i < |all| ==> all[i].sentiment == "positive"
    ensures SentimentDistribution(all) == Distribution(100, 0, 0)
  {
    var n := |all|;
    FilterKeepsAll(all, HasSentiment("positive"));
    FilterDropsAll(all, HasSentiment("neutral"));
    FilterDropsAll(all, HasSentiment("negative"));
    assert CountLabel(all, "positive") == n;
    assert CountLabel(all, "neutral") == 0 && CountLabel(all, "negative") == 0;
    PercentOfAll(n);
    PercentOfNone(n);
  }

  lemma PercentOfAll(n: nat)
    requires n > 0
    ensures Percent(n, n) == 100
  {
    RoundHalfUpExact(100, n);
  }

  lemma PercentOfNone(n: nat)
    requires n > 0
    ensures Percent(0, n) == 0
  {
    RoundHalfUpExact(0, n);
  }

  lemma {:induction false} FilterKeepsAll(xs: seq<Feedback>, p: Feedback -> bool)
    requires forall i :: 0 <= i < |xs| ==> p(xs[i])
    ensures Sorting.Filter(xs, p) == xs
  {
    if xs != [] {
      FilterKeepsAll(xs[1..], p);
      assert xs == [xs[0]] + xs[1..];
      Sorting.FilterCons(xs[0], xs[1..], p);
    }
  }

  lemma {:induction false} FilterDropsAll(xs: seq<Feedback>, p: Feedback -> bool)
    requires forall i :: 0 <= i < |xs| ==> !p(xs[i])
    ensures Sorting.Filter(xs, p) == []
  {
    if xs != [] {
      FilterDropsAll(xs[1..], p);
      assert xs == [xs[0]] + xs[1..];
      Sorting.FilterCons(xs[0], xs[1..], p);
    }
  }

  /** `t.status === "active"`. */
  function IsActive(t: EmailTemplate): bool
  {
    t.status == "active"
  }

  /** The part of the dashboard figures that does not depend on the
      clock. */
  datatype Stats = Stats(activeCampaigns: nat, responseRate: int, distribution: Distribution)

  /** The figure `responseRate` is a fixed placeholder. */
  const ResponseRate := 24

  /** `/api/stats`: the active templates are counted; the distribution is
      that of the stored feedback, whatever order the listing puts them
      in. */
  function DashboardStats(s: Store): (r: Stats)
    ensures r.activeCampaigns <= |s.templates|
    ensures r.activeCampaigns == |Sorting.Filter(Values(s.templates), IsActive)|
    ensures r.responseRate == 24
    ensures r.distribution == SentimentDistribution(Values(s.feedback))
  {
    var all := GetAllFeedback(s);
    CountIgnoresOrder(s, "positive");
    CountIgnoresOrder(s, "neutral");
    CountIgnoresOrder(s, "negative");
    Stats(|Sorting.Filter(GetAllTemplates(s), IsActive)|, ResponseRate, SentimentDistribution(all))
  }

  /** Counting a label over the sorted listing counts it over the stored
      values. */
  lemma CountIgnoresOrder(s: Store, name: string)
    ensures CountLabel(GetAllFeedback(s), name) == CountLabel(Values(s.feedback), name)
  {
    var p := HasSentiment(name);
    Sorting.SortFilterCommute(Values(s.feedback), FeedbackDate, p);
  }
}

=== FILE: sample_data.dfy ===
/** The records `MemStorage` seeds itself with on construction
    (server/storage.ts, `initializeSampleData`). */
module SampleData {
  import opened Wrappers
  import opened Schema
  import opened Table
  import opened Storage
  import Sorting

  /** Midnight UTC of 11 to 15 August 2023, in milliseconds. */
  const Aug11: Timestamp := 1691712000000
  const Aug12: Timestamp := 1691798400000
  const Aug13: Timestamp := 1691884800000
  const Aug14: Timestamp := 1691971200000
  const Aug15: Timestamp := 1692057600000

  const SampleFeedback: seq<(InsertFeedback, Timestamp)> :=
    [ (InsertFeedback("Sarah Johnson", "positive", Some(85),
         "Love the service! Quick response time and very professional.",
         Some(["service", "response time"]), None), Aug15),
      (InsertFeedback("Mike Reynolds", "negative", Some(25),
         "Product arrived damaged. Customer service was helpful though.",
         Some(["product", "delivery", "customer service"]), None), Aug14),
      (InsertFeedback("Emma Lewis", "positive", Some(90),
         "The new feature is exactly what I needed. So intuitive!",
         Some(["features", "usability"]), None), Aug13),
      (InsertFeedback("Alex Thompson", "neutral", Some(50),
         "Product is good but shipping took longer than expected.",
         Some(["product", "shipping"]), None), Aug12),
      (InsertFeedback("David Clark", "positive", Some(80),
         "Great customer support team. They solved my issue in minutes!",
         Some(["support", "service"]), None), Aug11) ]


  /** The three template bodies. */
  const PostPurchaseBody: string :=
    "Hi [Customer Name],\n\nThank you for your recent purchase with [Your Business].\n\nWe'd love to hear your feedback to help us improve our service...\n\n[Share Feedback Button]"
  const ServiceBody: string :=
    "Hi [Customer Name],\n\nThank you for using our services recently.\n\nWe'd appreciate your feedback on your experience...\n\n[Share Feedback Button]"
  const WebsiteBody: string :=
    "Hi [Customer Name],\n\nWe noticed you recently visited our website.\n\nWe'd love to hear about your experience...\n\n[Share Feedback Button]"

  const SampleTemplates: seq<InsertTemplate> :=
    [ InsertTemplate("Post-Purchase Follow-up", "How was your recent purchase?", PostPurchaseBody, "active", None),
      InsertTemplate("Service Satisfaction", "We value your feedback on our service", ServiceBody, "active", None),
      InsertTemplate("Website Experience", "Tell us about your website experience", WebsiteBody, "draft", None) ]

  const SampleFooter: string :=
    "\U{00A9} 2023 Acme Inc. All rights reserved. You're receiving this email because you're a customer of Acme Inc. If you wish to unsubscribe, click here."

  /** The seeded settings, written straight into the field rather than
      through `updateBrandSettings`; they carry no `businessId`, and their
      primary colour is the schema's default. */
  function SampleBrandSettings(id: int): (b: BrandSettings)
    ensures b.id == id && b.primaryColor == Some(DefaultPrimaryColor)
  {
    BrandSettings(id, Some("Acme Inc."), Some("feedback@acmeinc.com"), Some("https://acmeinc.com"),
      Some("#3B82F6"), Some("#10B981"), Some(""), Some("Inter"), Some("rounded"),
      Some(SampleFooter),
      None)
  }

  const SampleForm: InsertForm :=
    InsertForm("Customer Satisfaction Form",
      [ Question("q1", Rating, "Overall satisfaction", None, true),
        Question("q2", MultipleChoice, "What did you like most about our service?",
          Some(["Quality", "Speed", "Customer service", "Price", "Other"]), false),
        Question("q3", OpenEnded, "Do you have any suggestions for improvement?", None, false),
        Question("q4", SingleChoice, "Would you recommend us to others?", Some(["Yes", "Maybe", "No"]), true) ],
      Appearance("#3B82F6", None, "Inter", Rounded),
      None)

  /** The entries `createFeedback` stores for the items, under
      consecutive ids from `next`. */
  function Seeds(next: int, items: seq<(InsertFeedback, Timestamp)>): Table<Feedback>
    decreases |items|
  {
    if items == [] then []
    else [Entry(next, FeedbackWith(items[0].0, next, items[0].1))] + Seeds(next + 1, items[1..])
  }

  /** The `i`-th seeded entry carries id `next + i` and the `i`-th
      item's date. */
  lemma {:induction false} SeedsAt(next: int, items: seq<(InsertFeedback, Timestamp)>)
    ensures |Seeds(next, items)| == |items|
    ensures forall i :: 0 <= i < |items| ==>
      Seeds(next, items)[i] == Entry(next + i, FeedbackWith(items[i].0, next + i, items[i].1))
    decreases |items|
  {
    if items != [] {
      SeedsAt(next + 1, items[1..]);
      var rest := Seeds(next + 1, items[1..]);
      var e := Entry(next, FeedbackWith(items[0].0, next, items[0].1));
      assert Seeds(next, items) == [e] + rest;
      forall i | 1 <= i < |items|
        ensures Seeds(next, items)[i] == Entry(next + i, FeedbackWith(items[i].0, next + i, items[i].1))
      {
        assert Seeds(next, items)[i] == rest[i - 1];
        assert items[1..][i - 1] == items[i];
      }
    }
  }

  function AddFeedback(s: Store, items: seq<(InsertFeedback, Timestamp)>, now: Timestamp): (r: Store)
    ensures Valid(s) ==> Valid(r)
    ensures r.feedbackNextId == s.feedbackNextId + |items|
    ensures OnlyFeedbackChanges(s, r)
    decreases |items|
  {
    if items == [] then s
    else AddFeedback(CreateFeedback(s, items[0].0, Some(items[0].1), now).store, items[1..], now)
  }

  /** One creation appends one entry under the counter's value; the rest
      of the seeding continues from the store it leaves. */
  lemma CreateAppends(s: Store, items: seq<(InsertFeedback, Timestamp)>, now: Timestamp) returns (c: Store)
    requires AllBelow(Keys(s.feedback), s.feedbackNextId) && items != []
    ensures c.feedback == s.feedback + [Entry(s.feedbackNextId, FeedbackWith(items[0].0, s.feedbackNextId, items[0].1))]
    ensures c.feedbackNextId == s.feedbackNextId + 1
    ensures AllBelow(Keys(c.feedback), c.feedbackNextId)
    ensures AddFeedback(s, items, now) == AddFeedback(c, items[1..], now)
  {
    c := CreateFeedback(s, items[0].0, Some(items[0].1), now).store;
    var f := FeedbackWith(items[0].0, s.feedbackNextId, items[0].1);
    assert c.feedback == Set(s.feedback, s.feedbackNextId, f);
    assert s.feedbackNextId !in Keys(s.feedback);
  }

  lemma AppendAssoc<T>(a: seq<T>, b: seq<T>, c: seq<T>)
    ensures a + b + c == a + (b + c)
  {
  }

  /** Creating the items one after the other appends them, in order and
      with consecutive ids, to the feedback table. */
  lemma {:induction false} AddFeedbackAppends(s: Store, items: seq<(InsertFeedback, Timestamp)>, now: Timestamp)
    requires AllBelow(Keys(s.feedback), s.feedbackNextId)
    ensures AddFeedback(s, items, now).feedback == s.feedback + Seeds(s.feedbackNextId, items)
    decreases |items|
  {
    if items == [] {
      assert s.feedback + [] == s.feedback;
    } else {
      var c := CreateAppends(s, items, now);
      AddFeedbackAppends(c, items[1..], now);
      AppendsStep(s.feedback, s.feedbackNextId, items, c.feedback, AddFeedback(c, items[1..], now).feedback);
    }
  }

  lemma AppendsStep(t: Table<Feedback>, next: int, items: seq<(InsertFeedback, Timestamp)>, c: Table<Feedback>, r: Table<Feedback>)
    requires items != []
    requires c == t + [Entry(next, FeedbackWith(items[0].0, next, items[0].1))]
    requires r == c + Seeds(next + 1, items[1..])
    ensures r == t + Seeds(next, items)
  {
    var e := Entry(next, FeedbackWith(items[0].0, next, items[0].1));
    var rest := Seeds(next + 1, items[1..]);
    assert Seeds(next, items) == [e] + rest;
    AppendAssoc(t, [e], rest);
  }

  function AddTemplates(s: Store, items: seq<InsertTemplate>, now: Timestamp): (r: Store)
    ensures Valid(s) ==> Valid(r)
    ensures r.templateNextId == s.templateNextId + |items|
    ensures OnlyTemplatesChange(s, r)
    decreases |items|
  {
    if items == [] then s
    else AddTemplates(CreateTemplate(s, items[0], now).store, items[1..], now)
  }

  /** `initializeSampleData` on a blank store, for any seed records:
      the feedback first, then the templates, the brand settings and one
      form. */
  function Seed(feedback: seq<(InsertFeedback, Timestamp)>, templates: seq<InsertTemplate>,
                brand: int -> BrandSettings, form: InsertForm, now: Timestamp): (s: Store)
    requires forall id :: brand(id).id == id
    ensures Valid(s)
    ensures s.feedbackNextId == 1 + |feedback| && s.templateNextId == 1 + |templates|
    ensures s.formNextId == 2 && s.userNextId == 1 && s.users == []
    ensures GetBrandSettings(s) == Some(brand(1))
  {
    var s1 := AddFeedback(Blank(), feedback, now);
    var s2 := AddTemplates(s1, templates, now);
    var s3 := s2.(brandSettings := Some(brand(s2.brandSettingsId)));
    assert Valid(s3) by {
      assert Valid(s2);
    }
    CreateForm(s3, form).store
  }

  /** A freshly constructed store: five feedback records, three
      templates, the brand settings and one form. */
  function Initialize(now: Timestamp): (s: Store)
    ensures Valid(s)
    ensures s.feedbackNextId == 6 && s.templateNextId == 1 + |SampleTemplates| && s.formNextId == 2
    ensures s.users == [] && GetBrandSettings(s) == Some(SampleBrandSettings(1))
  {
    SampleFeedbackShape();
    Seed(SampleFeedback, SampleTemplates, SampleBrandSettings, SampleForm, now)
  }

  /** Feedback created in order of non-increasing date into an empty
      table is listed in creation order, under consecutive ids. */
  lemma AddedFeedbackListedInOrder(s: Store, items: seq<(InsertFeedback, Timestamp)>, now: Timestamp)
    requires s.feedback == []
    requires forall i, j :: 0 <= i < j < |items| ==> items[i].1 >= items[j].1
    ensures AddFeedback(s, items, now).feedback == Seeds(s.feedbackNextId, items)
    ensures GetAllFeedback(AddFeedback(s, items, now)) == Values(AddFeedback(s, items, now).feedback)
  {
    AddFeedbackAppends(s, items, now);
    assert [] + Seeds(s.feedbackNextId, items) == Seeds(s.feedbackNextId, items);
    SeedsSorted(s.feedbackNextId, items);
    Sorting.SortSortedIsIdentity(Values(Seeds(s.feedbackNextId, items)), FeedbackDate);
  }

  lemma SeedsSorted(next: int, items: seq<(InsertFeedback, Timestamp)>)
    requires forall i, j :: 0 <= i < j < |items| ==> items[i].1 >= items[j].1
    ensures Sorting.SortedDesc(Values(Seeds(next, items)), FeedbackDate)
  {
    SeedsAt(next, items);
    var vs := Values(Seeds(next, items));
    assert forall i :: 0 <= i < |vs| ==> vs[i].date == items[i].1;
  }

  /** Five sample records, dated newest first: by
      `AddedFeedbackListedInOrder` the seeded store lists them in creation
      order under ids 1 to 5. */
  lemma SampleFeedbackShape()
    ensures |SampleFeedback| == 5
    ensures forall i, j :: 0 <= i < j < |SampleFeedback| ==> SampleFeedback[i].1 >= SampleFeedback[j].1
  {
  }
}

=== FILE: schema.dfy ===
/** Record shapes of the feedback dashboard (shared/schema.ts): the stored
    rows, the insert shapes that omit generated columns, the partial
    shapes used by updates, and the three validation enums with their
    defaults. Timestamps are milliseconds since the epoch. */
module Schema {
  import opened Wrappers

  type Timestamp = int

  // ---------------------------------------------------------------------
  // sentimentSchema

  datatype Sentiment = Positive | Neutral | Negative

  function SentimentName(s: Sentiment): string
  {
    match s
    case Positive => "positive"
    case Neutral => "neutral"
    case Negative => "negative"
  }

  /** `sentimentSchema.safeParse`: accepts exactly the three labels. */
  function ParseSentiment(s: string): (r: Option<Sentiment>)
    ensures r.Some? <==> (s == "positive" || s == "neutral" || s == "negative")
    ensures r.Some? ==> SentimentName(r.value) == s
  {
    if s == "positive" then Some(Positive)
    else if s == "neutral" then Some(Neutral)
    else if s == "negative" then Some(Negative)
    else None
  }

  /** Every sentiment survives printing and parsing, and distinct
      sentiments have distinct names. */
  lemma SentimentRoundTrip(x: Sentiment, y: Sentiment)
    ensures ParseSentiment(SentimentName(x)) == Some(x)
    ensures SentimentName(x) == SentimentName(y) ==> x == y
  {
  }

  // ---------------------------------------------------------------------
  // questionSchema

  datatype QuestionType = Rating | MultipleChoice | OpenEnded | SingleChoice

  function QuestionTypeName(t: QuestionType): string
  {
    match t
    case Rating => "rating"
    case MultipleChoice => "multiple-choice"
    case OpenEnded => "open-ended"
    case SingleChoice => "single-choice"
  }

  function ParseQuestionType(s: string): (r: Option<QuestionType>)
    ensures r.Some? <==>
      (s == "rating" || s == "multiple-choice" || s == "open-ended" || s == "single-choice")
    ensures r.Some? ==> QuestionTypeName(r.value) == s
  {
    if s == "rating" then Some(Rating)
    else if s == "multiple-choice" then Some(MultipleChoice)
    else if s == "open-ended" then Some(OpenEnded)
    else if s == "single-choice" then Some(SingleChoice)
    else None
  }

  datatype Question = Question(
    id: string,
    kind: QuestionType,
    question: string,
    options: Option<seq<string>>,
    required: bool)

  /** A question object as received, every key possibly missing. */
  datatype RawQuestion = RawQuestion(
    id: Option<string>,
    kind: Option<string>,
    question: Option<string>,
    options: Option<seq<string>>,
    required: Option<bool>)

  /** `questionSchema.safeParse`: `id`, `type` and `question` are required,
      the type must be one of the four kinds, `options` is optional and
      `required` defaults to false. */
  function ParseQuestion(raw: RawQuestion): (r: Option<Question>)
    ensures r.Some? <==>
      raw.id.Some? && raw.question.Some? && raw.kind.Some? && ParseQuestionType(raw.kind.value).Some?
    ensures r.Some? ==>
      && r.value.id == raw.id.value
      && QuestionTypeName(r.value.kind) == raw.kind.value
      && r.value.question == raw.question.value
      && r.value.options == raw.options
      && r.value.required == raw.required.GetOr(false)
  {
    if raw.id.None? || raw.question.None? || raw.kind.None? then None
    else match ParseQuestionType(raw.kind.value)
      case None => None
      case Some(t) => Some(Question(raw.id.value, t, raw.question.value, raw.options, raw.required.GetOr(false)))
  }

  // ---------------------------------------------------------------------
  // appearanceSchema

  datatype ButtonStyle = Rounded | Square | Outline

  function ButtonStyleName(b: ButtonStyle): string
  {
    match b
    case Rounded => "rounded"
    case Square => "square"
    case Outline => "outline"
  }

  function ParseButtonStyle(s: string): (r: Option<ButtonStyle>)
    ensures r.Some? <==> (s == "rounded" || s == "square" || s == "outline")
    ensures r.Some? ==> ButtonStyleName(r.value) == s
  {
    if s == "rounded" then Some(Rounded)
    else if s == "square" then Some(Square)
    else if s == "outline" then Some(Outline)
    else None
  }

  const DefaultFontFamily: string := "Inter"

  datatype Appearance = Appearance(
    brandColor: string,
    logo: Option<string>,
    fontFamily: string,
    buttonStyle: ButtonStyle)

  datatype RawAppearance = RawAppearance(
    brandColor: Option<string>,
    logo: Option<string>,
    fontFamily: Option<string>,
    buttonStyle: Option<string>)

  /** `appearanceSchema.safeParse`: `brandColor` is required, `logo` is
      optional, `fontFamily` defaults to "Inter", and `buttonStyle` must be
      one of the three styles when given and defaults to "rounded". */
  function ParseAppearance(raw: RawAppearance): (r: Option<Appearance>)
    ensures r.Some? <==>
      raw.brandColor.Some? && (raw.buttonStyle.None? || ParseButtonStyle(raw.buttonStyle.value).Some?)
    ensures r.Some? ==>
      && r.value.brandColor == raw.brandColor.value
      && r.value.logo == raw.logo
      && r.value.fontFamily == raw.fontFamily.GetOr(DefaultFontFamily)
      && (raw.buttonStyle.None? ==> r.value.buttonStyle == Rounded)
      && (raw.buttonStyle.Some? ==> ButtonStyleName(r.value.buttonStyle) == raw.buttonStyle.value)
  {
    if raw.brandColor.None? then None
    else
      var style :=
        match raw.buttonStyle
        case None => Some(Rounded)
        case Some(s) => ParseButtonStyle(s);
      match style
      case None => None
      case Some(b) => Some(Appearance(raw.brandColor.value, raw.logo, raw.fontFamily.GetOr(DefaultFontFamily), b))
  }

  // ---------------------------------------------------------------------
  // users

  datatype User = User(
    id: int,
    username: string,
    password: string,
    businessName: Option<string>,
    contactEmail: Option<string>,
    websiteUrl: Option<string>)

  datatype InsertUser = InsertUser(
    username: string,
    password: string,
    businessName: Option<string>,
    contactEmail: Option<string>,
    websiteUrl: Option<string>)

  function UserWithId(u: InsertUser, id: int): (r: User)
    ensures r.id == id && UserFields(r) == u
  {
    User(id, u.username, u.password, u.businessName, u.contactEmail, u.websiteUrl)
  }

  /** The insert fields of a stored user. */
  function UserFields(u: User): InsertUser
  {
    InsertUser(u.username, u.password, u.businessName, u.contactEmail, u.websiteUrl)
  }

  // ---------------------------------------------------------------------
  // feedback

  /** A stored feedback row. `sentiment` is free text: the column is a plain
      non-null text column, not the enum. */
  datatype Feedback = Feedback(
    id: int,
    customer: string,
    sentiment: string,
    sentimentScore: Option<int>,
    message: string,
    date: Timestamp,
    tags: Option<seq<string>>,
    businessId: Option<int>)

  /** `insertFeedbackSchema`: the feedback columns without `id` and
      `date`. */
  datatype InsertFeedback = InsertFeedback(
    customer: string,
    sentiment: string,
    sentimentScore: Option<int>,
    message: string,
    tags: Option<seq<string>>,
    businessId: Option<int>)

  /** The insert fields of a stored feedback row. */
  function FeedbackFields(f: Feedback): InsertFeedback
  {
    InsertFeedback(f.customer, f.sentiment, f.sentimentScore, f.message, f.tags, f.businessId)
  }

  /** A feedback row built from its insert fields and the two generated
      columns; taking the insert fields back recovers the input. */
  function FeedbackWith(ins: InsertFeedback, id: int, date: Timestamp): (r: Feedback)
    ensures r.id == id && r.date == date
    ensures FeedbackFields(r) == ins
  {
    Feedback(id, ins.customer, ins.sentiment, ins.sentimentScore, ins.message, date, ins.tags, ins.businessId)
  }

  /** A feedback request body as received: every key may be missing, and a
      `date` may ride along although the insert shape does not pick it. */
  datatype FeedbackBody = FeedbackBody(
    customer: Option<string>,
    sentiment: Option<string>,
    sentimentScore: Option<int>,
    message: Option<string>,
    tags: Option<seq<string>>,
    businessId: Option<int>,
    date: Option<Timestamp>)

  /** `insertFeedbackSchema.safeParse` on a body: `customer`, `sentiment`
      and `message` are required (non-null text columns); the score, tags
      and business id are optional. */
  function ParseInsertFeedback(body: FeedbackBody): (r: Option<InsertFeedback>)
    ensures r.Some? <==> body.customer.Some? && body.sentiment.Some? && body.message.Some?
    ensures r.Some? ==>
      r.value == InsertFeedback(body.customer.value, body.sentiment.value, body.sentimentScore,
                                body.message.value, body.tags, body.businessId)
  {
    if body.customer.Some? && body.sentiment.Some? && body.message.Some? then
      Some(InsertFeedback(body.customer.value, body.sentiment.value, body.sentimentScore,
                          body.message.value, body.tags, body.businessId))
    else None
  }

  /** `Partial<InsertFeedback>`: `None` means the key is absent; for the
      nullable columns `Some(None)` is an explicit null. */
  datatype FeedbackPatch = FeedbackPatch(
    customer: Option<string>,
    sentiment: Option<string>,
    sentimentScore: Option<Option<int>>,
    message: Option<string>,
    tags: Option<Option<seq<string>>>,
    businessId: Option<Option<int>>)

  // ---------------------------------------------------------------------
  // email templates

  datatype EmailTemplate = EmailTemplate(
    id: int,
    name: string,
    subject: string,
    content: string,
    status: string,
    lastEdited: Timestamp,
    businessId: Option<int>)

  /** `insertEmailTemplateSchema`: the template columns without `id` and
      `lastEdited`. */
  datatype InsertTemplate = InsertTemplate(
    name: string,
    subject: string,
    content: string,
    status: string,
    businessId: Option<int>)

  function TemplateFields(t: EmailTemplate): InsertTemplate
  {
    InsertTemplate(t.name, t.subject, t.content, t.status, t.businessId)
  }

  function TemplateWith(ins: InsertTemplate, id: int, lastEdited: Timestamp): (r: EmailTemplate)
    ensures r.id == id && r.lastEdited == lastEdited
    ensures TemplateFields(r) == ins
  {
    EmailTemplate(id, ins.name, ins.subject, ins.content, ins.status, lastEdited, ins.businessId)
  }

  datatype TemplatePatch = TemplatePatch(
    name: Option<string>,
    subject: Option<string>,
    content: Option<string>,
    status: Option<string>,
    businessId: Option<Option<int>>)

  // ---------------------------------------------------------------------
  // feedback forms

  datatype FeedbackForm = FeedbackForm(
    id: int,
    name: string,
    questions: seq<Question>,
    appearance: Appearance,
    businessId: Option<int>)

  /** `insertFeedbackFormSchema`: the form columns without `id`. */
  datatype InsertForm = InsertForm(
    name: string,
    questions: seq<Question>,
    appearance: Appearance,
    businessId: Option<int>)

  function FormFields(f: FeedbackForm): InsertForm
  {
    InsertForm(f.name, f.questions, f.appearance, f.businessId)
  }

  function FormWith(ins: InsertForm, id: int): (r: FeedbackForm)
    ensures r.id == id && FormFields(r) == ins
  {
    FeedbackForm(id, ins.name, ins.questions, ins.appearance, ins.businessId)
  }

  datatype FormPatch = FormPatch(
    name: Option<string>,
    questions: Option<seq<Question>>,
    appearance: Option<Appearance>,
    businessId: Option<Option<int>>)

  // ---------------------------------------------------------------------
  // brand settings

  const DefaultPrimaryColor: string := "#3B82F6"
  const DefaultSecondaryColor: string := "#10B981"
  const DefaultButtonStyle: string := "rounded"

  datatype BrandSettings = BrandSettings(
    id: int,
    businessName: Option<string>,
    contactEmail: Option<string>,
    websiteUrl: Option<string>,
    primaryColor: Option<string>,
    secondaryColor: Option<string>,
    logo: Option<string>,
    fontFamily: Option<string>,
    buttonStyle: Option<string>,
    emailFooter: Option<string>,
    businessId: Option<int>)

  /** `insertBrandSettingsSchema`: every column but `id`, all optional. */
  datatype InsertBrandSettings = InsertBrandSettings(
    businessName: Option<string>,
    contactEmail: Option<string>,
    websiteUrl: Option<string>,
    primaryColor: Option<string>,
    secondaryColor: Option<string>,
    logo: Option<string>,
    fontFamily: Option<string>,
    buttonStyle: Option<string>,
    emailFooter: Option<string>,
    businessId: Option<int>)

  function BrandSettingsFields(b: BrandSettings): InsertBrandSettings
  {
    InsertBrandSettings(b.businessName, b.contactEmail, b.websiteUrl, b.primaryColor,
                        b.secondaryColor, b.logo, b.fontFamily, b.buttonStyle, b.emailFooter, b.businessId)
  }

  function BrandSettingsWith(ins: InsertBrandSettings, id: int): (r: BrandSettings)
    ensures r.id == id && BrandSettingsFields(r) == ins
  {
    BrandSettings(id, ins.businessName, ins.contactEmail, ins.websiteUrl, ins.primaryColor,
                  ins.secondaryColor, ins.logo, ins.fontFamily, ins.buttonStyle, ins.emailFooter, ins.businessId)
  }

  /** The column defaults a relational insert applies: primary colour
      "#3B82F6", secondary colour "#10B981", font "Inter", button style
      "rounded"; columns without a default and supplied values are kept. */
  function WithColumnDefaults(ins: InsertBrandSettings): (r: InsertBrandSettings)
    ensures r.primaryColor == Some(ins.primaryColor.GetOr(DefaultPrimaryColor))
    ensures r.secondaryColor == Some(ins.secondaryColor.GetOr(DefaultSecondaryColor))
    ensures r.fontFamily == Some(ins.fontFamily.GetOr(DefaultFontFamily))
    ensures r.buttonStyle == Some(ins.buttonStyle.GetOr(DefaultButtonStyle))
    ensures r.businessName == ins.businessName && r.contactEmail == ins.contactEmail
    ensures r.websiteUrl == ins.websiteUrl && r.logo == ins.logo
    ensures r.emailFooter == ins.emailFooter && r.businessId == ins.businessId
  {
    ins.(primaryColor := Some(ins.primaryColor.GetOr(DefaultPrimaryColor)),
         secondaryColor := Some(ins.secondaryColor.GetOr(DefaultSecondaryColor)),
         fontFamily := Some(ins.fontFamily.GetOr(DefaultFontFamily)),
         buttonStyle := Some(ins.buttonStyle.GetOr(DefaultButtonStyle)))
  }

  /** Applying the column defaults twice changes nothing more. */
  lemma ColumnDefaultsIdempotent(ins: InsertBrandSettings)
    ensures WithColumnDefaults(WithColumnDefaults(ins)) == WithColumnDefaults(ins)
  {
  }
}

=== FILE: scorer.dfy ===
/** The server's sentiment scorer (`analyzeSentiment` in server/routes.ts).
    The text is tokenized, every token stemmed, and every stem looked up in
    a word-to-weight lexicon. Stems whose weight is truthy (present and not
    zero) are summed and counted; the average is mapped linearly from
    -5..5 onto 0..100, rounded half up, clamped to 0..100, and classified
    with inclusive thresholds at 65 and 35.

    The tokenizer, the stemmer and the lexicon belong to an external
    natural-language library; they are parameters here. The lexicon is
    consulted with the stemmed token as key, exactly as written; nothing
    assumes that the lexicon's keys are stems. */
module Scorer {
  import opened Arith
  import opened Schema

  /** The external collaborators of the scorer. */
  datatype Analyzer = Analyzer(
    tokenize: string -> seq<string>,
    stem: string -> string,
    lexicon: map<string, int>)

  /** `{ sentiment, score }`. */
  datatype Analysis = Analysis(sentiment: Sentiment, score: int)

  /** The running total of matched weights and the number of matches. */
  datatype Tally = Tally(sum: int, count: nat)

  /** The JavaScript test `if (afinn[word])`: the word is in the lexicon
      and its weight is not zero. */
  predicate Truthy(lexicon: map<string, int>, w: string)
  {
    w in lexicon && lexicon[w] != 0
  }

  function Add(a: Tally, b: Tally): Tally
  {
    Tally(a.sum + b.sum, a.count + b.count)
  }

  /** One step of the lookup loop. */
  function Step(lexicon: map<string, int>, t: Tally, w: string): (r: Tally)
    ensures r == t || (r.count == t.count + 1 && r.sum != t.sum)
    ensures r == t <==> !Truthy(lexicon, w)
  {
    if Truthy(lexicon, w) then Tally(t.sum + lexicon[w], t.count + 1) else t
  }

  /** The tally of the lookup loop after visiting `ws` from left to right;
      it counts nothing exactly when no word is truthy. */
  function TallyOf(lexicon: map<string, int>, ws: seq<string>): (t: Tally)
    ensures t.count <= |ws|
    ensures t.count == 0 <==> forall i :: 0 <= i < |ws| ==> !Truthy(lexicon, ws[i])
    decreases |ws|
  {
    if ws == [] then Tally(0, 0)
    else
      var t := TallyOf(lexicon, ws[..|ws| - 1]);
      assert forall i :: 0 <= i < |ws| - 1 ==> ws[..|ws| - 1][i] == ws[i];
      Step(lexicon, t, ws[|ws| - 1])
  }

  lemma TallySnoc(lexicon: map<string, int>, ws: seq<string>, w: string)
    ensures TallyOf(lexicon, ws + [w]) == Step(lexicon, TallyOf(lexicon, ws), w)
  {
    assert (ws + [w])[..|ws|] == ws;
  }

  /** The tally of a concatenation adds the tallies of the parts. */
  lemma {:induction false} TallyAppend(lexicon: map<string, int>, a: seq<string>, b: seq<string>)
    ensures TallyOf(lexicon, a + b) == Add(TallyOf(lexicon, a), TallyOf(lexicon, b))
    decreases |b|
  {
    if b == [] {
      assert a + b == a;
    } else {
      var b' := b[..|b| - 1];
      var w := b[|b| - 1];
      assert b == b' + [w];
      assert a + b == (a + b') + [w];
      TallyAppend(lexicon, a, b');
      TallySnoc(lexicon, a + b', w);
      TallySnoc(lexicon, b', w);
    }
  }

  /** A word that is absent from the lexicon or weighs zero adds nothing to
      the sum and nothing to the count, wherever it stands. */
  lemma IgnoredWordAddsNothing(lexicon: map<string, int>, before: seq<string>, w: string, after: seq<string>)
    requires !Truthy(lexicon, w)
    ensures TallyOf(lexicon, before + [w] + after) == TallyOf(lexicon, before + after)
  {
    TallyAppend(lexicon, before + [w], after);
    TallyAppend(lexicon, before, [w]);
    TallyAppend(lexicon, before, after);
    assert [w][..0] == [];
  }

  /** The tally depends only on the multiset of words: reordering the
      tokens does not change it. */
  lemma {:induction false} TallyPermutation(lexicon: map<string, int>, a: seq<string>, b: seq<string>)
    requires multiset(a) == multiset(b)
    ensures TallyOf(lexicon, a) == TallyOf(lexicon, b)
    decreases |a|
  {
    if a != [] {
      var n := |a| - 1;
      var j := MatchLast(a, b);
      var b' := b[..j] + b[j + 1..];
      TallyPermutation(lexicon, a[..n], b');
      assert a == a[..n] + [a[n]];
      TallySnoc(lexicon, a[..n], a[n]);
      TallyMoveToEnd(lexicon, b, j);
    }
  }

  /** Finds the last word of `a` in its permutation `b`; the rest of `a`
      is a permutation of `b` without it. */
  lemma MatchLast(a: seq<string>, b: seq<string>) returns (j: int)
    requires multiset(a) == multiset(b) && a != []
    ensures 0 <= j < |b| && b[j] == a[|a| - 1]
    ensures multiset(a[..|a| - 1]) == multiset(b[..j] + b[j + 1..])
  {
    var n := |a| - 1;
    var w := a[n];
    assert a == a[..n] + [w];
    assert w in multiset(b);
    j :| 0 <= j < |b| && b[j] == w;
    assert b == b[..j] + [w] + b[j + 1..];
    calc {
      multiset(a[..n]);
      multiset(a) - multiset{w};
      multiset(b) - multiset{w};
      multiset(b[..j]) + multiset(b[j + 1..]);
      multiset(b[..j] + b[j + 1..]);
    }
  }

  /** Visiting one word last instead of in its place gives the same tally. */
  lemma TallyMoveToEnd(lexicon: map<string, int>, b: seq<string>, j: int)
    requires 0 <= j < |b|
    ensures TallyOf(lexicon, b) == Step(lexicon, TallyOf(lexicon, b[..j] + b[j + 1..]), b[j])
  {
    var w := b[j];
    assert b == (b[..j] + [w]) + b[j + 1..];
    TallyAppend(lexicon, b[..j] + [w], b[j + 1..]);
    TallyAppend(lexicon, b[..j], [w]);
    TallyAppend(lexicon, b[..j], b[j + 1..]);
    TallySnoc(lexicon, b[..j] + b[j + 1..], w);
    TallySnoc(lexicon, [], w);
    assert [] + [w] == [w];
  }

  /** With every weight in -5..5 (the range of the lexicon the source
      uses) the sum stays within five times the count. */
  lemma {:induction false} TallyBounded(lexicon: map<string, int>, ws: seq<string>)
    requires forall w :: w in lexicon ==> -5 <= lexicon[w] <= 5
    ensures -5 * TallyOf(lexicon, ws).count <= TallyOf(lexicon, ws).sum <= 5 * TallyOf(lexicon, ws).count
    decreases |ws|
  {
    if ws != [] {
      TallyBounded(lexicon, ws[..|ws| - 1]);
    }
  }

  // ---------------------------------------------------------------------
  // normalisation and classification

  /** `Math.round((sum / count + 5) * 10)` on exact rationals. */
  function Rounded(t: Tally): int
    requires t.count > 0
  {
    RoundHalfUp(10 * (t.sum + 5 * t.count), t.count)
  }

  /** The rational value the source rounds: `(sum / count + 5) * 10`. */
  ghost function Exact(t: Tally): real
    requires t.count > 0
  {
    (t.sum as real / t.count as real + 5.0) * 10.0
  }

  lemma RoundedIsNearest(t: Tally)
    requires t.count > 0
    ensures Rounded(t) as real - 0.5 <= Exact(t) < Rounded(t) as real + 0.5
  {
    var n := 10 * (t.sum + 5 * t.count);
    var c := t.count as real;
    RoundHalfUpNearest(n, t.count);
    assert n as real / c == Exact(t) by {
      assert n as real == 10.0 * (t.sum as real + 5.0 * c);
      assert Exact(t) * c == 10.0 * (t.sum as real + 5.0 * c) by {
        assert (t.sum as real / c) * c == t.sum as real;
      }
    }
  }

  /** The score of a tally: 50 when nothing matched, otherwise the
      integer nearest to (sum / count + 5) * 10, halves rounded up,
      clamped to 0..100. An average of exactly zero scores 50. */
  function NormalizedScore(t: Tally): (score: int)
    ensures 0 <= score <= 100
    ensures t.count == 0 ==> score == 50
    ensures t.count > 0 && t.sum == 0 ==> score == 50
    ensures t.count > 0 && 0 < score < 100 ==>
      score as real - 0.5 <= Exact(t) < score as real + 0.5
    ensures t.count > 0 && score == 0 ==> Exact(t) < 0.5
    ensures t.count > 0 && score == 100 ==> Exact(t) >= 99.5
  {
    if t.count == 0 then 50
    else
      RoundedIsNearest(t);
      RoundHalfUpExact(50, t.count);
      assert t.sum == 0 ==> 10 * (t.sum + 5 * t.count) == 50 * t.count;
      Clamp(0, 100, Rounded(t))
  }

  /** The three-way label: positive from 65 up, negative up to 35, both
      boundaries included, neutral strictly between. */
  function Classify(score: int): (s: Sentiment)
    ensures s == Positive <==> score >= 65
    ensures s == Negative <==> score <= 35
    ensures s == Neutral <==> 35 < score < 65
  {
    if score >= 65 then Positive
    else if score <= 35 then Negative
    else Neutral
  }

  // ---------------------------------------------------------------------
  // the scorer

  /** The stems of the tokens of `text`, in token order. */
  function Stems(a: Analyzer, text: string): (r: seq<string>)
    ensures |r| == |a.tokenize(text)|
    ensures forall i :: 0 <= i < |r| ==> r[i] == a.stem(a.tokenize(text)[i])
  {
    var words := a.tokenize(text);
    seq(|words|, i requires 0 <= i < |words| => a.stem(words[i]))
  }

  /** `analyzeSentiment(text)`: a score in 0..100 and its label; with no
      truthy stem (in particular with no tokens at all) the result is a
      neutral 50. */
  function Analyze(a: Analyzer, text: string): (r: Analysis)
    ensures 0 <= r.score <= 100
    ensures r.sentiment == Classify(r.score)
    ensures (forall i :: 0 <= i < |Stems(a, text)| ==> !Truthy(a.lexicon, Stems(a, text)[i])) ==>
      r == Analysis(Neutral, 50)
  {
    var score := NormalizedScore(TallyOf(a.lexicon, Stems(a, text)));
    Analysis(Classify(score), score)
  }

  /** The lookup loop and the classification as the source writes them.
      The loop computes the same tally as `TallyOf`. */
  method AnalyzeSentiment(a: Analyzer, text: string) returns (r: Analysis)
    ensures r == Analyze(a, text)
  {
    var stemmed := Stems(a, text);
    var score := 0;
    var count := 0;
    for i := 0 to |stemmed|
      invariant Tally(score, count) == TallyOf(a.lexicon, stemmed[..i])
    {
      assert stemmed[..i + 1][..i] == stemmed[..i];
      var word := stemmed[i];
      if word in a.lexicon && a.lexicon[word] != 0 {
        score := score + a.lexicon[word];
        count := count + 1;
      }
    }
    assert stemmed[..|stemmed|] == stemmed;
    var normalized := 50;
    if count > 0 {
      normalized := RoundHalfUp(10 * (score + 5 * count), count);
      normalized := if normalized > 100 then 100 else normalized;
      normalized := if normalized < 0 then 0 else normalized;
    }
    var sentiment;
    if normalized >= 65 {
      sentiment := Positive;
    } else if normalized <= 35 {
      sentiment := Negative;
    } else {
      sentiment := Neutral;
    }
    r := Analysis(sentiment, normalized);
  }

  // ---------------------------------------------------------------------
  // properties relating several calls

  /** Texts whose stems are the same multiset get the same analysis:
      reordering tokens changes nothing. */
  lemma OrderIndependent(a: Analyzer, t1: string, t2: string)
    requires multiset(Stems(a, t1)) == multiset(Stems(a, t2))
    ensures Analyze(a, t1) == Analyze(a, t2)
  {
    TallyPermutation(a.lexicon, Stems(a, t1), Stems(a, t2));
  }

  /** Replacing one matched word by a matched word of at least the same
      weight never lowers the score. */
  lemma StrongerWordNeverLowers(lexicon: map<string, int>, before: seq<string>, w1: string, w2: string, after: seq<string>)
    requires Truthy(lexicon, w1) && Truthy(lexicon, w2) && lexicon[w1] <= lexicon[w2]
    ensures NormalizedScore(TallyOf(lexicon, before + [w1] + after))
         <= NormalizedScore(TallyOf(lexicon, before + [w2] + after))
  {
    var t1 := TallyOf(lexicon, before + [w1] + after);
    var t2 := TallyOf(lexicon, before + [w2] + after);
    SwapTally(lexicon, before, w1, w2, after);
    NormalizedMonotone(t1, t2);
  }

  lemma SwapTally(lexicon: map<string, int>, before: seq<string>, w1: string, w2: string, after: seq<string>)
    requires Truthy(lexicon, w1) && Truthy(lexicon, w2) && lexicon[w1] <= lexicon[w2]
    ensures TallyOf(lexicon, before + [w1] + after).count == TallyOf(lexicon, before + [w2] + after).count > 0
    ensures TallyOf(lexicon, before + [w1] + after).sum <= TallyOf(lexicon, before + [w2] + after).sum
  {
    TallyAppend(lexicon, before + [w1], after);
    TallyAppend(lexicon, before, [w1]);
    TallyAppend(lexicon, before + [w2], after);
    TallyAppend(lexicon, before, [w2]);
    assert [w1][..0] == [] && [w2][..0] == [];
  }

  /** Over the same number of matched words, a larger sum never scores
      lower. */
  lemma NormalizedMonotone(t1: Tally, t2: Tally)
    requires t1.count == t2.count > 0 && t1.sum <= t2.sum
    ensures NormalizedScore(t1) <= NormalizedScore(t2)
  {
    RoundHalfUpMonotone(10 * (t1.sum + 5 * t1.count), 10 * (t2.sum + 5 * t2.count), t1.count);
  }

  /** With the lexicon's weights within -5..5 the clamp never engages: the
      score is the rounded value itself. */
  lemma BoundedWeightsNeedNoClamp(lexicon: map<string, int>, ws: seq<string>)
    requires forall w :: w in lexicon ==> -5 <= lexicon[w] <= 5
    requires TallyOf(lexicon, ws).count > 0
    ensures NormalizedScore(TallyOf(lexicon, ws)) == Rounded(TallyOf(lexicon, ws))
  {
    var t := TallyOf(lexicon, ws);
    TallyBounded(lexicon, ws);
    var n := 10 * (t.sum + 5 * t.count);
    assert 0 <= n <= 100 * t.count;
    RoundHalfUpMonotone(0, n, t.count);
    RoundHalfUpMonotone(n, 100 * t.count, t.count);
    RoundHalfUpExact(0, t.count);
    RoundHalfUpExact(100, t.count);
  }
}

=== FILE: sorting.dfy ===
/** `Array.prototype.sort` with a numeric comparator `(a, b) => key(b) -
    key(a)`: a stable sort into descending key order. Any two stable sorts
    agree on every input, so a stable insertion sort describes the
    built-in exactly. */
module Sorting {

  ghost predicate SortedDesc<T>(xs: seq<T>, key: T -> int)
  {
    forall i, j :: 0 <= i < j < |xs| ==> key(xs[i]) >= key(xs[j])
  }

  /** Every element of `xs` has key at most `bound`. */
  ghost predicate KeysAtMost<T>(xs: seq<T>, key: T -> int, bound: int)
  {
    forall i :: 0 <= i < |xs| ==> key(xs[i]) <= bound
  }

  /** `xs.filter(p)`. */
  function Filter<T>(xs: seq<T>, p: T -> bool): (r: seq<T>)
    ensures |r| <= |xs|
    ensures forall i :: 0 <= i < |r| ==> p(r[i])
    ensures multiset(r) <= multiset(xs)
  {
    if xs == [] then []
    else
      assert xs == [xs[0]] + xs[1..];
      (if p(xs[0]) then [xs[0]] else []) + Filter(xs[1..], p)
  }

  /** An element is kept by `Filter` exactly when it occurs and satisfies
      the predicate. */
  lemma {:induction false} FilterMembers<T>(xs: seq<T>, p: T -> bool, x: T)
    ensures x in Filter(xs, p) <==> x in xs && p(x)
  {
    if xs != [] {
      var h, t := xs[0], xs[1..];
      FilterMembers(t, p, x);
      assert xs == [h] + t;
      FilterCons(h, t, p);
      assert x in xs <==> x == h || x in t;
    }
  }

  /** Inserts `x` in front of the first element with a strictly smaller
      key, so that among equal keys `x` comes first. */
  function Insert<T>(x: T, ys: seq<T>, key: T -> int): (r: seq<T>)
    ensures |r| == |ys| + 1
    ensures multiset(r) == multiset(ys) + multiset{x}
  {
    if ys == [] then [x]
    else if key(x) >= key(ys[0]) then [x] + ys
    else
      assert ys == [ys[0]] + ys[1..];
      [ys[0]] + Insert(x, ys[1..], key)
  }

  /** Inserting into a descending sequence keeps it descending. */
  lemma {:induction false} InsertSorted<T>(x: T, ys: seq<T>, key: T -> int)
    requires SortedDesc(ys, key)
    ensures SortedDesc(Insert(x, ys, key), key)
  {
    if ys != [] && key(x) < key(ys[0]) {
      InsertSorted(x, ys[1..], key);
      var rest := Insert(x, ys[1..], key);
      forall i | 0 <= i < |rest|
        ensures key(rest[i]) <= key(ys[0])
      {
        assert rest[i] in multiset(rest);
        assert rest[i] == x || rest[i] in multiset(ys[1..]);
        if rest[i] != x {
          var j :| 0 <= j < |ys[1..]| && ys[1..][j] == rest[i];
          assert ys[j + 1] == rest[i];
        }
      }
      assert Insert(x, ys, key) == [ys[0]] + rest;
    }
  }

  /** The stable descending sort of `xs`: a permutation of `xs` in
      descending key order. */
  function SortDesc<T>(xs: seq<T>, key: T -> int): (r: seq<T>)
    ensures |r| == |xs|
    ensures multiset(r) == multiset(xs)
    ensures SortedDesc(r, key)
  {
    if xs == [] then []
    else
      assert xs == [xs[0]] + xs[1..];
      var rest := SortDesc(xs[1..], key);
      InsertSorted(xs[0], rest, key);
      Insert(xs[0], rest, key)
  }

  lemma FilterCons<T>(a: T, s: seq<T>, p: T -> bool)
    ensures Filter([a] + s, p) == (if p(a) then [a] else []) + Filter(s, p)
  {
    assert ([a] + s)[0] == a && ([a] + s)[1..] == s;
  }

  lemma InsertPast<T>(x: T, y: T, ys: seq<T>, key: T -> int)
    requires key(x) < key(y)
    ensures Insert(x, [y] + ys, key) == [y] + Insert(x, ys, key)
  {
    assert ([y] + ys)[0] == y && ([y] + ys)[1..] == ys;
  }

  /** In a descending sequence no kept element has a larger key than the
      head. */
  lemma FilterHeadBound<T>(ys: seq<T>, key: T -> int, p: T -> bool)
    requires SortedDesc(ys, key) && ys != []
    ensures forall i :: 0 <= i < |Filter(ys, p)| ==> key(Filter(ys, p)[i]) <= key(ys[0])
  {
    var fy := Filter(ys, p);
    forall i | 0 <= i < |fy|
      ensures key(fy[i]) <= key(ys[0])
    {
      assert fy[i] in multiset(fy);
      var j :| 0 <= j < |ys| && ys[j] == fy[i];
    }
  }

  /** Filtering commutes with inserting into a sorted sequence. */
  lemma {:induction false} FilterInsert<T>(x: T, ys: seq<T>, key: T -> int, p: T -> bool)
    requires SortedDesc(ys, key)
    ensures Filter(Insert(x, ys, key), p) ==
      if p(x) then Insert(x, Filter(ys, p), key) else Filter(ys, p)
  {
    if ys == [] {
      FilterCons(x, [], p);
    } else if key(x) >= key(ys[0]) {
      FilterInsertFront(x, ys, key, p);
    } else {
      assert ys == [ys[0]] + ys[1..];
      FilterInsert(x, ys[1..], key, p);
      FilterInsertPast(x, ys[0], ys[1..], key, p);
    }
  }

  lemma FilterInsertFront<T>(x: T, ys: seq<T>, key: T -> int, p: T -> bool)
    requires SortedDesc(ys, key) && ys != [] && key(x) >= key(ys[0])
    ensures Filter(Insert(x, ys, key), p) ==
      if p(x) then Insert(x, Filter(ys, p), key) else Filter(ys, p)
  {
    var fy := Filter(ys, p);
    assert Insert(x, ys, key) == [x] + ys;
    FilterCons(x, ys, p);
    if p(x) {
      if fy != [] {
        FilterHeadBound(ys, key, p);
        assert key(x) >= key(fy[0]);
      }
      assert Insert(x, fy, key) == [x] + fy;
    }
  }

  lemma FilterInsertPast<T>(x: T, y: T, ys: seq<T>, key: T -> int, p: T -> bool)
    requires key(x) < key(y)
    requires Filter(Insert(x, ys, key), p) ==
      if p(x) then Insert(x, Filter(ys, p), key) else Filter(ys, p)
    ensures Filter(Insert(x, [y] + ys, key), p) ==
      if p(x) then Insert(x, Filter([y] + ys, p), key) else Filter([y] + ys, p)
  {
    var ins := Insert(x, ys, key);
    var f := Filter(ys, p);
    InsertPast(x, y, ys, key);
    FilterCons(y, ins, p);
    FilterCons(y, ys, p);
    if p(y) {
      assert Filter(Insert(x, [y] + ys, key), p) == [y] + Filter(ins, p);
      assert Filter([y] + ys, p) == [y] + f;
      if p(x) {
        InsertPast(x, y, f, key);
      }
    } else {
      assert Filter(Insert(x, [y] + ys, key), p) == [] + Filter(ins, p) == Filter(ins, p);
      assert Filter([y] + ys, p) == [] + f == f;
    }
  }

  /** Sorting and filtering commute: the filtered sorted list is the
      sorted filtered list. */
  lemma {:induction false} SortFilterCommute<T>(xs: seq<T>, key: T -> int, p: T -> bool)
    ensures Filter(SortDesc(xs, key), p) == SortDesc(Filter(xs, p), key)
  {
    if xs != [] {
      var x := xs[0];
      var xs' := xs[1..];
      assert xs == [x] + xs';
      SortFilterCommute(xs', key, p);
      SortFilterStep(x, xs', key, p);
    }
  }

  lemma SortCons<T>(x: T, xs: seq<T>, key: T -> int)
    ensures SortDesc([x] + xs, key) == Insert(x, SortDesc(xs, key), key)
  {
    assert ([x] + xs)[0] == x && ([x] + xs)[1..] == xs;
  }

  lemma SortFilterStep<T>(x: T, xs: seq<T>, key: T -> int, p: T -> bool)
    requires Filter(SortDesc(xs, key), p) == SortDesc(Filter(xs, p), key)
    ensures Filter(SortDesc([x] + xs, key), p) == SortDesc(Filter([x] + xs, p), key)
  {
    var rest := SortDesc(xs, key);
    var f := Filter(xs, p);
    SortCons(x, xs, key);
    FilterInsert(x, rest, key, p);
    FilterCons(x, xs, p);
    if p(x) {
      SortCons(x, f, key);
    } else {
      assert Filter([x] + xs, p) == f;
    }
  }

  /** A sequence whose keys all agree is left in its order. */
  lemma {:induction false} SortConstantKey<T>(xs: seq<T>, key: T -> int, c: int)
    requires forall i :: 0 <= i < |xs| ==> key(xs[i]) == c
    ensures SortDesc(xs, key) == xs
  {
    if xs != [] {
      SortConstantKey(xs[1..], key, c);
      assert xs == [xs[0]] + xs[1..];
    }
  }

  /** Stability: elements with equal keys keep their original relative
      order. */
  lemma SortStable<T>(xs: seq<T>, key: T -> int, c: int)
    ensures Filter(SortDesc(xs, key), x => key(x) == c) == Filter(xs, x => key(x) == c)
  {
    var p := x => key(x) == c;
    SortFilterCommute(xs, key, p);
    SortConstantKey(Filter(xs, p), key, c);
  }

  /** A sequence already in descending order is left as it is. */
  lemma {:induction false} SortSortedIsIdentity<T>(xs: seq<T>, key: T -> int)
    requires SortedDesc(xs, key)
    ensures SortDesc(xs, key) == xs
  {
    if xs != [] {
      SortSortedIsIdentity(xs[1..], key);
      var rest := xs[1..];
      assert xs == [xs[0]] + rest;
      if rest != [] {
        assert key(xs[0]) >= key(rest[0]);
      }
    }
  }

  /** Sorting is idempotent. */
  lemma SortIdempotent<T>(xs: seq<T>, key: T -> int)
    ensures SortDesc(SortDesc(xs, key), key) == SortDesc(xs, key)
  {
    SortSortedIsIdentity(SortDesc(xs, key), key);
  }
}

=== FILE: storage.dfy ===
/** The in-memory store (`MemStorage` in server/storage.ts): four tables
    keyed by numeric id, each with its own id counter that starts at 1 and
    only ever grows, plus one optional brand-settings record. Every
    operation is a function from the old store to the new store and the
    operation's answer; "now" is a parameter. */
module Storage {
  import opened Wrappers
  import opened Schema
  import opened Table
  import Sorting

  datatype Store = Store(
    users: Table<User>,
    feedback: Table<Feedback>,
    templates: Table<EmailTemplate>,
    forms: Table<FeedbackForm>,
    brandSettings: Option<BrandSettings>,
    userNextId: int,
    feedbackNextId: int,
    templateNextId: int,
    formNextId: int,
    brandSettingsId: int)

  /** The new store and the operation's answer. */
  datatype Outcome<T> = Outcome(store: Store, value: T)

  // ---------------------------------------------------------------------
  // invariant

  function UserId(u: User): int { u.id }
  function FeedbackId(f: Feedback): int { f.id }
  function TemplateId(t: EmailTemplate): int { t.id }
  function FormId(f: FeedbackForm): int { f.id }

  /** Every stored record carries the key it is stored under. */
  ghost predicate IdsMatch<T>(t: Table<T>, idOf: T -> int)
  {
    forall e :: e in t ==> idOf(e.value) == e.key
  }

  /** A table whose keys were all handed out by its counter: listed in
      ascending order and all below the counter's next value. */
  ghost predicate TableValid<T>(t: Table<T>, next: int, idOf: T -> int)
  {
    && next >= 1
    && StrictlyIncreasing(Keys(t))
    && AllBelow(Keys(t), next)
    && IdsMatch(t, idOf)
  }

  ghost predicate Valid(s: Store)
  {
    && TableValid(s.users, s.userNextId, UserId)
    && TableValid(s.feedback, s.feedbackNextId, FeedbackId)
    && TableValid(s.templates, s.templateNextId, TemplateId)
    && TableValid(s.forms, s.formNextId, FormId)
    && (s.brandSettings.Some? ==> s.brandSettings.value.id == s.brandSettingsId)
  }

  /** Adding a record under the counter's value and bumping the counter
      keeps a table valid; the new key was not in use. */
  lemma InsertFreshKeepsValid<T>(t: Table<T>, next: int, idOf: T -> int, v: T)
    requires TableValid(t, next, idOf) && idOf(v) == next
    ensures next !in Keys(t)
    ensures TableValid(Set(t, next, v), next + 1, idOf)
  {
    SetKeepsOrder(t, next, v);
    var ks := Keys(Set(t, next, v));
    assert ks == Keys(t) + [next];
  }

  /** Replacing the record under a present key by one with the same id
      keeps a table valid. */
  lemma ReplaceKeepsValid<T>(t: Table<T>, next: int, idOf: T -> int, k: int, v: T)
    requires TableValid(t, next, idOf) && k in Keys(t) && idOf(v) == k
    ensures TableValid(Set(t, k, v), next, idOf)
  {
    SetKeepsOrder(t, k, v);
  }

  /** Deleting keeps a table valid. */
  lemma DeleteKeepsValid<T>(t: Table<T>, next: int, idOf: T -> int, k: int)
    requires TableValid(t, next, idOf)
    ensures TableValid(Delete(t, k), next, idOf)
  {
    DeleteKeepsOrder(t, k);
    DeleteKeepsBound(t, k, next);
  }

  // ---------------------------------------------------------------------
  // frames: which parts of the store an operation may change

  /** Only the feedback table and its counter may differ. */
  predicate OnlyFeedbackChanges(s: Store, t: Store)
  {
    && t.users == s.users && t.templates == s.templates && t.forms == s.forms
    && t.brandSettings == s.brandSettings
    && t.userNextId == s.userNextId && t.templateNextId == s.templateNextId
    && t.formNextId == s.formNextId && t.brandSettingsId == s.brandSettingsId
  }

  /** Only the template table and its counter may differ. */
  predicate OnlyTemplatesChange(s: Store, t: Store)
  {
    && t.users == s.users && t.feedback == s.feedback && t.forms == s.forms
    && t.brandSettings == s.brandSettings
    && t.userNextId == s.userNextId && t.feedbackNextId == s.feedbackNextId
    && t.formNextId == s.formNextId && t.brandSettingsId == s.brandSettingsId
  }

  /** Only the form table and its counter may differ. */
  predicate OnlyFormsChange(s: Store, t: Store)
  {
    && t.users == s.users && t.feedback == s.feedback && t.templates == s.templates
    && t.brandSettings == s.brandSettings
    && t.userNextId == s.userNextId && t.feedbackNextId == s.feedbackNextId
    && t.templateNextId == s.templateNextId && t.brandSettingsId == s.brandSettingsId
  }

  // ---------------------------------------------------------------------
  // construction

  /** The fields as the constructor sets them, before the sample data. */
  function Blank(): (s: Store)
    ensures Valid(s)
    ensures s.feedback == [] && s.templates == [] && s.forms == [] && s.users == []
    ensures s.userNextId == 1 && s.feedbackNextId == 1 && s.templateNextId == 1 && s.formNextId == 1
  {
    Store([], [], [], [], None, 1, 1, 1, 1, 1)
  }

  // ---------------------------------------------------------------------
  // users

  function GetUser(s: Store, id: int): Option<User>
  {
    Get(s.users, id)
  }

  /** The first user, in insertion order, with the given user name. */
  function FindUser(us: seq<User>, username: string): (r: Option<User>)
    ensures r.Some? ==> r.value in us && r.value.username == username
    ensures r.None? <==> forall i :: 0 <= i < |us| ==> us[i].username != username
    ensures r.Some? ==> exists i :: 0 <= i < |us| && us[i] == r.value &&
                                    forall j :: 0 <= j < i ==> us[j].username != username
  {
    if us == [] then None
    else if us[0].username == username then
      assert us[0] == us[0];
      Some(us[0])
    else
      var r := FindUser(us[1..], username);
      if r.Some? then
        var i :| 0 <= i < |us[1..]| && us[1..][i] == r.value &&
                 forall j :: 0 <= j < i ==> us[1..][j].username != username;
        assert us[i + 1] == r.value;
        r
      else r
  }

  function GetUserByUsername(s: Store, username: string): (r: Option<User>)
    ensures r.Some? ==> r.value in Values(s.users) && r.value.username == username
    ensures r.None? <==> forall u :: u in Values(s.users) ==> u.username != username
  {
    FindUser(Values(s.users), username)
  }

  function CreateUser(s: Store, ins: InsertUser): (r: Outcome<User>)
    ensures r.value == UserWithId(ins, s.userNextId)
    ensures r.store == s.(users := Set(s.users, s.userNextId, r.value), userNextId := s.userNextId + 1)
    ensures Valid(s) ==> Valid(r.store) && s.userNextId !in Keys(s.users)
  {
    var id := s.userNextId;
    var user := UserWithId(ins, id);
    var s' := s.(users := Set(s.users, id, user), userNextId := id + 1);
    assert Valid(s) ==> Valid(s') by {
      if Valid(s) {
        InsertFreshKeepsValid(s.users, id, UserId, user);
      }
    }
    Outcome(s', user)
  }

  // ---------------------------------------------------------------------
  // feedback

  function FeedbackDate(f: Feedback): int { f.date }

  /** `getAllFeedback`: every stored feedback, newest first; feedback with
      equal dates keep insertion order. */
  function GetAllFeedback(s: Store): (r: seq<Feedback>)
    ensures multiset(r) == multiset(Values(s.feedback))
    ensures Sorting.SortedDesc(r, FeedbackDate)
  {
    Sorting.SortDesc(Values(s.feedback), FeedbackDate)
  }

  function GetFeedback(s: Store, id: int): Option<Feedback>
  {
    Get(s.feedback, id)
  }

  function HasSentiment(sentiment: string): Feedback -> bool
  {
    (f: Feedback) => f.sentiment == sentiment
  }

  /** `getFeedbackBySentiment`: the feedback whose sentiment text equals
      the given one, newest first. */
  function GetFeedbackBySentiment(s: Store, sentiment: string): (r: seq<Feedback>)
    ensures Sorting.SortedDesc(r, FeedbackDate)
  {
    Sorting.SortDesc(Sorting.Filter(Values(s.feedback), HasSentiment(sentiment)), FeedbackDate)
  }

  /** The sentiment listing is the full listing with the other sentiments
      left out, in the same order; it holds exactly the stored feedback
      with that sentiment. */
  lemma BySentimentIsFilteredListing(s: Store, sentiment: string, f: Feedback)
    ensures GetFeedbackBySentiment(s, sentiment) == Sorting.Filter(GetAllFeedback(s), HasSentiment(sentiment))
    ensures f in GetFeedbackBySentiment(s, sentiment) <==> f in Values(s.feedback) && f.sentiment == sentiment
  {
    var vs := Values(s.feedback);
    var p := HasSentiment(sentiment);
    Sorting.SortFilterCommute(vs, FeedbackDate, p);
    Sorting.FilterMembers(GetAllFeedback(s), p, f);
    assert f in GetAllFeedback(s) <==> f in vs by {
      assert f in multiset(GetAllFeedback(s)) <==> f in multiset(vs);
    }
  }

  /** `createFeedback`: the record gets the counter's value as id, which
      was not in use, and the counter moves up by one; a supplied date is
      kept, a missing one becomes "now". Nothing else in the store
      changes. */
  function CreateFeedback(s: Store, ins: InsertFeedback, date: Option<Timestamp>, now: Timestamp): (r: Outcome<Feedback>)
    ensures r.value.id == s.feedbackNextId && r.store.feedbackNextId == s.feedbackNextId + 1
    ensures FeedbackFields(r.value) == ins
    ensures r.value.date == (if date.Some? then date.value else now)
    ensures GetFeedback(r.store, r.value.id) == Some(r.value)
    ensures forall k :: k != r.value.id ==> GetFeedback(r.store, k) == GetFeedback(s, k)
    ensures OnlyFeedbackChanges(s, r.store)
    ensures Valid(s) ==> Valid(r.store) && r.value.id !in Keys(s.feedback)
  {
    var id := s.feedbackNextId;
    var f := FeedbackWith(ins, id, date.GetOr(now));
    var s' := s.(feedback := Set(s.feedback, id, f), feedbackNextId := id + 1);
    assert Valid(s) ==> Valid(s') by {
      if Valid(s) {
        InsertFreshKeepsValid(s.feedback, id, FeedbackId, f);
      }
    }
    Outcome(s', f)
  }

  /** `{ ...existing, ...update }` on a feedback record: every supplied
      field overrides, every other field keeps its value. */
  function PatchFeedback(f: Feedback, p: FeedbackPatch): (r: Feedback)
    ensures r.id == f.id && r.date == f.date
    ensures r.customer == p.customer.GetOr(f.customer)
    ensures r.sentiment == p.sentiment.GetOr(f.sentiment)
    ensures r.sentimentScore == p.sentimentScore.GetOr(f.sentimentScore)
    ensures r.message == p.message.GetOr(f.message)
    ensures r.tags == p.tags.GetOr(f.tags)
    ensures r.businessId == p.businessId.GetOr(f.businessId)
  {
    f.(customer := p.customer.GetOr(f.customer),
       sentiment := p.sentiment.GetOr(f.sentiment),
       sentimentScore := p.sentimentScore.GetOr(f.sentimentScore),
       message := p.message.GetOr(f.message),
       tags := p.tags.GetOr(f.tags),
       businessId := p.businessId.GetOr(f.businessId))
  }

  /** Applying the same patch twice is applying it once; the empty patch
      changes nothing. */
  lemma PatchFeedbackIdempotent(f: Feedback, p: FeedbackPatch)
    ensures PatchFeedback(PatchFeedback(f, p), p) == PatchFeedback(f, p)
    ensures PatchFeedback(f, FeedbackPatch(None, None, None, None, None, None)) == f
  {
  }

  /** `updateFeedback`: an absent id answers `None` and changes nothing;
      a present id stores and answers the patched record, and no other
      entry and no counter changes. */
  function UpdateFeedback(s: Store, id: int, p: FeedbackPatch): (r: Outcome<Option<Feedback>>)
    ensures GetFeedback(s, id).None? ==> r.value.None? && r.store == s
    ensures GetFeedback(s, id).Some? ==>
      r.value == Some(PatchFeedback(GetFeedback(s, id).value, p))
      && GetFeedback(r.store, id) == r.value
    ensures forall k :: k != id ==> GetFeedback(r.store, k) == GetFeedback(s, k)
    ensures Keys(r.store.feedback) == Keys(s.feedback)
    ensures OnlyFeedbackChanges(s, r.store) && r.store.feedbackNextId == s.feedbackNextId
    ensures Valid(s) ==> Valid(r.store)
  {
    match Get(s.feedback, id)
    case None => Outcome(s, None)
    case Some(existing) =>
      var updated := PatchFeedback(existing, p);
      var s' := s.(feedback := Set(s.feedback, id, updated));
      assert Valid(s) ==> Valid(s') by {
        if Valid(s) {
          assert existing.id == id by {
            assert Entry(id, existing) in s.feedback;
          }
          ReplaceKeepsValid(s.feedback, s.feedbackNextId, FeedbackId, id, updated);
        }
      }
      Outcome(s', Some(updated))
  }

  /** `deleteFeedback`: answers whether the id was present; afterwards it
      is absent and every other entry and every counter is untouched. */
  function DeleteFeedback(s: Store, id: int): (r: Outcome<bool>)
    ensures r.value <==> GetFeedback(s, id).Some?
    ensures GetFeedback(r.store, id).None?
    ensures forall k :: k != id ==> GetFeedback(r.store, k) == GetFeedback(s, k)
    ensures OnlyFeedbackChanges(s, r.store) && r.store.feedbackNextId == s.feedbackNextId
    ensures Valid(s) ==> Valid(r.store)
  {
    var s' := s.(feedback := Delete(s.feedback, id));
    assert Valid(s) ==> Valid(s') by {
      if Valid(s) {
        DeleteKeepsValid(s.feedback, s.feedbackNextId, FeedbackId, id);
      }
    }
    Outcome(s', id in Keys(s.feedback))
  }

  // ---------------------------------------------------------------------
  // email templates

  /** `getAllTemplates`, `Array.from(this.templates.values())`: one
      template per entry, in insertion order, which for a valid store is
      increasing id order. */
  function GetAllTemplates(s: Store): (r: seq<EmailTemplate>)
    ensures |r| == |s.templates|
    ensures Valid(s) ==> forall i :: 0 <= i < |r| ==> r[i].id == s.templates[i].key
    ensures Valid(s) ==> forall i, j :: 0 <= i < j < |r| ==> r[i].id < r[j].id
  {
    Values(s.templates)
  }

  /** The template and form listings hold exactly the stored records. */
  lemma ListingsHoldStoredRecords(s: Store, t: EmailTemplate, f: FeedbackForm)
    requires Valid(s)
    ensures t in GetAllTemplates(s) <==> exists k :: Get(s.templates, k) == Some(t)
    ensures f in GetAllForms(s) <==> exists k :: Get(s.forms, k) == Some(f)
  {
    assert TableValid(s.templates, s.templateNextId, TemplateId);
    ValuesAreStored(s.templates, t);
    assert TableValid(s.forms, s.formNextId, FormId);
    ValuesAreStored(s.forms, f);
  }

  function GetTemplate(s: Store, id: int): Option<EmailTemplate>
  {
    Get(s.templates, id)
  }

  /** `createTemplate`: a fresh id from the template counter, and
      `lastEdited` set to "now" whatever the caller supplied. */
  function CreateTemplate(s: Store, ins: InsertTemplate, now: Timestamp): (r: Outcome<EmailTemplate>)
    ensures r.value.id == s.templateNextId && r.store.templateNextId == s.templateNextId + 1
    ensures TemplateFields(r.value) == ins && r.value.lastEdited == now
    ensures GetTemplate(r.store, r.value.id) == Some(r.value)
    ensures forall k :: k != r.value.id ==> GetTemplate(r.store, k) == GetTemplate(s, k)
    ensures OnlyTemplatesChange(s, r.store)
    ensures Valid(s) ==> Valid(r.store) && r.value.id !in Keys(s.templates)
  {
    var id := s.templateNextId;
    var t := TemplateWith(ins, id, now);
    var s' := s.(templates := Set(s.templates, id, t), templateNextId := id + 1);
    assert Valid(s) ==> Valid(s') by {
      if Valid(s) {
        InsertFreshKeepsValid(s.templates, id, TemplateId, t);
      }
    }
    Outcome(s', t)
  }

  /** `{ ...existing, ...update, lastEdited: now }`. */
  function PatchTemplate(t: EmailTemplate, p: TemplatePatch, now: Timestamp): (r: EmailTemplate)
    ensures r.id == t.id && r.lastEdited == now
    ensures r.name == p.name.GetOr(t.name)
    ensures r.subject == p.subject.GetOr(t.subject)
    ensures r.content == p.content.GetOr(t.content)
    ensures r.status == p.status.GetOr(t.status)
    ensures r.businessId == p.businessId.GetOr(t.businessId)
  {
    t.(name := p.name.GetOr(t.name),
       subject := p.subject.GetOr(t.subject),
       content := p.content.GetOr(t.content),
       status := p.status.GetOr(t.status),
       businessId := p.businessId.GetOr(t.businessId),
       lastEdited := now)
  }

  /** `updateTemplate`: like `updateFeedback`, and the stored record's
      `lastEdited` becomes "now". */
  function UpdateTemplate(s: Store, id: int, p: TemplatePatch, now: Timestamp): (r: Outcome<Option<EmailTemplate>>)
    ensures GetTemplate(s, id).None? ==> r.value.None? && r.store == s
    ensures GetTemplate(s, id).Some? ==>
      r.value == Some(PatchTemplate(GetTemplate(s, id).value, p, now))
      && GetTemplate(r.store, id) == r.value
      && r.value.value.lastEdited == now
    ensures forall k :: k != id ==> GetTemplate(r.store, k) == GetTemplate(s, k)
    ensures OnlyTemplatesChange(s, r.store) && r.store.templateNextId == s.templateNextId
    ensures Valid(s) ==> Valid(r.store)
  {
    match Get(s.templates, id)
    case None => Outcome(s, None)
    case Some(existing) =>
      var updated := PatchTemplate(existing, p, now);
      var s' := s.(templates := Set(s.templates, id, updated));
      assert Valid(s) ==> Valid(s') by {
        if Valid(s) {
          assert existing.id == id by {
            assert Entry(id, existing) in s.templates;
          }
          ReplaceKeepsValid(s.templates, s.templateNextId, TemplateId, id, updated);
        }
      }
      Outcome(s', Some(updated))
  }

  function DeleteTemplate(s: Store, id: int): (r: Outcome<bool>)
    ensures r.value <==> GetTemplate(s, id).Some?
    ensures GetTemplate(r.store, id).None?
    ensures forall k :: k != id ==> GetTemplate(r.store, k) == GetTemplate(s, k)
    ensures OnlyTemplatesChange(s, r.store) && r.store.templateNextId == s.templateNextId
    ensures Valid(s) ==> Valid(r.store)
  {
    var s' := s.(templates := Delete(s.templates, id));
    assert Valid(s) ==> Valid(s') by {
      if Valid(s) {
        DeleteKeepsValid(s.templates, s.templateNextId, TemplateId, id);
      }
    }
    Outcome(s', id in Keys(s.templates))
  }

  // ---------------------------------------------------------------------
  // feedback forms

  /** `Array.from(this.forms.values())`: one form per entry, in increasing
      id order for a valid store. */
  function GetAllForms(s: Store): (r: seq<FeedbackForm>)
    ensures |r| == |s.forms|
    ensures Valid(s) ==> forall i :: 0 <= i < |r| ==> r[i].id == s.forms[i].key
    ensures Valid(s) ==> forall i, j :: 0 <= i < j < |r| ==> r[i].id < r[j].id
  {
    Values(s.forms)
  }

  function GetForm(s: Store, id: int): Option<FeedbackForm>
  {
    Get(s.forms, id)
  }

  function CreateForm(s: Store, ins: InsertForm): (r: Outcome<FeedbackForm>)
    ensures r.value.id == s.formNextId && r.store.formNextId == s.formNextId + 1
    ensures FormFields(r.value) == ins
    ensures GetForm(r.store, r.value.id) == Some(r.value)
    ensures forall k :: k != r.value.id ==> GetForm(r.store, k) == GetForm(s, k)
    ensures OnlyFormsChange(s, r.store)
    ensures Valid(s) ==> Valid(r.store) && r.value.id !in Keys(s.forms)
  {
    var id := s.formNextId;
    var f := FormWith(ins, id);
    var s' := s.(forms := Set(s.forms, id, f), formNextId := id + 1);
    assert Valid(s) ==> Valid(s') by {
      if Valid(s) {
        InsertFreshKeepsValid(s.forms, id, FormId, f);
      }
    }
    Outcome(s', f)
  }

  /** `{ ...existing, ...update }` on a form. */
  function PatchForm(f: FeedbackForm, p: FormPatch): (r: FeedbackForm)
    ensures r.id == f.id
    ensures r.name == p.name.GetOr(f.name)
    ensures r.questions == p.questions.GetOr(f.questions)
    ensures r.appearance == p.appearance.GetOr(f.appearance)
    ensures r.businessId == p.businessId.GetOr(f.businessId)
  {
    f.(name := p.name.GetOr(f.name),
       questions := p.questions.GetOr(f.questions),
       appearance := p.appearance.GetOr(f.appearance),
       businessId := p.businessId.GetOr(f.businessId))
  }

  function UpdateForm(s: Store, id: int, p: FormPatch): (r: Outcome<Option<FeedbackForm>>)
    ensures GetForm(s, id).None? ==> r.value.None? && r.store == s
    ensures GetForm(s, id).Some? ==>
      r.value == Some(PatchForm(GetForm(s, id).value, p)) && GetForm(r.store, id) == r.value
    ensures forall k :: k != id ==> GetForm(r.store, k) == GetForm(s, k)
    ensures OnlyFormsChange(s, r.store) && r.store.formNextId == s.formNextId
    ensures Valid(s) ==> Valid(r.store)
  {
    match Get(s.forms, id)
    case None => Outcome(s, None)
    case Some(existing) =>
      var updated := PatchForm(existing, p);
      var s' := s.(forms := Set(s.forms, id, updated));
      assert Valid(s) ==> Valid(s') by {
        if Valid(s) {
          assert existing.id == id by {
            assert Entry(id, existing) in s.forms;
          }
          ReplaceKeepsValid(s.forms, s.formNextId, FormId, id, updated);
        }
      }
      Outcome(s', Some(updated))
  }

  function DeleteForm(s: Store, id: int): (r: Outcome<bool>)
    ensures r.value <==> GetForm(s, id).Some?
    ensures GetForm(r.store, id).None?
    ensures forall k :: k != id ==> GetForm(r.store, k) == GetForm(s, k)
    ensures OnlyFormsChange(s, r.store) && r.store.formNextId == s.formNextId
    ensures Valid(s) ==> Valid(r.store)
  {
    var s' := s.(forms := Delete(s.forms, id));
    assert Valid(s) ==> Valid(s') by {
      if Valid(s) {
        DeleteKeepsValid(s.forms, s.formNextId, FormId, id);
      }
    }
    Outcome(s', id in Keys(s.forms))
  }

  // ---------------------------------------------------------------------
  // brand settings

  function GetBrandSettings(s: Store): Option<BrandSettings>
  {
    s.brandSettings
  }

  /** `updateBrandSettings`: the whole record is replaced by the supplied
      fields (no merge with the old record) and its id forced to
      `brandSettingsId`; nothing else changes. */
  function UpdateBrandSettings(s: Store, ins: InsertBrandSettings): (r: Outcome<BrandSettings>)
    ensures r.value.id == s.brandSettingsId && BrandSettingsFields(r.value) == ins
    ensures r.store == s.(brandSettings := Some(r.value))
    ensures Valid(s) ==> Valid(r.store)
  {
    var b := BrandSettingsWith(ins, s.brandSettingsId);
    Outcome(s.(brandSettings := Some(b)), b)
  }

  // ---------------------------------------------------------------------
  // id freshness over any sequence of feedback operations

  datatype FeedbackOp =
    | CreateOp(ins: InsertFeedback, date: Option<Timestamp>, now: Timestamp)
    | UpdateOp(id: int, patch: FeedbackPatch)
    | DeleteOp(id: int)

  /** One operation: the new store and the ids it handed out. */
  function Step(s: Store, op: FeedbackOp): (r: (Store, seq<int>))
    ensures Valid(s) ==> Valid(r.0)
    ensures r.0.feedbackNextId == s.feedbackNextId + |r.1|
    ensures forall i :: 0 <= i < |r.1| ==> r.1[i] == s.feedbackNextId + i
  {
    match op
    case CreateOp(ins, date, now) =>
      var c := CreateFeedback(s, ins, date, now); (c.store, [c.value.id])
    case UpdateOp(id, patch) => (UpdateFeedback(s, id, patch).store, [])
    case DeleteOp(id) => (DeleteFeedback(s, id).store, [])
  }

  /** Runs the operations in order; answers the final store and the ids
      the creations handed out, in order. The ids handed out are exactly
      the consecutive counter values, so they strictly increase and none
      was in use when the run started, even if records were deleted in
      between. */
  function Run(s: Store, ops: seq<FeedbackOp>): (r: (Store, seq<int>))
    ensures Valid(s) ==> Valid(r.0)
    ensures r.0.feedbackNextId == s.feedbackNextId + |r.1|
    ensures forall i :: 0 <= i < |r.1| ==> r.1[i] == s.feedbackNextId + i
    ensures Valid(s) ==> forall i :: 0 <= i < |r.1| ==> r.1[i] !in Keys(s.feedback)
    decreases |ops|
  {
    if ops == [] then (s, [])
    else
      var (s1, issued) := Step(s, ops[0]);
      var (s2, rest) := Run(s1, ops[1..]);
      var ids := issued + rest;
      assert forall i :: 0 <= i < |ids| ==> ids[i] == s.feedbackNextId + i by {
        forall i | 0 <= i < |ids|
          ensures ids[i] == s.feedbackNextId + i
        {
          if i >= |issued| {
            assert ids[i] == rest[i - |issued|];
          }
        }
      }
      assert Valid(s) ==> AllBelow(Keys(s.feedback), s.feedbackNextId);
      (s2, ids)
  }

  /** Once a feedback record is deleted, no later run of operations hands
      its id out again. */
  lemma DeletedIdNeverReissued(s: Store, id: int, ops: seq<FeedbackOp>)
    requires Valid(s) && GetFeedback(s, id).Some?
    ensures id !in Run(DeleteFeedback(s, id).store, ops).1
  {
    var d := DeleteFeedback(s, id).store;
    var ids := Run(d, ops).1;
    assert id < d.feedbackNextId by {
      assert id in Keys(s.feedback);
      assert AllBelow(Keys(s.feedback), s.feedbackNextId);
    }
    forall i | 0 <= i < |ids|
      ensures ids[i] != id
    {
      assert ids[i] == d.feedbackNextId + i;
    }
  }
}

=== FILE: submit_feedback.dfy ===
/** The public feedback form (client/src/pages/submit-feedback.tsx): its
    validation, the transform that turns the comma-separated tag text into
    a list, and the request body it sends. */
module SubmitFeedback {
  import opened Wrappers
  import opened Text
  import opened Schema
  import Scorer
  import Routes

  // ---------------------------------------------------------------------
  // the tags transform

  /** No blank at either end. */
  predicate Trimmed(t: string)
  {
    t == [] || (!IsJsWhitespace(t[0]) && !IsJsWhitespace(t[|t| - 1]))
  }

  /** `tags.map((tag) => tag.trim())`. */
  function TrimAll(parts: seq<string>): (r: seq<string>)
    ensures |r| == |parts| && forall i :: 0 <= i < |parts| ==> r[i] == Trim(parts[i])
    ensures forall i :: 0 <= i < |r| ==> Trimmed(r[i])
  {
    seq(|parts|, i requires 0 <= i < |parts| => Trim(parts[i]))
  }

  /** `val ? val.split(",").map((tag) => tag.trim()) : []`: no text and
      the empty text give no tags; otherwise every comma separates two
      tags, empty ones included, each trimmed and in input order. */
  function ParseTags(val: Option<string>): (r: seq<string>)
    ensures val.None? || val == Some("") ==> r == []
    ensures val.Some? && val.value != "" ==>
      |r| == Count(val.value, ',') + 1 &&
      forall i :: 0 <= i < |r| ==> r[i] == Trim(Split(val.value, ',')[i])
    ensures forall i :: 0 <= i < |r| ==> Trimmed(r[i])
  {
    match val
    case None => []
    case Some(v) => if v == "" then [] else TrimAll(Split(v, ','))
  }

  /** No tag holds a comma: each is a trimmed piece of a split at the
      commas. */
  lemma TagsHaveNoCommas(val: Option<string>)
    ensures forall i :: 0 <= i < |ParseTags(val)| ==> ',' !in ParseTags(val)[i]
  {
    if val.Some? && val.value != "" {
      var parts := Split(val.value, ',');
      forall i | 0 <= i < |parts|
        ensures ',' !in Trim(parts[i])
      {
        TrimInside(parts[i], ',');
      }
    }
  }

  /** A character absent from a string is absent from its trimmed form. */
  lemma TrimInside(s: string, c: char)
    requires c !in s
    ensures c !in Trim(s)
  {
    var r := Trim(s);
    var i, j :| TrimmedInfix(s, r, i, j);
    NotInSlice(s, i, j, c);
  }

  lemma NotInSlice(s: string, i: int, j: int, c: char)
    requires 0 <= i <= j <= |s| && c !in s
    ensures c !in s[i..j]
  {
    forall k | 0 <= k < j - i
      ensures s[i..j][k] != c
    {
      assert s[i..j][k] == s[i + k];
    }
  }

  /** Tags without surrounding blanks survive a round trip through the
      text box: joining them with commas and parsing gives them back. */
  lemma TagsRoundTrip(tags: seq<string>)
    requires |tags| >= 1 && tags != [""]
    requires forall i :: 0 <= i < |tags| ==> ',' !in tags[i]
    requires forall i :: 0 <= i < |tags| ==> Trimmed(tags[i])
    ensures ParseTags(Some(Join(tags, ","))) == tags
  {
    var v := Join(tags, ",");
    JoinSplit(tags, ',');
    JoinNonEmpty(tags);
    ParseNonEmpty(v);
    TrimAllTrimmed(tags);
  }

  lemma ParseNonEmpty(v: string)
    requires v != ""
    ensures ParseTags(Some(v)) == TrimAll(Split(v, ','))
  {
  }

  /** Trimming tags that are already trimmed changes nothing. */
  lemma TrimAllTrimmed(tags: seq<string>)
    requires forall i :: 0 <= i < |tags| ==> Trimmed(tags[i])
    ensures TrimAll(tags) == tags
  {
    forall i | 0 <= i < |tags|
      ensures Trim(tags[i]) == tags[i]
    {
      TrimNoop(tags[i]);
    }
  }

  lemma JoinNonEmpty(tags: seq<string>)
    requires |tags| >= 1 && tags != [""]
    ensures Join(tags, ",") != ""
  {
    if |tags| == 1 {
      assert tags == [tags[0]];
    } else {
      JoinCons(tags, ",");
    }
  }

  /** Empty pieces are kept: "a,,b" gives three tags with an empty one in
      the middle, and a lone blank gives one empty tag. */
  lemma EmptyPiecesKept()
    ensures ParseTags(Some("a,,b")) == ["a", "", "b"]
    ensures ParseTags(Some(" ")) == [""]
  {
    EmptyMiddlePiece();
    BlankPiece();
  }

  lemma EmptyMiddlePiece()
    ensures ParseTags(Some("a,,b")) == ["a", "", "b"]
  {
    SplitSample();
    ParseNonEmpty("a,,b");
    TrimAllTrimmed(["a", "", "b"]);
  }

  lemma BlankPiece()
    ensures ParseTags(Some(" ")) == [""]
  {
    SpaceTrimsToEmpty();
    SplitNoSep(" ", ',');
    ParseNonEmpty(" ");
  }

  lemma SplitSample()
    ensures Split("a,,b", ',') == ["a", "", "b"]
  {
    var parts := ["a", "", "b"];
    JoinCons(parts, ",");
    JoinCons(parts[1..], ",");
    assert Join(parts, ",") == "a,,b";
    JoinSplit(parts, ',');
  }

  lemma SpaceTrimsToEmpty()
    ensures Trim(" ") == ""
  {
    var r := Trim(" ");
    var i, j :| TrimmedInfix(" ", r, i, j);
    assert IsJsWhitespace(' ');
  }

  // ---------------------------------------------------------------------
  // validation

  /** The form's raw values. */
  datatype FormInput = FormInput(customer: string, message: string, tags: Option<string>)

  /** The values after validation and the tags transform. */
  datatype FeedbackValues = FeedbackValues(customer: string, message: string, tags: seq<string>)

  const CustomerRequired := "Customer name is required"
  const MessageTooShort := "Please provide feedback with at least 5 characters"

  /** `feedbackSchema`: the customer needs at least one and the message at
      least five UTF-16 code units; each failing field reports its own
      message, in field order. */
  function Validate(input: FormInput): (r: Result<FeedbackValues, seq<string>>)
    ensures r.Ok? <==> JsLength(input.customer) >= 1 && JsLength(input.message) >= 5
    ensures r.Ok? ==> r.value == FeedbackValues(input.customer, input.message, ParseTags(input.tags))
    ensures r.Err? ==>
      (CustomerRequired in r.error <==> JsLength(input.customer) < 1) &&
      (MessageTooShort in r.error <==> JsLength(input.message) < 5)
  {
    var errors := (if JsLength(input.customer) < 1 then [CustomerRequired] else [])
                + (if JsLength(input.message) < 5 then [MessageTooShort] else []);
    if errors == [] then Ok(FeedbackValues(input.customer, input.message, ParseTags(input.tags)))
    else Err(errors)
  }

  // ---------------------------------------------------------------------
  // the request body

  /** `{ ...data, sentiment, sentimentScore, businessId: 1 }`: the form
      data with the analysis attached and the business fixed to 1. */
  function FeedbackData(data: FeedbackValues, analysis: Scorer.Analysis): (body: FeedbackBody)
    ensures body.customer == Some(data.customer) && body.message == Some(data.message)
    ensures body.tags == Some(data.tags) && body.businessId == Some(1)
    ensures body.sentiment == Some(SentimentName(analysis.sentiment))
    ensures body.sentimentScore == Some(analysis.score)
    ensures body.date.None?
  {
    FeedbackBody(Some(data.customer), Some(SentimentName(analysis.sentiment)), Some(analysis.score),
                 Some(data.message), Some(data.tags), Some(1), None)
  }

  /** The body the form sends is accepted by the server, and unless the
      score is 0 the server stores the client's sentiment and score as
      sent instead of analysing again. */
  lemma SubmittedBodyAccepted(data: FeedbackValues, analysis: Scorer.Analysis, a: Scorer.Analyzer)
    ensures ParseInsertFeedback(FeedbackData(data, analysis)).Some?
    ensures var ins := ParseInsertFeedback(FeedbackData(data, analysis)).value;
      analysis.score != 0 ==> Routes.AutoFill(a, ins) == ins
  {
    var ins := ParseInsertFeedback(FeedbackData(data, analysis)).value;
    assert SentimentName(analysis.sentiment) != "";
    assert !Routes.NeedsAnalysis(ins) <== analysis.score != 0;
  }
}

=== FILE: table.dfy ===
/** A JavaScript `Map<number, T>` as the in-memory store uses it: an
    association list in insertion order. `set` on a present key replaces the
    value in place (the key keeps its position), `set` on a new key appends,
    `delete` removes the entry, and `values()` lists values in insertion
    order. */
module Table {
  import opened Wrappers

  datatype Entry<T> = Entry(key: int, value: T)

  type Table<T> = seq<Entry<T>>

  /** The keys in iteration order. */
  function Keys<T>(t: Table<T>): (ks: seq<int>)
    ensures |ks| == |t|
    ensures forall i :: 0 <= i < |t| ==> ks[i] == t[i].key
  {
    if t == [] then [] else [t[0].key] + Keys(t[1..])
  }

  /** `map.values()`, in iteration order. */
  function Values<T>(t: Table<T>): (vs: seq<T>)
    ensures |vs| == |t|
    ensures forall i :: 0 <= i < |t| ==> vs[i] == t[i].value
  {
    if t == [] then [] else [t[0].value] + Values(t[1..])
  }

  /** Keys listed in strictly ascending order (hence without repeats). */
  ghost predicate StrictlyIncreasing(ks: seq<int>)
  {
    forall i, j :: 0 <= i < j < |ks| ==> ks[i] < ks[j]
  }

  /** Every key is below `bound`. */
  ghost predicate AllBelow(ks: seq<int>, bound: int)
  {
    forall i :: 0 <= i < |ks| ==> ks[i] < bound
  }

  /** `map.get(k)`: the value of the first entry with key `k`. */
  function Get<T>(t: Table<T>, k: int): (r: Option<T>)
    ensures r.Some? <==> k in Keys(t)
    ensures r.Some? ==> Entry(k, r.value) in t
  {
    if t == [] then None
    else if t[0].key == k then Some(t[0].value)
    else Get(t[1..], k)
  }

  /** `map.set(k, v)`: afterwards `k` maps to `v` and every other key maps
      to what it mapped to before; a present key keeps its position, a new
      key is appended at the end. */
  function Set<T>(t: Table<T>, k: int, v: T): (r: Table<T>)
    ensures forall j :: Get(r, j) == if j == k then Some(v) else Get(t, j)
    ensures k in Keys(t) ==> Keys(r) == Keys(t)
    ensures k !in Keys(t) ==> Keys(r) == Keys(t) + [k]
    ensures forall e :: e in r ==> e == Entry(k, v) || e in t
    ensures k !in Keys(t) ==> r == t + [Entry(k, v)]
  {
    if t == [] then [Entry(k, v)]
    else if t[0].key == k then [Entry(k, v)] + t[1..]
    else
      var rest := Set(t[1..], k, v);
      assert Keys([t[0]] + rest) == [t[0].key] + Keys(rest);
      [t[0]] + rest
  }

  /** `map.delete(k)`: afterwards `k` is absent and every other key maps to
      what it mapped to before; the remaining keys keep their order. */
  function Delete<T>(t: Table<T>, k: int): (r: Table<T>)
    ensures forall j :: Get(r, j) == if j == k then None else Get(t, j)
    ensures forall j :: j in Keys(r) ==> j in Keys(t)
    ensures |r| <= |t|
    ensures forall e :: e in r ==> e in t
  {
    if t == [] then []
    else if t[0].key == k then Delete(t[1..], k)
    else
      var rest := Delete(t[1..], k);
      assert Keys([t[0]] + rest) == [t[0].key] + Keys(rest);
      [t[0]] + rest
  }

  /** Deleting keeps the keys strictly ascending. */
  lemma {:induction false} DeleteKeepsOrder<T>(t: Table<T>, k: int)
    requires StrictlyIncreasing(Keys(t))
    ensures StrictlyIncreasing(Keys(Delete(t, k)))
  {
    if t != [] {
      var ks := Keys(t);
      assert Keys(t[1..]) == ks[1..];
      DeleteKeepsOrder(t[1..], k);
      if t[0].key != k {
        var rest := Delete(t[1..], k);
        var rk := Keys(rest);
        assert Keys(Delete(t, k)) == [t[0].key] + rk;
        forall i | 0 <= i < |rk|
          ensures t[0].key < rk[i]
        {
          assert rk[i] in Keys(t[1..]);
        }
      }
    }
  }

  /** Deleting leaves every remaining key below the same bound. */
  lemma DeleteKeepsBound<T>(t: Table<T>, k: int, bound: int)
    requires AllBelow(Keys(t), bound)
    ensures AllBelow(Keys(Delete(t, k)), bound)
  {
    var rk := Keys(Delete(t, k));
    forall i | 0 <= i < |rk|
      ensures rk[i] < bound
    {
      assert rk[i] in Keys(t);
    }
  }

  /** Appending a key above every present key keeps the keys strictly
      ascending; replacing a present key changes no key. */
  lemma SetKeepsOrder<T>(t: Table<T>, k: int, v: T)
    requires StrictlyIncreasing(Keys(t))
    requires k in Keys(t) || AllBelow(Keys(t), k)
    ensures StrictlyIncreasing(Keys(Set(t, k, v)))
  {
  }

  /** With distinct keys, every entry is the one `get` finds for its key. */
  lemma {:induction false} GetAt<T>(t: Table<T>, i: int)
    requires StrictlyIncreasing(Keys(t)) && 0 <= i < |t|
    ensures Get(t, t[i].key) == Some(t[i].value)
  {
    if i > 0 {
      assert Keys(t[1..]) == Keys(t)[1..];
      assert Keys(t)[0] < Keys(t)[i];
      GetAt(t[1..], i - 1);
    }
  }

  /** With distinct keys, `values()` lists exactly the stored values. */
  lemma ValuesAreStored<T>(t: Table<T>, v: T)
    requires StrictlyIncreasing(Keys(t))
    ensures v in Values(t) <==> exists k :: Get(t, k) == Some(v)
  {
    if v in Values(t) {
      var i :| 0 <= i < |t| && Values(t)[i] == v;
      GetAt(t, i);
    }
    if exists k :: Get(t, k) == Some(v) {
      var k :| Get(t, k) == Some(v);
      var i :| 0 <= i < |t| && t[i] == Entry(k, v);
      assert Values(t)[i] == v;
    }
  }
}

=== FILE: template_form.dfy ===
/** The email-template editor (client/src/components/templates/template-form.tsx):
    its validation schema, the values it starts from, and the preview it
    renders with the feedback button put in place of the placeholder. */
module TemplateForm {
  import opened Wrappers
  import opened Text
  import opened Schema
  import ColorPicker

  // ---------------------------------------------------------------------
  // validation

  /** The values the form edits. */
  datatype TemplateValues = TemplateValues(name: string, subject: string, content: string, status: string)

  /** One failed constraint of `templateSchema`. */
  datatype Issue = NameTooShort | SubjectTooShort | ContentTooShort | UnknownStatus

  const NameMessage := "Name must be at least 2 characters"
  const SubjectMessage := "Subject must be at least 5 characters"
  const ContentMessage := "Content must be at least 10 characters"

  /** The message shown under the field; the status has no message of its
      own and shows the schema library's default. */
  function Message(i: Issue): (m: Option<string>)
    ensures m.None? <==> i == UnknownStatus
  {
    match i
    case NameTooShort => Some(NameMessage)
    case SubjectTooShort => Some(SubjectMessage)
    case ContentTooShort => Some(ContentMessage)
    case UnknownStatus => None
  }

  /** Each field's message is its own: no two issues show the same text. */
  lemma MessagesDistinct(i: Issue, j: Issue)
    requires i != j && Message(i).Some?
    ensures Message(i) != Message(j)
  {
    assert NameMessage[0] == 'N' && SubjectMessage[0] == 'S' && ContentMessage[0] == 'C';
  }

  predicate IsStatus(status: string)
  {
    status == "active" || status == "draft"
  }

  /** `templateSchema`: minimum lengths in UTF-16 code units of 2, 5 and 10
      for the name, the subject and the content, and a status of "active" or
      "draft". Every field that fails reports its issue. */
  function Validate(v: TemplateValues): (r: Result<TemplateValues, seq<Issue>>)
    ensures r.Ok? <==>
      JsLength(v.name) >= 2 && JsLength(v.subject) >= 5 && JsLength(v.content) >= 10 && IsStatus(v.status)
    ensures r.Ok? ==> r.value == v
    ensures r.Err? ==>
      (NameTooShort in r.error <==> JsLength(v.name) < 2) &&
      (SubjectTooShort in r.error <==> JsLength(v.subject) < 5) &&
      (ContentTooShort in r.error <==> JsLength(v.content) < 10) &&
      (UnknownStatus in r.error <==> !IsStatus(v.status))
  {
    var issues := (if JsLength(v.name) < 2 then [NameTooShort] else [])
                + (if JsLength(v.subject) < 5 then [SubjectTooShort] else [])
                + (if JsLength(v.content) < 10 then [ContentTooShort] else [])
                + (if IsStatus(v.status) then [] else [UnknownStatus]);
    if issues == [] then Ok(v) else Err(issues)
  }

  // ---------------------------------------------------------------------
  // default values

  /** `x || fallback` for an optional string: a missing or empty value
      gives the fallback. */
  function OrElse(x: Option<string>, fallback: string): (r: string)
    ensures x.Some? && x.value != "" ==> r == x.value
    ensures x.None? || x == Some("") ==> r == fallback
  {
    if x.Some? && x.value != "" then x.value else fallback
  }

  const BusinessPlaceholder := "[Your Business]"
  const Placeholder := "[Share Feedback Button]"

  /** `brandSettings?.businessName || "[Your Business]"`. */
  function BusinessName(brand: Option<BrandSettings>): (r: string)
    ensures r != ""
    ensures brand.Some? && brand.value.businessName.Some? && brand.value.businessName.value != "" ==>
      r == brand.value.businessName.value
  {
    OrElse(if brand.Some? then brand.value.businessName else None, BusinessPlaceholder)
  }

  const Greeting := "Hi [Customer Name],\n\nThank you for your recent [interaction/purchase] with "
  const Invitation := ".\n\nWe'd love to hear your feedback to help us improve our service.\n\n"
  const Closing := "\n\nRegards,\nThe "
  const Signature := " Team"

  /** The default text up to the placeholder. */
  function Lead(business: string): string
  {
    Greeting + business + Invitation
  }

  /** The default text after the placeholder. */
  function Tail(business: string): string
  {
    Closing + business + Signature
  }

  /** The starting text of a new template, the business named twice. */
  function DefaultContent(business: string): string
  {
    Lead(business) + Placeholder + Tail(business)
  }

  /** The form's `defaultValues`: each field of the template being edited,
      or, where there is none or the field is empty, "" for the name and
      the subject, the default text for the content and "draft" for the
      status. */
  function Defaults(template: Option<EmailTemplate>, brand: Option<BrandSettings>): (v: TemplateValues)
    ensures template.None? ==>
      v == TemplateValues("", "", DefaultContent(BusinessName(brand)), "draft")
    ensures template.Some? ==>
      v.name == template.value.name && v.subject == template.value.subject
    ensures template.Some? && template.value.content != "" ==> v.content == template.value.content
    ensures template.Some? && template.value.content == "" ==> v.content == DefaultContent(BusinessName(brand))
    ensures template.Some? && template.value.status != "" ==> v.status == template.value.status
    ensures template.Some? && template.value.status == "" ==> v.status == "draft"
  {
    var name := OrElse(if template.Some? then Some(template.value.name) else None, "");
    var subject := OrElse(if template.Some? then Some(template.value.subject) else None, "");
    var content := OrElse(if template.Some? then Some(template.value.content) else None,
                          DefaultContent(BusinessName(brand)));
    var status := OrElse(if template.Some? then Some(template.value.status) else None, "draft");
    TemplateValues(name, subject, content, status)
  }

  /** The placeholder sits in the default text right after the invitation,
      so a new template's preview always shows the button. */
  lemma DefaultContentHasButton(business: string)
    ensures OccursAt(DefaultContent(business), Placeholder, |Greeting| + |business| + |Invitation|)
    ensures IndexOf(DefaultContent(business), Placeholder).Some?
  {
    OccursBetween(Lead(business), Placeholder, Tail(business));
  }

  lemma OccursBetween(a: string, p: string, b: string)
    ensures OccursAt(a + p + b, p, |a|)
  {
    assert (a + p + b)[|a|..|a| + |p|] == p;
  }

  /** A new template's defaults are rejected until a name and a subject are
      typed in: the default text and status pass, the empty name and
      subject do not. */
  lemma NewTemplateNeedsNameAndSubject(brand: Option<BrandSettings>)
    ensures var r := Validate(Defaults(None, brand));
      r.Err? && r.error == [NameTooShort, SubjectTooShort]
  {
    var b := BusinessName(brand);
    var c := DefaultContent(b);
    assert |c| == |Lead(b)| + |Placeholder| + |Tail(b)|;
    assert |Placeholder| == 23;
    OnlyNameAndSubjectMissing(TemplateValues("", "", c, "draft"));
  }

  lemma OnlyNameAndSubjectMissing(v: TemplateValues)
    requires JsLength(v.name) < 2 && JsLength(v.subject) < 5
    requires |v.content| >= 10 && IsStatus(v.status)
    ensures Validate(v) == Err([NameTooShort, SubjectTooShort])
  {
    assert JsLength(v.content) >= 10;
    assert [NameTooShort] + [SubjectTooShort] + [] + [] == [NameTooShort, SubjectTooShort];
  }

  // ---------------------------------------------------------------------
  // the preview

  /** `brandSettings?.primaryColor || "#3B82F6"`. */
  function ButtonColor(brand: Option<BrandSettings>): (c: string)
    ensures brand.Some? && brand.value.primaryColor.Some? && brand.value.primaryColor.value != "" ==>
      c == brand.value.primaryColor.value
    ensures brand.None? || brand.value.primaryColor.None? || brand.value.primaryColor == Some("") ==>
      c == DefaultPrimaryColor
  {
    OrElse(if brand.Some? then brand.value.primaryColor else None, DefaultPrimaryColor)
  }

  const ButtonDiv := "<div class=\"mt-3 text-center\">\n      "
  const ButtonTag := "<button \n        "
  const ButtonSpacing := "class=\"px-4 py-1 "
  const ButtonColors := "text-white "
  const ButtonShape := "rounded-md text-sm\"\n        "
  const ButtonStyle := "style=\"background-color: "
  const ButtonText := "\"\n      >\n        Share Feedback\n      "
  const ButtonEnd := "</button>\n    </div>"

  /** The button markup in the brand colour. */
  function ButtonHtml(color: string): string
  {
    ButtonDiv + ButtonTag + ButtonSpacing + ButtonColors + ButtonShape + ButtonStyle + color + ButtonText + ButtonEnd
  }

  /** `previewContent`: the content with its first placeholder replaced by
      the button, as `String.prototype.replace` does with a string
      pattern. */
  function Preview(content: string, brand: Option<BrandSettings>): (r: string)
    ensures IndexOf(content, Placeholder).None? ==> r == content
    ensures IndexOf(content, Placeholder).Some? && '$' !in ButtonColor(brand) ==>
      var i := IndexOf(content, Placeholder).value;
      r == content[..i] + ButtonHtml(ButtonColor(brand)) + content[i + |Placeholder|..]
  {
    var html := ButtonHtml(ButtonColor(brand));
    var found := IndexOf(content, Placeholder);
    if found.Some? && '$' !in ButtonColor(brand) then
      var i := found.value;
      ButtonLiteral(ButtonColor(brand));
      ExpandLiteral(html, content[..i], Placeholder, content[i + |Placeholder|..]);
      ReplaceFirst(content, Placeholder, html)
    else
      ReplaceFirst(content, Placeholder, html)
  }

  /** The button markup holds no `$`, so the replacement is inserted
      literally unless the colour itself brings one. */
  lemma ButtonLiteral(color: string)
    requires '$' !in color
    ensures '$' !in ButtonHtml(color)
  {
    OpeningLiteral();
    ClassLiteral();
    ClosingLiteral();
  }

  lemma OpeningLiteral()
    ensures '$' !in ButtonDiv && '$' !in ButtonTag && '$' !in ButtonStyle
  {
    assert '$' !in ButtonDiv;
    assert '$' !in ButtonTag;
  }

  lemma ClassLiteral()
    ensures '$' !in ButtonSpacing && '$' !in ButtonColors && '$' !in ButtonShape
  {
    assert '$' !in ButtonSpacing;
    assert '$' !in ButtonColors;
  }

  lemma ClosingLiteral()
    ensures '$' !in ButtonText && '$' !in ButtonEnd
  {
    assert '$' !in ButtonText;
  }

  /** Content without the placeholder is previewed as it is. */
  lemma PreviewWithoutPlaceholder(content: string, brand: Option<BrandSettings>)
    requires forall j :: 0 <= j <= |content| ==> !OccursAt(content, Placeholder, j)
    ensures Preview(content, brand) == content
  {
    var r := IndexOf(content, Placeholder);
  }

  /** Only the first placeholder becomes the button: with its first
      occurrence at `i` and a colour free of `$`, the preview is the text
      before it, the button, and everything after it unchanged, later
      placeholders included. */
  lemma PreviewReplacesFirst(content: string, brand: Option<BrandSettings>, i: nat)
    requires OccursAt(content, Placeholder, i)
    requires forall j :: 0 <= j < i ==> !OccursAt(content, Placeholder, j)
    requires '$' !in ButtonColor(brand)
    ensures Preview(content, brand) ==
      content[..i] + ButtonHtml(ButtonColor(brand)) + content[i + |Placeholder|..]
  {
    var html := ButtonHtml(ButtonColor(brand));
    var r := IndexOf(content, Placeholder);
    ButtonLiteral(ButtonColor(brand));
    ExpandLiteral(html, content[..i], Placeholder, content[i + |Placeholder|..]);
  }

  /** A brand colour the colour input accepts is a hex colour, which holds
      no `$`: the button it colours is inserted literally. */
  lemma HexColorIsLiteral(color: string)
    requires ColorPicker.MatchesHexColor(color)
    ensures '$' !in color
  {
    ColorPicker.HexColorShape(color);
  }

  const LineBreak := "<br />"

  /** `previewContent.replace(/\n/g, "<br />")`: every line break becomes
      a `<br />` tag. */
  function PreviewHtml(preview: string): (html: string)
    ensures '\n' !in html
    ensures '\n' !in preview ==> html == preview
  {
    assert '\n' !in LineBreak;
    ReplaceAllChar(preview, '\n', LineBreak)
  }

  /** The markup is the preview's lines, in order, separated by `<br />`,
      and it is five characters longer per line break. */
  lemma PreviewHtmlLines(preview: string)
    ensures PreviewHtml(preview) == Join(Split(preview, '\n'), LineBreak)
    ensures |PreviewHtml(preview)| == |preview| + 5 * Count(preview, '\n')
  {
    ReplaceAllCharIsSplitJoin(preview, '\n', LineBreak);
    ReplaceAllCharLength(preview, '\n', LineBreak);
  }
}

=== FILE: template_list.dfy ===
/** The template list's actions (client/src/components/templates/template-list.tsx):
    finding a template by id in the loaded list, duplicating it as a new
    draft, and selecting it for editing or deletion. Each action yields
    the component's new selection state and the request it sends, if any;
    the requests are then served by `Storage`. */
module TemplateList {
  import opened Wrappers
  import opened Schema
  import opened Table
  import opened Storage

  /** The first template in `ts` with the id. */
  function FindIn(ts: seq<EmailTemplate>, id: int): (r: Option<EmailTemplate>)
    ensures r.Some? ==> r.value in ts && r.value.id == id
    ensures r.None? <==> forall t :: t in ts ==> t.id != id
  {
    if ts == [] then None
    else if ts[0].id == id then Some(ts[0])
    else FindIn(ts[1..], id)
  }

  /** `templates?.find((t) => t.id === id)`: nothing while the list is not
      loaded, otherwise the first template with the id. */
  function Find(templates: Option<seq<EmailTemplate>>, id: int): (r: Option<EmailTemplate>)
    ensures r.Some? ==> templates.Some? && r.value in templates.value && r.value.id == id
    ensures r.None? <==> templates.None? || forall t :: t in templates.value ==> t.id != id
  {
    match templates
    case None => None
    case Some(ts) => FindIn(ts, id)
  }

  /** Among several templates with the same id the first one is found. */
  lemma {:induction false} FindFirst(ts: seq<EmailTemplate>, id: int, k: int)
    requires 0 <= k < |ts| && ts[k].id == id
    requires forall j :: 0 <= j < k ==> ts[j].id != id
    ensures FindIn(ts, id) == Some(ts[k])
  {
    if k > 0 {
      FindFirst(ts[1..], id, k - 1);
    }
  }

  // ---------------------------------------------------------------------
  // duplicating

  const CopySuffix := " (Copy)"

  /** The body `handleDuplicate` posts: the template with " (Copy)" after
      its name, the status "draft" and no id. The `lastEdited` key it also
      carries is not part of the insert shape and is replaced by the
      store. */
  function Duplicate(t: EmailTemplate): (d: InsertTemplate)
    ensures d.name == t.name + CopySuffix && d.status == "draft"
    ensures d.subject == t.subject && d.content == t.content && d.businessId == t.businessId
  {
    InsertTemplate(t.name + CopySuffix, t.subject, t.content, "draft", t.businessId)
  }

  /** The copy does not depend on the original's id, status or edit time:
      templates that differ only there have the same copy. */
  lemma DuplicateForgetsIdentity(t1: EmailTemplate, t2: EmailTemplate)
    requires t1.name == t2.name && t1.subject == t2.subject && t1.content == t2.content
    requires t1.businessId == t2.businessId
    ensures Duplicate(t1) == Duplicate(t2)
  {
  }

  /** Stored by `createTemplate`, the copy gets the next id, which no
      stored template has, and the edit time of the request; the original
      is left as it was. */
  lemma DuplicateStored(s: Store, t: EmailTemplate, now: Timestamp)
    requires Valid(s) && GetTemplate(s, t.id) == Some(t)
    ensures var r := CreateTemplate(s, Duplicate(t), now);
      && r.value.id == s.templateNextId && r.value.id != t.id
      && r.value.name == t.name + CopySuffix && r.value.status == "draft"
      && r.value.subject == t.subject && r.value.content == t.content
      && r.value.lastEdited == now
      && GetTemplate(r.store, t.id) == Some(t)
      && Valid(r.store)
  {
    var r := CreateTemplate(s, Duplicate(t), now);
    assert t.id in Keys(s.templates);
    assert r.value.id !in Keys(s.templates);
  }

  // ---------------------------------------------------------------------
  // selection

  /** The component's state: the selected template and whether the delete
      dialog is open. */
  datatype ListState = ListState(selected: Option<EmailTemplate>, deleteDialogOpen: bool)

  /** A request to the server. */
  datatype Request = CreateRequest(body: InsertTemplate) | DeleteRequest(id: int)

  /** `handleEdit`: selects the template with the id, if there is one. */
  function HandleEdit(templates: Option<seq<EmailTemplate>>, st: ListState, id: int): (r: ListState)
    ensures Find(templates, id).None? ==> r == st
    ensures Find(templates, id).Some? ==> r == st.(selected := Find(templates, id))
  {
    match Find(templates, id)
    case None => st
    case Some(t) => st.(selected := Some(t))
  }

  /** `handleDuplicate`: posts the copy of the template with the id, if
      there is one; the selection is not touched. */
  function HandleDuplicate(templates: Option<seq<EmailTemplate>>, id: int): (req: Option<Request>)
    ensures req.None? <==> Find(templates, id).None?
    ensures req.Some? ==> req.value == CreateRequest(Duplicate(Find(templates, id).value))
  {
    match Find(templates, id)
    case None => None
    case Some(t) => Some(CreateRequest(Duplicate(t)))
  }

  /** `handleDelete`: selects the template with the id and opens the
      confirmation dialog, if there is one. */
  function HandleDelete(templates: Option<seq<EmailTemplate>>, st: ListState, id: int): (r: ListState)
    ensures Find(templates, id).None? ==> r == st
    ensures Find(templates, id).Some? ==> r == ListState(Find(templates, id), true)
  {
    match Find(templates, id)
    case None => st
    case Some(t) => ListState(Some(t), true)
  }

  /** `confirmDelete`: deletes the selected template, if any. */
  function ConfirmDelete(st: ListState): (req: Option<Request>)
    ensures req.None? <==> st.selected.None?
    ensures req.Some? ==> req.value == DeleteRequest(st.selected.value.id)
  {
    match st.selected
    case None => None
    case Some(t) => Some(DeleteRequest(t.id))
  }

  /** An id the list does not hold triggers nothing: no request, and the
      selection and dialog stay as they were. */
  lemma UnknownIdDoesNothing(templates: Option<seq<EmailTemplate>>, st: ListState, id: int)
    requires templates.None? || forall t :: t in templates.value ==> t.id != id
    ensures HandleEdit(templates, st, id) == st
    ensures HandleDelete(templates, st, id) == st
    ensures HandleDuplicate(templates, id).None?
  {
  }

  /** The whole delete flow against the store: for a stored template, with
      the list loaded from the store, choosing delete and confirming sends
      a delete of exactly that id, which the store reports as done; the
      template is then gone and every other one is untouched. */
  lemma DeleteFlow(s: Store, st: ListState, id: int)
    requires Valid(s) && GetTemplate(s, id).Some?
    ensures var chosen := HandleDelete(Some(GetAllTemplates(s)), st, id);
      && chosen.deleteDialogOpen
      && ConfirmDelete(chosen) == Some(DeleteRequest(id))
    ensures var d := DeleteTemplate(s, id);
      && d.value
      && GetTemplate(d.store, id).None?
      && (forall k :: k != id ==> GetTemplate(d.store, k) == GetTemplate(s, k))
  {
    var t := GetTemplate(s, id).value;
    assert Entry(id, t) in s.templates;
    assert t.id == id;
    assert TableValid(s.templates, s.templateNextId, TemplateId);
    ValuesAreStored(s.templates, t);
    assert t in GetAllTemplates(s);
  }
}

=== FILE: text.dfy ===
/** The JavaScript string operations the source relies on, over `string`
    (a sequence of Unicode scalar values): `split`, `join`, `trim`,
    `toLowerCase`, `length`, `replace` with a string pattern, a global
    single-character `replace`, and number-to-string conversion. */
module Text {
  import opened Wrappers

  /** Number of occurrences of `c` in `s`. */
  function Count(s: string, c: char): (n: nat)
    ensures n <= |s|
    ensures n == 0 <==> c !in s
  {
    if s == [] then 0 else (if s[0] == c then 1 else 0) + Count(s[1..], c)
  }

  lemma {:induction false} CountAppend(a: string, b: string, c: char)
    ensures Count(a + b, c) == Count(a, c) + Count(b, c)
  {
    if a == [] {
      assert a + b == b;
    } else {
      assert (a + b)[1..] == a[1..] + b;
      CountAppend(a[1..], b, c);
    }
  }

  // ---------------------------------------------------------------------
  // String.prototype.length: UTF-16 code units

  /** JavaScript's `length`: characters outside the Basic Multilingual
      Plane take two UTF-16 code units. */
  function JsLength(s: string): (n: nat)
    ensures |s| <= n <= 2 * |s|
    ensures (forall i :: 0 <= i < |s| ==> s[i] as int <= 0xFFFF) ==> n == |s|
  {
    if s == [] then 0 else (if s[0] as int > 0xFFFF then 2 else 1) + JsLength(s[1..])
  }

  // ---------------------------------------------------------------------
  // Array.prototype.join and String.prototype.split

  /** `parts.join(sep)`: the empty array joins to the empty string. */
  function Join(parts: seq<string>, sep: string): string
  {
    if |parts| == 0 then ""
    else if |parts| == 1 then parts[0]
    else parts[0] + sep + Join(parts[1..], sep)
  }

  /** `s.split(sep)` for a one-character separator: always at least one
      piece, one more than the separators, none containing the separator. */
  function Split(s: string, sep: char): (r: seq<string>)
    ensures |r| == Count(s, sep) + 1
    ensures forall i :: 0 <= i < |r| ==> sep !in r[i]
  {
    if s == [] then [""]
    else
      var rest := Split(s[1..], sep);
      if s[0] == sep then [""] + rest
      else [[s[0]] + rest[0]] + rest[1..]
  }

  /** Joining the pieces of a split with the same separator gives the
      original string back. */
  lemma {:induction false} SplitJoin(s: string, sep: char)
    ensures Join(Split(s, sep), [sep]) == s
  {
    if s != [] {
      var rest := Split(s[1..], sep);
      SplitJoin(s[1..], sep);
      if s[0] == sep {
        SplitJoinSep(s, sep, rest);
      } else {
        SplitJoinChar(s, sep, rest);
      }
    }
  }

  lemma SplitJoinSep(s: string, sep: char, rest: seq<string>)
    requires s != [] && s[0] == sep && rest == Split(s[1..], sep)
    requires Join(rest, [sep]) == s[1..]
    ensures Join(Split(s, sep), [sep]) == s
  {
    var r := [""] + rest;
    assert Split(s, sep) == r;
    assert r[0] == "" && r[1..] == rest;
    assert Join(r, [sep]) == "" + [sep] + Join(rest, [sep]);
    assert s == [s[0]] + s[1..];
  }

  lemma SplitJoinChar(s: string, sep: char, rest: seq<string>)
    requires s != [] && s[0] != sep && rest == Split(s[1..], sep)
    requires Join(rest, [sep]) == s[1..]
    ensures Join(Split(s, sep), [sep]) == s
  {
    assert Split(s, sep) == [[s[0]] + rest[0]] + rest[1..];
    JoinPrepend(s[0], rest, [sep]);
    assert s == [s[0]] + s[1..];
  }

  /** Gluing a character onto the first piece glues it onto the join. */
  lemma JoinPrepend(c: char, parts: seq<string>, sep: string)
    requires |parts| >= 1
    ensures Join([[c] + parts[0]] + parts[1..], sep) == [c] + Join(parts, sep)
  {
    var r := [[c] + parts[0]] + parts[1..];
    if |parts| > 1 {
      JoinCons(parts, sep);
      JoinCons(r, sep);
      assert r[1..] == parts[1..];
    }
  }

  lemma JoinCons(parts: seq<string>, sep: string)
    requires |parts| >= 2
    ensures Join(parts, sep) == parts[0] + sep + Join(parts[1..], sep)
  {
  }

  /** Splitting pieces joined with a separator they do not contain gives
      the pieces back. */
  lemma {:induction false} JoinSplit(parts: seq<string>, sep: char)
    requires |parts| >= 1
    requires forall i :: 0 <= i < |parts| ==> sep !in parts[i]
    ensures Split(Join(parts, [sep]), sep) == parts
  {
    if |parts| == 1 {
      SplitNoSep(parts[0], sep);
    } else {
      JoinSplit(parts[1..], sep);
      JoinCons(parts, [sep]);
      SplitPrefix(parts[0], sep, Join(parts[1..], [sep]));
      assert parts == [parts[0]] + parts[1..];
    }
  }

  lemma {:induction false} SplitNoSep(w: string, sep: char)
    requires sep !in w
    ensures Split(w, sep) == [w]
  {
    if w != [] {
      SplitNoSep(w[1..], sep);
      assert w == [w[0]] + w[1..];
    }
  }

  /** A separator-free word in front of a separator becomes the first
      piece. */
  lemma {:induction false} SplitPrefix(w: string, sep: char, t: string)
    requires sep !in w
    ensures Split(w + [sep] + t, sep) == [w] + Split(t, sep)
  {
    var s := w + [sep] + t;
    if w == [] {
      assert s[0] == sep && s[1..] == t;
    } else {
      var tail := w[1..] + [sep] + t;
      assert s == [w[0]] + tail;
      SplitPrefix(w[1..], sep, t);
      SplitCons(w[0], tail, sep);
      ConsPiece(w, Split(t, sep));
    }
  }

  /** Splitting a string that starts with a non-separator glues that
      character to the first piece. */
  lemma SplitCons(ch: char, tail: string, sep: char)
    requires ch != sep
    ensures var rest := Split(tail, sep);
      Split([ch] + tail, sep) == [[ch] + rest[0]] + rest[1..]
  {
    var s := [ch] + tail;
    assert s[0] == ch && s[1..] == tail;
  }

  lemma ConsPiece(w: string, pieces: seq<string>)
    requires w != []
    ensures var rest := [w[1..]] + pieces;
      [[w[0]] + rest[0]] + rest[1..] == [w] + pieces
  {
    var rest := [w[1..]] + pieces;
    assert [w[0]] + rest[0] == w;
    assert rest[1..] == pieces;
  }

  /** A character in neither the pieces nor the separator is not in the
      join. */
  lemma {:induction false} NotInJoin(parts: seq<string>, sep: string, c: char)
    requires c !in sep
    requires forall i :: 0 <= i < |parts| ==> c !in parts[i]
    ensures c !in Join(parts, sep)
  {
    if |parts| >= 2 {
      NotInJoin(parts[1..], sep, c);
      JoinCons(parts, sep);
    }
  }

  // ---------------------------------------------------------------------
  // String.prototype.trim

  /** The characters `trim` removes: ECMAScript WhiteSpace and
      LineTerminator code points. */
  predicate IsJsWhitespace(c: char): (b: bool)
    ensures c == ' ' || c == '\t' || c == '\n' || c == '\r' ==> b
    ensures ('0' <= c <= '9') || ('a' <= c <= 'z') || ('A' <= c <= 'Z') || c == ',' ==> !b
  {
    var n := c as int;
    || 0x09 <= n <= 0x0D   // tab, line feed, vertical tab, form feed, carriage return
    || n == 0x20 || n == 0xA0 || n == 0x1680
    || 0x2000 <= n <= 0x200A
    || n == 0x2028 || n == 0x2029 || n == 0x202F || n == 0x205F
    || n == 0x3000 || n == 0xFEFF
  }

  /** Removes leading whitespace: the result is a suffix of `s`, everything
      dropped is whitespace, and what remains does not start with it. */
  function TrimStart(s: string): (r: string)
    ensures |r| <= |s| && r == s[|s| - |r|..]
    ensures forall k :: 0 <= k < |s| - |r| ==> IsJsWhitespace(s[k])
    ensures r == [] || !IsJsWhitespace(r[0])
  {
    if s != [] && IsJsWhitespace(s[0]) then TrimStart(s[1..]) else s
  }

  /** Removes trailing whitespace: the result is a prefix of `s`, everything
      dropped is whitespace, and what remains does not end with it. */
  function TrimEnd(s: string): (r: string)
    ensures |r| <= |s| && r == s[..|r|]
    ensures forall k :: |r| <= k < |s| ==> IsJsWhitespace(s[k])
    ensures r == [] || !IsJsWhitespace(r[|r| - 1])
  {
    if s != [] && IsJsWhitespace(s[|s| - 1]) then TrimEnd(s[..|s| - 1]) else s
  }

  /** `r` is `s[i..j]` and only whitespace lies outside it. */
  ghost predicate TrimmedInfix(s: string, r: string, i: int, j: int)
  {
    && 0 <= i <= j <= |s| && r == s[i..j]
    && (forall k :: 0 <= k < i ==> IsJsWhitespace(s[k]))
    && (forall k :: j <= k < |s| ==> IsJsWhitespace(s[k]))
  }

  /** `s.trim()`: a contiguous infix of `s` with no whitespace at either
      end, obtained by dropping only whitespace. */
  function Trim(s: string): (r: string)
    ensures exists i, j :: TrimmedInfix(s, r, i, j)
    ensures r == [] || (!IsJsWhitespace(r[0]) && !IsJsWhitespace(r[|r| - 1]))
  {
    var a := TrimStart(s);
    var r := TrimEnd(a);
    TrimWitness(s, a, r);
    r
  }

  lemma TrimWitness(s: string, a: string, r: string)
    requires |a| <= |s| && a == s[|s| - |a|..]
    requires forall k :: 0 <= k < |s| - |a| ==> IsJsWhitespace(s[k])
    requires |r| <= |a| && r == a[..|r|]
    requires forall k :: |r| <= k < |a| ==> IsJsWhitespace(a[k])
    ensures TrimmedInfix(s, r, |s| - |a|, |s| - |a| + |r|)
  {
    var i := |s| - |a|;
    var j := i + |r|;
    forall k | 0 <= k < |r|
      ensures r[k] == s[i + k]
    {
      assert r[k] == a[k] && a[k] == s[i + k];
    }
    assert r == s[i..j];
    forall k | j <= k < |s|
      ensures IsJsWhitespace(s[k])
    {
      assert s[k] == a[k - i];
    }
  }

  /** A string without surrounding whitespace is left alone by `trim`. */
  lemma TrimNoop(s: string)
    requires s == [] || (!IsJsWhitespace(s[0]) && !IsJsWhitespace(s[|s| - 1]))
    ensures Trim(s) == s
  {
  }

  // ---------------------------------------------------------------------
  // String.prototype.toLowerCase, restricted to ASCII letters

  function LowerChar(c: char): (d: char)
  {
    if 'A' <= c <= 'Z' then (c as int - 'A' as int + 'a' as int) as char else c
  }

  /** Folds ASCII upper-case letters to lower case, leaving every other
      character alone. */
  function ToLower(s: string): (r: string)
    ensures |r| == |s|
    ensures forall i :: 0 <= i < |s| ==> r[i] == LowerChar(s[i])
    ensures forall i :: 0 <= i < |r| ==> !('A' <= r[i] <= 'Z')
  {
    seq(|s|, i requires 0 <= i < |s| => LowerChar(s[i]))
  }

  /** Lower-casing twice is lower-casing once. */
  lemma ToLowerIdempotent(s: string)
    ensures ToLower(ToLower(s)) == ToLower(s)
  {
  }

  // ---------------------------------------------------------------------
  // String.prototype.indexOf / replace with a string pattern

  predicate OccursAt(s: string, p: string, i: nat)
  {
    i + |p| <= |s| && s[i..i + |p|] == p
  }

  /** The first position at or after `from` where `p` occurs in `s`. */
  function IndexOfFrom(s: string, p: string, from: nat): (r: Option<nat>)
    requires from <= |s|
    ensures r.Some? ==> from <= r.value && OccursAt(s, p, r.value)
    ensures r.Some? ==> forall j :: from <= j < r.value ==> !OccursAt(s, p, j)
    ensures r.None? ==> forall j :: from <= j <= |s| ==> !OccursAt(s, p, j)
    decreases |s| - from
  {
    if OccursAt(s, p, from) then Some(from)
    else if from == |s| then None
    else IndexOfFrom(s, p, from + 1)
  }

  /** `s.indexOf(p)`, with `None` for JavaScript's -1. */
  function IndexOf(s: string, p: string): (r: Option<nat>)
    ensures r.Some? ==> OccursAt(s, p, r.value)
    ensures r.Some? ==> forall j :: 0 <= j < r.value ==> !OccursAt(s, p, j)
    ensures r.None? ==> forall j :: 0 <= j <= |s| ==> !OccursAt(s, p, j)
  {
    IndexOfFrom(s, p, 0)
  }

  /** The replacement-pattern expansion `replace` applies to its
      replacement string when the pattern is a plain string (so there are
      no capture groups): `$$` gives `$`, `$&` the matched text, `` $` ``
      the text before the match, `$'` the text after it; any other `$` is
      kept literally. */
  function ExpandReplacement(repl: string, before: string, matched: string, after: string): (r: string)
    ensures '$' !in repl ==> r == repl
  {
    if repl == [] then ""
    else if repl[0] == '$' && |repl| >= 2 then
      var tail := ExpandReplacement(repl[2..], before, matched, after);
      match repl[1]
      case '$' => "$" + tail
      case '&' => matched + tail
      case '`' => before + tail
      case '\'' => after + tail
      case _ => "$" + ExpandReplacement(repl[1..], before, matched, after)
    else [repl[0]] + ExpandReplacement(repl[1..], before, matched, after)
  }

  /** A replacement without `$` is inserted literally. */
  lemma {:induction false} ExpandLiteral(repl: string, before: string, matched: string, after: string)
    requires '$' !in repl
    ensures ExpandReplacement(repl, before, matched, after) == repl
  {
    if repl != [] {
      assert repl == [repl[0]] + repl[1..];
      ExpandLiteral(repl[1..], before, matched, after);
    }
  }

  /** `s.replace(p, repl)` with a string pattern: only the first
      occurrence is replaced; everything before and after it is kept
      verbatim, including later occurrences; no occurrence leaves `s`
      unchanged. */
  function ReplaceFirst(s: string, p: string, repl: string): (r: string)
    ensures IndexOf(s, p).None? ==> r == s
    ensures IndexOf(s, p).Some? ==>
      var i := IndexOf(s, p).value;
      r == s[..i] + ExpandReplacement(repl, s[..i], p, s[i + |p|..]) + s[i + |p|..]
  {
    match IndexOf(s, p)
    case None => s
    case Some(i) =>
      var before := s[..i];
      var after := s[i + |p|..];
      before + ExpandReplacement(repl, before, p, after) + after
  }

  /** Global replacement of one character by a literal string, as
      `s.replace(/c/g, repl)` does when `repl` holds no `$`. */
  function ReplaceAllChar(s: string, c: char, repl: string): (r: string)
    ensures c !in repl ==> c !in r
    ensures c !in s ==> r == s
  {
    if s == [] then ""
    else
      assert s == [s[0]] + s[1..];
      var rest := ReplaceAllChar(s[1..], c, repl);
      if s[0] == c then repl + rest else [s[0]] + rest
  }

  /** Every occurrence of `c` grows the string by `|repl| - 1`. */
  lemma {:induction false} ReplaceAllCharLength(s: string, c: char, repl: string)
    ensures |ReplaceAllChar(s, c, repl)| == |s| + Count(s, c) * (|repl| - 1)
  {
    if s != [] {
      ReplaceAllCharLength(s[1..], c, repl);
      var k := Count(s[1..], c);
      var m := |repl| - 1;
      var rest := ReplaceAllChar(s[1..], c, repl);
      assert |rest| == |s| - 1 + k * m;
      if s[0] == c {
        assert Count(s, c) == k + 1;
        assert ReplaceAllChar(s, c, repl) == repl + rest;
        MulSucc(k, m);
      } else {
        assert Count(s, c) == k;
        assert ReplaceAllChar(s, c, repl) == [s[0]] + rest;
      }
    }
  }

  /** Replacing `c` brings in no character that was in neither the string
      nor the replacement. */
  lemma {:induction false} ReplaceAllCharAbsent(s: string, c: char, repl: string, d: char)
    requires d !in s && d !in repl
    ensures d !in ReplaceAllChar(s, c, repl)
  {
    if s != [] {
      ReplaceAllCharAbsent(s[1..], c, repl, d);
      assert s == [s[0]] + s[1..];
    }
  }

  /** Global replacement is splitting at `c` and joining with the
      replacement. */
  lemma {:induction false} ReplaceAllCharIsSplitJoin(s: string, c: char, repl: string)
    ensures ReplaceAllChar(s, c, repl) == Join(Split(s, c), repl)
  {
    if s != [] {
      ReplaceAllCharIsSplitJoin(s[1..], c, repl);
      var rest := Split(s[1..], c);
      var tail := ReplaceAllChar(s[1..], c, repl);
      assert tail == Join(rest, repl);
      if s[0] == c {
        assert ReplaceAllChar(s, c, repl) == repl + tail;
        assert Split(s, c) == [""] + rest;
        JoinCons([""] + rest, repl);
        assert ([""] + rest)[1..] == rest;
      } else {
        assert ReplaceAllChar(s, c, repl) == [s[0]] + tail;
        assert Split(s, c) == [[s[0]] + rest[0]] + rest[1..];
        JoinPrepend(s[0], rest, repl);
      }
    }
  }

  lemma MulSucc(k: int, m: int)
    ensures (k + 1) * m == k * m + m
  {
  }

  // ---------------------------------------------------------------------
  // Number-to-string conversion for integers

  function DigitChar(d: nat): (c: char)
    requires d < 10
    ensures '0' <= c <= '9'
  {
    ('0' as int + d) as char
  }

  /** Decimal digits of a natural number, most significant first. */
  function NatToString(n: nat): (s: string)
    ensures |s| >= 1
    ensures forall i :: 0 <= i < |s| ==> '0' <= s[i] <= '9'
    ensures n > 0 ==> s[0] != '0'
  {
    if n < 10 then [DigitChar(n)] else NatToString(n / 10) + [DigitChar(n % 10)]
  }

  /** `String(n)` for an integer `n`. */
  function IntToString(n: int): (s: string)
    ensures |s| >= 1
    ensures n < 0 <==> s[0] == '-'
  {
    if n < 0 then "-" + NatToString(-n) else NatToString(n)
  }

  /** The value of a string of decimal digits. */
  function ParseDigits(s: string): int
    requires forall i :: 0 <= i < |s| ==> '0' <= s[i] <= '9'
  {
    if s == [] then 0 else 10 * ParseDigits(s[..|s| - 1]) + (s[|s| - 1] as int - '0' as int)
  }

  /** Reading an integer back from its decimal string. */
  function ParseInt(s: string): Option<int>
  {
    if |s| >= 2 && s[0] == '-' && (forall i :: 1 <= i < |s| ==> '0' <= s[i] <= '9') then
      Some(-ParseDigits(s[1..]))
    else if |s| >= 1 && (forall i :: 0 <= i < |s| ==> '0' <= s[i] <= '9') then
      Some(ParseDigits(s))
    else None
  }

  lemma {:induction false} ParseNatToString(n: nat)
    ensures ParseDigits(NatToString(n)) == n
  {
    if n >= 10 {
      var s := NatToString(n);
      assert s[..|s| - 1] == NatToString(n / 10);
      ParseNatToString(n / 10);
    }
  }

  /** Integer-to-string conversion loses nothing. */
  lemma IntToStringRoundTrip(n: int)
    ensures ParseInt(IntToString(n)) == Some(n)
  {
    if n < 0 {
      NegativeRoundTrip(-n);
    } else {
      NaturalRoundTrip(n);
    }
  }

  lemma NaturalRoundTrip(n: nat)
    ensures ParseInt(IntToString(n)) == Some(n)
  {
    var s := NatToString(n);
    assert IntToString(n) == s;
    assert forall i :: 0 <= i < |s| ==> '0' <= s[i] <= '9';
    assert !(|s| >= 2 && s[0] == '-');
    ParseNatToString(n);
  }

  lemma NegativeRoundTrip(m: int)
    requires m > 0
    ensures ParseInt(IntToString(-m)) == Some(-m)
  {
    var t := NatToString(m);
    ParseNatToString(m);
    assert IntToString(-m) == "-" + t;
    ParseNegative(t);
  }

  /** A minus sign followed by digits reads as the negated digits. */
  lemma ParseNegative(t: string)
    requires |t| >= 1 && forall i :: 0 <= i < |t| ==> '0' <= t[i] <= '9'
    ensures ParseInt("-" + t) == Some(-ParseDigits(t))
  {
    var s := "-" + t;
    assert s[1..] == t;
    forall i | 1 <= i < |s|
      ensures '0' <= s[i] <= '9'
    {
      assert s[i] == t[i - 1];
    }
  }
}

=== FILE: utils.dfy ===
/** The pure helpers of client/src/lib/utils.ts: truncation, the
    case-insensitive sentiment styling maps and the percentage change. */
module Utils {
  import opened Arith
  import opened Text

  // ---------------------------------------------------------------------
  // truncateText

  /** `text.slice(0, end)`: a negative `end` counts from the back and stops
      at the start, an `end` past the length stops at the length. */
  function SliceEnd(len: nat, end: int): (k: nat)
    ensures k <= len
    ensures 0 <= end <= len ==> k == end
    ensures end > len ==> k == len
    ensures end < 0 ==> k == if len + end < 0 then 0 else len + end
  {
    if end < 0 then (if len + end < 0 then 0 else len + end)
    else if end > len then len
    else end
  }

  const Ellipsis := "..."

  /** `truncateText`: a text that fits is returned as it is; a longer one
      is cut to `maxLength` characters and gets "..." appended. A negative
      `maxLength` never fits and cuts that many characters off the end. */
  function TruncateText(text: string, maxLength: int): (r: string)
    ensures |text| <= maxLength ==> r == text
    ensures 0 <= maxLength < |text| ==> r == text[..maxLength] + Ellipsis && |r| == maxLength + 3
    ensures maxLength < 0 ==> r == text[..SliceEnd(|text|, maxLength)] + Ellipsis
  {
    if |text| <= maxLength then text
    else text[..SliceEnd(|text|, maxLength)] + Ellipsis
  }

  /** Every result is the text itself or a prefix of it followed by
      "...". */
  lemma TruncateIsPrefix(text: string, maxLength: int)
    ensures var r := TruncateText(text, maxLength);
      r == text ||
      (|r| >= 3 && r[|r| - 3..] == Ellipsis && r[..|r| - 3] == text[..|r| - 3])
  {
    var r := TruncateText(text, maxLength);
    if r != text {
      var k := SliceEnd(|text|, maxLength);
      assert r == text[..k] + Ellipsis;
      assert r[..|r| - 3] == text[..k];
    }
  }

  /** With a non-negative limit, truncating a truncated text changes
      nothing more. */
  lemma TruncateIdempotent(text: string, maxLength: int)
    requires maxLength >= 0
    ensures TruncateText(TruncateText(text, maxLength), maxLength) == TruncateText(text, maxLength)
  {
    if |text| > maxLength {
      var r := TruncateText(text, maxLength);
      assert r[..maxLength] == text[..maxLength];
    }
  }

  // ---------------------------------------------------------------------
  // getSentimentColor / getSentimentIcon

  const GreenClass := "text-green-600 bg-green-100"
  const RedClass := "text-red-600 bg-red-100"
  const AmberClass := "text-amber-600 bg-amber-100"
  const GrayClass := "text-gray-600 bg-gray-100"

  /** `getSentimentColor`: the label is compared after lower-casing. */
  function SentimentColor(sentiment: string): (c: string)
    ensures ToLower(sentiment) == "positive" ==> c == GreenClass
    ensures ToLower(sentiment) == "negative" ==> c == RedClass
    ensures ToLower(sentiment) == "neutral" ==> c == AmberClass
    ensures ToLower(sentiment) !in {"positive", "negative", "neutral"} ==> c == GrayClass
  {
    var key := ToLower(sentiment);
    if key == "positive" then GreenClass
    else if key == "negative" then RedClass
    else if key == "neutral" then AmberClass
    else GrayClass
  }

  const HappyIcon := "ri-emotion-happy-line"
  const UnhappyIcon := "ri-emotion-unhappy-line"
  const NormalIcon := "ri-emotion-normal-line"
  const QuestionIcon := "ri-question-line"

  /** `getSentimentIcon`: the label is compared after lower-casing. */
  function SentimentIcon(sentiment: string): (i: string)
    ensures ToLower(sentiment) == "positive" ==> i == HappyIcon
    ensures ToLower(sentiment) == "negative" ==> i == UnhappyIcon
    ensures ToLower(sentiment) == "neutral" ==> i == NormalIcon
    ensures ToLower(sentiment) !in {"positive", "negative", "neutral"} ==> i == QuestionIcon
  {
    var key := ToLower(sentiment);
    if key == "positive" then HappyIcon
    else if key == "negative" then UnhappyIcon
    else if key == "neutral" then NormalIcon
    else QuestionIcon
  }

  /** Both maps ignore letter case: two labels that agree when lower-cased
      (such as "POSITIVE" and "positive") get the same class and icon, and
      lower-casing first changes nothing. */
  lemma StylingIgnoresCase(s1: string, s2: string)
    requires ToLower(s1) == ToLower(s2)
    ensures SentimentColor(s1) == SentimentColor(s2) && SentimentIcon(s1) == SentimentIcon(s2)
    ensures SentimentColor(ToLower(s1)) == SentimentColor(s1)
    ensures SentimentIcon(ToLower(s1)) == SentimentIcon(s1)
  {
    ToLowerIdempotent(s1);
  }

  /** "POSITIVE" is styled like "positive". */
  lemma UpperCaseLabel()
    ensures SentimentColor("POSITIVE") == GreenClass
    ensures SentimentIcon("POSITIVE") == HappyIcon
  {
    assert ToLower("POSITIVE") == "positive";
  }

  // ---------------------------------------------------------------------
  // calculatePercentChange

  /** The exact change from `previous` to `current` in percent. */
  ghost function ExactChange(current: int, previous: int): real
    requires previous != 0
  {
    (100 * (current - previous)) as real / previous as real
  }

  /** `calculatePercentChange`: from zero the change is 100 when the
      current value is positive and 0 otherwise; from any other value it
      is the exact percentage rounded to the nearest integer, halves
      going up. */
  function PercentChange(current: int, previous: int): (r: int)
    ensures previous == 0 ==> r == (if current > 0 then 100 else 0)
    ensures previous != 0 ==>
      r as real - 0.5 <= ExactChange(current, previous) < r as real + 0.5
  {
    if previous == 0 then (if current > 0 then 100 else 0)
    else
      var n := 100 * (current - previous);
      NearestRatio(n, previous);
      RoundRatio(n, previous)
  }

  /** `RoundRatio` rounds the exact quotient to the nearest integer, halves
      going up, whatever the sign of the divisor. */
  lemma NearestRatio(n: int, d: int)
    requires d != 0
    ensures RoundRatio(n, d) as real - 0.5 <= n as real / d as real < RoundRatio(n, d) as real + 0.5
  {
    if d > 0 {
      RoundHalfUpUnique(n, d, RoundRatio(n, d));
      RoundHalfUpNearest(n, d);
    } else {
      RoundHalfUpUnique(-n, -d, RoundRatio(n, d));
      RoundHalfUpNearest(-n, -d);
      NegateBoth(n, d);
    }
  }

  lemma NegateBoth(n: int, d: int)
    requires d != 0
    ensures (-n) as real / (-d) as real == n as real / d as real
  {
  }

  /** No change gives 0, and doubling a positive value gives 100. */
  lemma PercentChangeExamples(v: int)
    ensures PercentChange(v, v) == 0
    ensures v > 0 ==> PercentChange(2 * v, v) == 100
  {
    if v != 0 {
      NoChange(v);
    }
    if v > 0 {
      Doubled(v);
    }
  }

  lemma NoChange(v: int)
    requires v != 0
    ensures PercentChange(v, v) == 0
  {
    if v > 0 {
      RoundHalfUpExact(0, v);
    } else {
      RoundHalfUpExact(0, -v);
    }
  }

  lemma Doubled(v: int)
    requires v > 0
    ensures PercentChange(2 * v, v) == 100
  {
    assert 100 * (2 * v - v) == 100 * v;
    RoundHalfUpExact(100, v);
  }

  /** From a positive value, growth never reads as a fall and a fall never
      reads as growth. */
  lemma PercentChangeSign(current: int, previous: int)
    requires previous > 0
    ensures current >= previous ==> PercentChange(current, previous) >= 0
    ensures current < previous ==> PercentChange(current, previous) <= 0
  {
    var n := 100 * (current - previous);
    assert current >= previous ==> n >= 0;
    assert current < previous ==> n < 0;
    SignOfQuotient(n, previous);
  }

  lemma SignOfQuotient(n: int, d: int)
    requires d > 0
    ensures n >= 0 ==> n as real / d as real >= 0.0
    ensures n < 0 ==> n as real / d as real < 0.0
  {
  }
}

=== FILE: wrappers.dfy ===
/** Optional values and results with an error, used wherever the source
    returns `undefined`, `null` or an error response. */
module Wrappers {

  /** `None` stands for JavaScript's `undefined` / `null`. */
  datatype Option<+T> = None | Some(value: T) {

    function GetOr(default: T): T {
      match this
      case Some(v) => v
      case None => default
    }
  }

  /** A successful value or an error value. */
  datatype Result<+R, +E> = Ok(value: R) | Err(error: E)
}
